=== FILE: README.md ===
# codescan, modelled in Dafny

codescan is a command-line and desktop code scanner. It has two sources of findings:

- it asks a large language model for a JSON array of findings about a file;
- it matches the file against a local store of regular-expression rules.

The rules are kept in a vulnerability database: a map from language bucket to rule list. It can be extended by importing Semgrep rule files. The scanner walks a directory, skips excluded and binary files, and folds each file's findings and statistics into one scan result. The command line then writes that result as an HTML, JSON or text report.

This project is a functional model of that core. It covers:

- the rule store and its merge;
- the Semgrep converter;
- the path filter and the directory walk;
- the per-file analysis, with its JSON extraction and fallbacks;
- the scan-result record and its dict round trip;
- the directory and merge scans;
- the configuration file;
- the model-provider dispatch;
- the rule editor's map operations;
- the file utilities;
- the command-line pieces named below;
- the report pieces named below.

Everything the program gets from the outside world is a parameter of the operation that uses it. That includes the filesystem, the clock, the language model's reply, the regular-expression engine, the YAML and JSON parsers, git, and the thread pool's completion order.

Modules:

- `Wrappers`: `Option` and `Result`.
- `Text`: the string functions of Python the code relies on.
- `Json`: parsed values, with ordered dict fields.
- `Counter`: counting dicts.
- `Rules`: `vulndb.py`.
- `RuleEditor`: the map operations of `rule_manager.py`.
- `Semgrep`: `semgrep_converter.py`.
- `FileUtils`: `utils.py`.
- `Findings`: `VulnerabilityIssue` and `ScanResult`.
- `Walk`: the path filter and `_collect_files`.
- `Analysis`: `_analyze_file_content`.
- `Scanner`: `scan_file`, `scan_directory` and `create_merge_scan_result`.
- `Settings`: `config.py`.
- `Providers`: `models.py` and the scanner's choice of model.
- `Cli`: `cli.py`.
- `Reports`: `report.py`.

Behaviours worth knowing:

- Rule lookup concatenates the `common` bucket and the language bucket; it does not take their union. Asking for `common` yields every common rule twice (`Rules.CommonLookupDoubles`).
- A Semgrep rule can be dropped: conversion returns `None` when a field raises, for example a severity that is not a string.
- A `pattern-not` rule's negative lookahead, an ellipsis wildcard and a `pattern-either` alternation are all escaped afterwards. They are therefore stored as literal text.
- JSON extraction does not try the bracket cut as a separate fallback. The cut is applied to whichever text was chosen, the fenced block or the whole reply.
- The analysis does not only catch provider errors. Any exception turns the file's findings into one `API连接错误` finding: an item that is not an object, or a rule pattern that does not compile. That includes the rule findings already collected.

## Model

| member | source | states |
|---|---|---|
| Rules.PatternsFor | codescan/vulndb.py:156-165 | the common rules followed by the rules of the lower-cased language; a missing bucket contributes nothing |
| Rules.MissingBucketGetsCommon | codescan/vulndb.py:156-165 | a language without a bucket gets exactly the common rules |
| Rules.LookupIgnoresCase | codescan/vulndb.py:163 | languages that agree after lower-casing get the same rules |
| Rules.CommonLookupDoubles | codescan/vulndb.py:159-163 | asking for `common` returns the common rules twice |
| Rules.IndexOf | codescan/vulndb.py:346 | the id index holds every id of the bucket at a valid position |
| Rules.IndexOfLastWins | codescan/vulndb.py:346 | the index holds exactly the bucket's ids; for a repeated id the last position wins |
| Rules.MergeOne | codescan/vulndb.py:349-368 | one incoming rule adds at most one rule; stored rules keep their ids and are replaced only by a rule with a non-empty pattern |
| Rules.MergeBucket | codescan/vulndb.py:349-368 | after one bucket's loop, stored rules keep position and id, the bucket grows by exactly the number counted as added, every appended rule has an id the index did not hold, and the loop raises exactly when an item is not a usable rule |
| Rules.MergeEntries | codescan/vulndb.py:341-372 | the added count never decreases across the batch |
| Rules.MergeRaisesExactly | codescan/vulndb.py:341-382 | the merge stops in a bucket exactly when some item of the batch cannot be merged |
| Rules.MergeCountsAppends | codescan/vulndb.py:337-378 | the running count equals the growth of the whole store, whether or not the loop raised |
| Rules.MergeReturnsGrowth | codescan/vulndb.py:337-382 | the store never shrinks; without a failing item the return value is its growth; with one the return value is 0 |
| Rules.PartialMergeReturnsZero | codescan/vulndb.py:341-382 | a rule followed by a non-dict item is kept in the store while the merge returns 0 |
| Rules.FailedMergeLeavesEmptyBucket | codescan/vulndb.py:342-382 | a new bucket whose first item fails stays behind empty |
| Rules.ConvertedBatchNeverRaises | codescan/vulndb.py:341-368 | a batch of converted rule records never makes the merge raise |
| Rules.MergeFrame | codescan/vulndb.py:341-382 | buckets the batch does not name are untouched; starting without empty buckets, only the bucket whose loop raised can be left empty |
| Rules.MergeUnchangedBatch | codescan/vulndb.py:341-372 | re-merging rules with known ids and an empty or equal pattern returns 0 and leaves the store identical, with no empty bucket left behind |
| Rules.ReplaceInPlace | codescan/vulndb.py:358-364 | a known id with a new non-empty pattern replaces the rule at its index; length and count unchanged |
| Rules.FreshRulesAllAppended | codescan/vulndb.py:346-368 | rules with ids not in the index are all appended in order, even when they share an id with each other |
| Rules.DuplicateNewIdsKept | codescan/vulndb.py:346-368 | two new rules with one id both land in the bucket, so ids are not kept unique |
| Rules.SynthesizedIdNumber | codescan/vulndb.py:353-355 | a rule without an id is filed as `lang-NNNN`, numbered bucket length plus running count plus one |
| Rules.SynthesizedIdOverwrites | codescan/vulndb.py:352-364 | a synthesized id can collide with a stored id; the id-less rule then overwrites that rule and is not counted |
| Rules.IdLessRuleNeverOverwrites | codescan/vulndb.py:352-368 | with the correction, an id-less rule is always appended under its synthesized id and counted |
| Rules.Save | codescan/vulndb.py:140-154 | the rules in memory never change; the file holds them unless its write failed; the timestamp is renewed only when both writes succeed |
| Rules.SaveResetsStaleness | codescan/vulndb.py:140-188 | a fully successful save makes the database fresh; one whose timestamp write failed leaves staleness as it was |
| Rules.ShouldUpdate | codescan/vulndb.py:167-193 | a missing or unreadable record means update; a record stamped now, with a non-negative interval, means no update |
| Rules.ShouldUpdateThreshold | codescan/vulndb.py:184-188 | with a readable stamp, update exactly when strictly more than the interval in seconds has passed |
| Rules.ShouldUpdateMonotone | codescan/vulndb.py:184-188 | once stale, the database stays stale as time passes |
| Rules.Update | codescan/vulndb.py:201-245 | success exactly for a configured URL, a 200 reply and a dict payload; success replaces the whole store and saves it unless the write fails; failure changes nothing |
| Rules.Open | codescan/vulndb.py:23-40 | loaded rules are kept unless an automatic update is due; when loading fails, the default rules are created and saved, unless the write fails |
| Rules.UpdateRefreshes | codescan/vulndb.py:140-245 | a successful, fully saved update leaves the database fresh; a failed update leaves its staleness as it was |
| Rules.OpenAutoUpdate | codescan/vulndb.py:35-40 | a stale database opened with automatic updates on takes the fetched rules and is then fresh, or keeps the loaded rules when the update fails |
| Rules.MergeIntoDb | codescan/vulndb.py:328-382 | the store is the merge's; the file is written only when something was added, and only if the write succeeds |
| Rules.ImportAndSave | codescan/vulndb.py:247-326 | the JSON and Semgrep imports merge the batch, save what the merge left, and report success even when the merge raised |
| Rules.ImportGithub | codescan/vulndb.py:384-414 | the GitHub import succeeds exactly when the converter counted rules, and then returns the merge's added count; otherwise it changes nothing and returns 0 |
| Rules.GithubUpdatesNotSaved | codescan/vulndb.py:403-407 | a GitHub import that only updates patterns changes memory but not the file on disk |
| Rules.DefaultStoreWellFormed | codescan/vulndb.py:46-125 | the default database has four non-empty buckets with distinct ids; Python files get five rules |
| RuleEditor.Validate | codescan/rule_manager.py:133-148 | the dialog closes exactly when id, name and pattern are all non-empty; otherwise it reports the first empty one |
| RuleEditor.InitialForm | codescan/rule_manager.py:65-87 | the dialog shows the rule's first language and severity when the combo boxes offer them, else the combo's first entry |
| RuleEditor.RuleData | codescan/rule_manager.py:110-131 | the edited record has exactly one language, keeps the source (default `user`) and carries the form's id, name and pattern |
| RuleEditor.AddRule | codescan/rule_manager.py:343-352 | a valid rule is appended to its language's bucket, created if absent; other buckets are unchanged; an invalid form changes nothing |
| RuleEditor.AddRuleGrows | codescan/rule_manager.py:348-352 | adding grows the store by one, and a repeated id breaks id uniqueness |
| RuleEditor.FindRule | codescan/rule_manager.py:380-386 | the first index holding the id, or -1 when none does |
| RuleEditor.EditRule | codescan/rule_manager.py:378-417 | editing fails when the id is not shown; success needs a found rule and a valid form |
| RuleEditor.EditInPlace | codescan/rule_manager.py:415-417 | when the rule lives in its declared bucket and the language is kept, only the rule at its index changes |
| RuleEditor.EditMovesRule | codescan/rule_manager.py:406-414 | a language change pops the rule from the old bucket, which may stay empty, and appends it to the new one; the total is unchanged, the new bucket is the only key added, and every other bucket is untouched |
| RuleEditor.EditDefaultCommonRuleFails | codescan/rule_manager.py:403-408 | an untouched edit of a default common rule fails, because its declared language `*` has no bucket |
| RuleEditor.EditOverwritesOtherBucket | codescan/rule_manager.py:380-417 | the index found in the displayed bucket is applied in the declared bucket, overwriting an unrelated rule |
| RuleEditor.EditRuleFixed | codescan/rule_manager.py:380-417 | the corrected edit fails exactly when the id is not shown |
| RuleEditor.EditFixedTouchesOnlySelected | codescan/rule_manager.py:403-417 | the corrected edit changes only the selected rule and keeps the total |
| RuleEditor.DeleteRule | codescan/rule_manager.py:452-463 | the first rule with the id is removed from the displayed bucket and the rest keep their order; other buckets and the key set are unchanged; an absent id changes nothing |
| RuleEditor.DeleteShrinks | codescan/rule_manager.py:461-463 | deleting removes exactly one rule and can leave an empty bucket |
| Semgrep.EscapeRoundTrip | codescan/semgrep_converter.py:129 | `re.escape` output has every metacharacter escaped and reads back as the input |
| Semgrep.UnescapeRoundTrip | codescan/semgrep_converter.py:129 | every well-escaped text is the escape of what it reads back as |
| Semgrep.EscapeConcat | codescan/semgrep_converter.py:129 | escaping works character by character |
| Semgrep.StripLeavesNone | codescan/semgrep_converter.py:122 | no metavariable survives stripping |
| Semgrep.StripKeepsClean | codescan/semgrep_converter.py:122 | a text without metavariables is unchanged |
| Semgrep.StripIdempotent | codescan/semgrep_converter.py:122 | stripping twice is stripping once |
| Semgrep.Sanitise | codescan/semgrep_converter.py:121-133 | the stored pattern is always well escaped |
| Semgrep.EllipsisBecomesLiteral | codescan/semgrep_converter.py:123-129 | `a...b` is stored as `a\.\*\?b`, a literal and not a wildcard |
| Semgrep.Alternatives | codescan/semgrep_converter.py:53-59 | an entry is kept exactly when it is a string or a mapping with a string `pattern`; a list of strings keeps them all |
| Semgrep.EitherPattern | codescan/semgrep_converter.py:50-62 | a `pattern-either` gives no pattern exactly when it has no usable alternative |
| Semgrep.EitherBecomesLiteral | codescan/semgrep_converter.py:62-129 | alternatives joined with `|` and then escaped match the literal `a|b` |
| Semgrep.ChainPattern | codescan/semgrep_converter.py:41-75 | a present but unusable `pattern` blocks every later key; no key of the chain gives no pattern |
| Semgrep.ScanNested | codescan/semgrep_converter.py:84-90 | the nested loop yields the current value or a string `pattern` from the list |
| Semgrep.Placeholder | codescan/semgrep_converter.py:101-113 | the placeholder is a `# ` comment |
| Semgrep.NoPatternPlaceholder | codescan/semgrep_converter.py:100-113 | a rule with no pattern key converts exactly when its severity and name do, and stores `# CWE-<cwe>` when the metadata mapping has `cwe`, else `# OWASP-<owasp>` when it has `owasp`, else `# <id>`, also when the metadata is missing or not a mapping |
| Semgrep.PatternText | codescan/semgrep_converter.py:100-118 | a falsy result is replaced by the placeholder; a string result is kept |
| Semgrep.NoPatternUsesId | codescan/semgrep_converter.py:110-113 | a rule with no pattern key is kept with `# <id>` |
| Semgrep.FieldText | codescan/semgrep_converter.py:29-32 | a string field is taken as is; a missing one is empty |
| Semgrep.RuleName | codescan/semgrep_converter.py:35 | a non-empty string name is used; otherwise the first 50 characters of the message, or empty without one |
| Semgrep.ConvertRule | codescan/semgrep_converter.py:17-153 | a rule converts exactly when its severity, name and pattern fields do not raise; the result has the rule's id, name, message and languages, is sanitised and well escaped, has source `semgrep`, and keeps metadata exactly when it is a mapping |
| Semgrep.MetavariableOnlyPattern | codescan/semgrep_converter.py:122-129 | a pattern made only of a metavariable is stored empty |
| Semgrep.Append | codescan/semgrep_converter.py:223-225 | appending grows one bucket at its end and leaves the others alone |
| Semgrep.AppendKeys | codescan/semgrep_converter.py:223-225 | a new bucket goes last and existing buckets keep their places |
| Semgrep.AppendDistinct | codescan/semgrep_converter.py:223-225 | bucket names stay distinct |
| Semgrep.Extend | codescan/semgrep_converter.py:265-268 | merging file results preserves the total rule count |
| Semgrep.ExtendKeys | codescan/semgrep_converter.py:265-268 | existing buckets keep their places, and names stay distinct |
| Semgrep.BucketNames | codescan/semgrep_converter.py:214-222 | falsy languages give `common`; otherwise each item is lower-cased, with `common` for a falsy item; a non-iterable value raises |
| Semgrep.AddToBuckets | codescan/semgrep_converter.py:221-225 | a rule is added once per named bucket; other buckets are unchanged |
| Semgrep.AddToBucketsFacts | codescan/semgrep_converter.py:221-225 | every named bucket holds the rule afterwards |
| Semgrep.ConvertStepsComplete | codescan/semgrep_converter.py:205-225 | without an abort, every converted rule is in each bucket it names |
| Semgrep.ConvertFile | codescan/semgrep_converter.py:165-202 | an unreadable file, an empty document, or a document with no rule entries gives no buckets |
| Semgrep.ConvertFileDistinct | codescan/semgrep_converter.py:165-229 | a file's buckets have distinct names |
| Semgrep.SeedBuckets | codescan/semgrep_converter.py:241-251 | the directory import starts from the nine standard buckets, all empty |
| Semgrep.ConvertDir | codescan/semgrep_converter.py:241-274 | the directory result holds exactly the rules of its files |
| Semgrep.ConvertDirShape | codescan/semgrep_converter.py:241-268 | the nine standard buckets come first, and names are distinct |
| Semgrep.RepoDirs | codescan/semgrep_converter.py:414-448 | with languages, the lower-cased names that are directories; without, every top-level directory not skipped |
| Semgrep.ImportFromGithub | codescan/semgrep_converter.py:404-459 | the count is the number of rules merged; a failed clone yields nothing |
| FileUtils.SplitExt | codescan/utils.py:74 | `splitext` splits the path in two; the extension is empty or a dot with no further dot or slash, and it is non-empty exactly when the last component has a dot after some other character |
| FileUtils.Language | codescan/utils.py:64-75 | a lower-cased path that ends in a table extension gets that entry; one ending in none of them gets `unknown` |
| FileUtils.LanguageIgnoresCase | codescan/utils.py:74 | the language does not depend on the path's case |
| FileUtils.GoAndCppGetOnlyCommon | codescan/utils.py:26-28 | `.go` and `.cpp` files receive only the common rules |
| FileUtils.IsBinary | codescan/utils.py:104-127 | binary on a binary MIME prefix, an unopenable file or a NUL byte; otherwise exactly when the first 1024 bytes are not UTF-8 |
| FileUtils.CutCharacterLooksBinary | codescan/utils.py:114-124 | a UTF-8 text whose 1024th byte starts a two-byte character is called binary |
| FileUtils.TextFileIsText | codescan/utils.py:104-127 | with the correction, valid UTF-8 without NUL bytes or a binary MIME type is never binary |
| FileUtils.ExtensionStatsCounts | codescan/utils.py:264-270 | each extension counts its files; files without one are skipped; the total is at most the file count |
| FileUtils.ReportFilename | codescan/utils.py:272-292 | the name starts `codescan_` and ends with the extension |
| FileUtils.ReportFilenameName | codescan/utils.py:286-292 | the name part is the base name, without its extension for a file |
| Findings.IssuesBySeverityCounts | codescan/scanner.py:56-62 | every severity is counted as often as it occurs; the five known head the keys; the counts sum to `total_issues` |
| Findings.IssueRoundTrip | codescan/scanner.py:71-83 | a finding saved with `vars` loads back as itself |
| Findings.IssuesRoundTrip | codescan/scanner.py:71-83 | a list of findings loads back as itself |
| Findings.DictRoundTrip | codescan/scanner.py:64-86 | `from_dict(to_dict(r))` gives back `r` |
| Findings.WithoutIssues | codescan/scanner.py:83-84 | the constructor arguments hold no `issues` entry |
| Walk.ExclusionReason | codescan/scanner.py:142-166 | the checks fire in order: excluded directory, suffix, size, binary |
| Walk.ExclusionCases | codescan/scanner.py:142-166 | a path is excluded exactly when one of the four checks fires; size and content apply only to regular files |
| Walk.JoinPath | codescan/scanner.py:184 | the joined path starts with the directory and ends with the name |
| Walk.PartsOfJoin | codescan/scanner.py:142-146 | joining a name adds exactly that name to the path's parts |
| Walk.KeepFiles | codescan/scanner.py:183-186 | only files that pass the exclusion check are kept |
| Walk.Collect | codescan/scanner.py:168-188 | every collected file passes the exclusion check |
| Walk.AllFilesBelow | codescan/scanner.py:179-184 | every walked path lies below the start directory |
| Walk.PrunedHoldsNothing | codescan/scanner.py:145-147 | a pruned directory holds nothing the check would let through |
| Walk.PruningIsSafe | codescan/scanner.py:179-188 | the pruned walk returns exactly the files of the full walk that pass the check, in the same order |
| Analysis.FirstNonBlank | codescan/scanner.py:253-257 | the first non-blank capture, or none when all are blank |
| Analysis.Block | codescan/scanner.py:250 | a fenced capture lies between its fence and the closing fence, without surrounding whitespace |
| Analysis.BracketsKeep | codescan/scanner.py:267-271 | a text that starts with `[` or lacks a bracket is kept |
| Analysis.BracketsCut | codescan/scanner.py:267-271 | otherwise the text is cut from the first `[` to the last `]`, or emptied when they cross |
| Analysis.UnfencedReplyUsedWhole | codescan/scanner.py:259-261 | a reply without a fence is used whole |
| Analysis.FencedReply | codescan/scanner.py:250-257 | a reply that is one fenced block yields the block's text |
| Analysis.ApiError | codescan/scanner.py:329-338 | the error finding is `info` with `high` confidence and an `API连接错误` description |
| Analysis.ModelIssue | codescan/scanner.py:277-286 | each string field comes from the object or takes its default |
| Analysis.ModelIssues | codescan/scanner.py:276-286 | the loop succeeds exactly when every item is an object, and then gives one finding per item, in order |
| Analysis.Around | codescan/scanner.py:312-313 | the snippet window holds up to two lines either side, within the file |
| Analysis.RuleIssueLocates | codescan/scanner.py:303-325 | a rule finding points at the first matching line, counted from 1, with its window; with no matching line it has neither line nor snippet |
| Analysis.Matching | codescan/scanner.py:299-302 | only rules whose pattern is found in the file match |
| Analysis.MatchingComplete | codescan/scanner.py:299-302 | every rule whose pattern is found is among the matching ones; when the engine matches the empty pattern everywhere, so is every rule with an empty pattern |
| Analysis.EmptyPatternMatchesEverything | codescan/scanner.py:299-316 | a rule with a missing or empty pattern matches every file, and its finding points at line 1 with the first three lines as snippet |
| Analysis.RuleFindings | codescan/scanner.py:299-325 | the rule loop fails exactly when a pattern does not compile; otherwise it gives one finding per matching rule, in order |
| Analysis.AdapterFailure | codescan/scanner.py:241-244 | an adapter that raises gives one error finding carrying its message |
| Analysis.FailureGivesOneFinding | codescan/scanner.py:276-338 | a non-object item or an uncompilable pattern replaces all findings with one error finding |
| Analysis.NonListRaises | codescan/scanner.py:276-286 | a decoded scalar, non-empty dict or non-empty string raises |
| Analysis.UnparsedReplyKeepsRules | codescan/scanner.py:287-325 | a reply that is not JSON gives one fallback finding followed by the rule findings |
| Analysis.ParsedReplyFindings | codescan/scanner.py:273-327 | a list of objects gives one finding per object, then one per matching rule |
| Scanner.CountLines | codescan/utils.py:77-92 | the line count never exceeds the text's length |
| Scanner.LineCountMatchesSplit | codescan/utils.py:87-89 | the line count is the number of `split` pieces, less the empty piece after a final newline |
| Scanner.ScanFile | codescan/scanner.py:340-401 | a missing file raises; an excluded file gives no findings and empty statistics |
| Scanner.ScannedFileStats | codescan/scanner.py:361-391 | a readable file gets the analysis's findings and statistics with its line count, language and size |
| Scanner.FoldTotals | codescan/scanner.py:459-481 | the fold joins every file's findings and sums its lines, languages and extensions |
| Scanner.CompletionOrderIrrelevant | codescan/scanner.py:453-481 | any two completion orders give the same findings as a multiset and the same statistics |
| Scanner.ProgressBounds | codescan/scanner.py:482-484 | progress stays between 10 and 80 and reaches 80 with the last file |
| Scanner.ReportsRise | codescan/scanner.py:427-513 | reported progress never goes down, stays within 0 to 100, and ends at 95 or 100 |
| Scanner.ScanDirectory | codescan/scanner.py:403-515 | given completions that are the per-file scan results in some order, there is one per collected file; a missing directory raises; the result names the directory, and the reports are those of the file count |
| Scanner.DirectoryResult | codescan/scanner.py:453-504 | the findings are, as a multiset, the findings of scanning each collected file, the line total is those scans' line total, and the statistics count files, lines, languages and extensions |
| Scanner.DirectoryScanOrderFree | codescan/scanner.py:453-497 | any two completion orders of the same per-file scans agree on findings and statistics |
| Scanner.DirectoryProgress | codescan/scanner.py:448-484 | with one result per collected file, `total_files` is the number of results folded, the per-file reports end at exactly 80, and all reports rise within 0 to 100 |
| Scanner.EmptyDirectory | codescan/scanner.py:436-441 | no files to scan gives the error statistic and reports 5, 10, 100 |
| Scanner.MergeCounts | codescan/scanner.py:517-570 | the merge result keeps the findings and counts only the changed files that exist |
| Scanner.AllExisting | codescan/scanner.py:545-559 | when every changed file exists, each is counted once |
| Settings.Load | codescan/config.py:83-105 | a value that is not a dict, or a failed read, gives the defaults |
| Settings.FillFromFails | codescan/config.py:93-98 | the section loop fails exactly when some section cannot be filled |
| Settings.LoadKeepsValues | codescan/config.py:93-98 | loading keeps every value a dict section already had |
| Settings.LoadFillsMissing | codescan/config.py:93-98 | after loading, a default key reads as its stored value, or as the default when it was missing |
| Settings.UnfillableSectionFallsBack | codescan/config.py:93-105 | a section that is not a dict and lacks a default key makes the load fall back to the defaults |
| Settings.AsConfigStable | codescan/config.py:16-60 | the defaults need no filling |
| Settings.LoadIdempotent | codescan/config.py:83-105 | loading what a load produced gives it back |
| Settings.GetSetting | codescan/config.py:143-146 | a missing section or key gives the default; a section that is not a dict raises |
| Settings.SetSetting | codescan/config.py:156-160 | assignment fails exactly when the section exists and is not a dict |
| Settings.SetThenGet | codescan/config.py:156-160 | reading back what was set gives it |
| Settings.SetChangesOnlyKey | codescan/config.py:156-160 | `set` changes no other setting |
| Settings.SetCreatesSection | codescan/config.py:156-157 | a created section holds exactly the new key |
| Settings.ModelConfig | codescan/config.py:171-172 | the lookup raises exactly when `models` is not a dict |
| Settings.ModelConfigFallback | codescan/config.py:171-172 | the named entry, else `default`, else `{}` |
| Settings.AddModelConfig | codescan/config.py:185-193 | adding fails exactly when `models` exists and is not a dict |
| Settings.AddThenGet | codescan/config.py:185-193 | the entry reads back with exactly provider, model, key and token limit; other entries are unchanged |
| Providers.CustomHandler | codescan/models.py:188-194 | missing headers and parameters become `{}`; only headers that are not a dict can fail |
| Providers.BearerAdded | codescan/models.py:193-194 | with a key and no `Authorization` header, the bearer header is appended and the others are kept |
| Providers.HeadersKept | codescan/models.py:193 | an existing `Authorization` header, or no key, leaves the headers as configured |
| Providers.CustomFailsOnlyOnBadHeaders | codescan/models.py:190-194 | construction fails exactly when a key is given and the headers are not a dict |
| Providers.OverlayLookup | codescan/models.py:206-209 | after the overlay, a parameter's key reads as its value and any other key as in the base |
| Providers.Body | codescan/models.py:206-209 | the body can be built exactly when the parameters are a dict |
| Providers.BodyOverlay | codescan/models.py:206-209 | the body holds every parameter, and the prompt unless a parameter overrides it |
| Providers.Reply | codescan/models.py:217-230 | a status other than 200 raises with the status in the message |
| Providers.ReplyPrecedence | codescan/models.py:223-230 | `response` before `output` before `result`, else the reply's `str` |
| Providers.ReplyNonDict | codescan/models.py:223-230 | a list or string reply is answered with its `str` exactly when it mentions no reply key |
| Providers.HandlerOf | codescan/models.py:256-283 | a falsy provider is invalid; `max_tokens` is converted before dispatch; an unknown provider is rejected; `anthropic` fails when its package is not installed |
| Providers.ProviderDispatch | codescan/models.py:266-283 | the handler kind follows the provider, and only the four known providers are accepted; `anthropic` builds exactly when its package is installed |
| Providers.MissingAnthropicFallsBack | codescan/scanner.py:111-122 | without the `anthropic` package, an Anthropic model fails to build and the scanner falls back to `default` |
| Providers.DeepseekDefaultUrl | codescan/models.py:264-274 | DeepSeek defaults to its own URL, OpenAI to none; the token limit defaults to 8192 |
| Providers.ExplicitBaseUrl | codescan/models.py:266-274 | an explicit base URL is kept |
| Providers.BadMaxTokensFirst | codescan/models.py:264 | an unconvertible `max_tokens` fails for every provider |
| Providers.Listed | codescan/models.py:291-298 | listing fails exactly when some entry is not a dict |
| Providers.ListedExactly | codescan/models.py:294-297 | a name is listed exactly when some entry of that name has a known provider |
| Providers.ListedInOrder | codescan/models.py:294-297 | listing keeps the configuration's order |
| Providers.AvailableModels | codescan/models.py:291-298 | listing fails exactly when `models` is not a dict or holds a non-dict entry |
| Providers.ListedModelsDispatch | codescan/models.py:256-298 | every listed model's provider is accepted by dispatch |
| Providers.ChooseModel | codescan/scanner.py:103-122 | the chosen handler is the one its name builds; there is no handler only when falling back to `default` fails |
| Providers.ChosenName | codescan/scanner.py:106-122 | the requested name is used only when it has a key and its handler builds |
| Providers.NoHandlerOnlyForDefault | codescan/scanner.py:113-122 | the scanner is left without a handler exactly when it is on `default` and that handler fails |
| Cli.MaskShape | codescan/cli.py:60 | a long key keeps its length, first six and last four characters; a short key shows six stars |
| Cli.MaskForgetsMiddle | codescan/cli.py:60 | two keys that agree on their ends and length are masked alike |
| Cli.ShownKey | codescan/cli.py:57-63 | a string key is masked and a falsy key is not set |
| Cli.Show | codescan/cli.py:50-74 | `--show` prints the default entry with its defaults |
| Cli.ShowDefaults | codescan/cli.py:50-64 | on the shipped defaults it shows DeepSeek with no key |
| Cli.ResolveBaseUrl | codescan/cli.py:87-91 | the option, else the DeepSeek URL for DeepSeek, else the stored default's URL, else empty |
| Cli.ConfigApi | codescan/cli.py:76-135 | non-dict `models`, a non-dict default entry that some option falls back to, or a missing key, exit 1 and change nothing |
| Cli.NonDictDefaultEntry | codescan/cli.py:78-135 | a non-dict default entry fails only when an option falls back to it; with every option given, the update goes through |
| Cli.MissingKeyAborts | codescan/cli.py:93-99 | no key in the options or the configuration exits 1 without saving |
| Cli.SavedDefault | codescan/cli.py:101-120 | after an update, `models` is a dict and the default entry holds the new provider, model, key and URL |
| Cli.UpdatedModels | codescan/cli.py:112-119 | the provider's own entry is mirrored, and every other entry and section is unchanged |
| Cli.ReportFormat | codescan/cli.py:166 | the format is the extension without its dot, or `html` |
| Cli.DefaultReportFormat | codescan/cli.py:163-166 | the default report file is written as HTML |
| Cli.ReportFormatCases | codescan/cli.py:166 | no extension or a bare dot gives HTML; any other extension gives itself |
| Cli.CommandRoundTrip | codescan/cli.py:454-471 | exactly eight names are recognised, each as its own command |
| Cli.Dispatch | codescan/cli.py:454-474 | a known command returns its handler's code; anything else returns 1 |
| Cli.DispatchRuns | codescan/cli.py:454-474 | every command runs its own handler |
| Cli.MergeIssues | codescan/cli.py:316-320 | only changed paths that are files are scanned; findings are joined in diff order |
| Cli.MergeIssuesConcat | codescan/cli.py:316-320 | two runs of paths give their findings joined in order |
| Cli.SkipsNonFiles | codescan/cli.py:318 | a changed path that is not a file contributes nothing |
| Cli.GitMergeScan | codescan/cli.py:303-328 | no changed paths exits with no report; otherwise the merge result under id `git-merge-<branch>-<current>` |
| Reports.GeneratorIgnoresCase | codescan/report.py:1273-1282 | a name selects a generator exactly when its lower-case form is one of the three |
| Reports.UpperCaseAccepted | codescan/report.py:1273-1280 | upper-case spellings are accepted |
| Reports.GenerateReport | codescan/report.py:35-48 | with a path, the content is written there and the path returned; without one, the content is returned |
| Reports.Rank | codescan/report.py:957-963 | ranks 0 to 4 are the known severities in order; anything else ranks 5 |
| Reports.SortIssuesSorted | codescan/report.py:955-964 | the listing is ordered by rank |
| Reports.SortIssuesPermutes | codescan/report.py:955-964 | the listing holds exactly the findings |
| Reports.SortIssuesStable | codescan/report.py:955-964 | each rank's findings keep their order |
| Reports.InsertOfRank | codescan/report.py:955-964 | inserting adds a finding to its own rank only |
| Reports.TextTallyCounts | codescan/report.py:1133-1144 | the tally has exactly the five known keys and agrees with `issues_by_severity` on them |
| Reports.TextTallyTotal | codescan/report.py:1152 | the printed total falls short of `total_issues` exactly when some severity is unknown |
| Reports.HighRiskCount | codescan/report.py:461 | the high-risk figure is the critical plus the high findings, at most `total_issues` |

## Left out

- Network and language-model calls are left out, because they are outside the program's logic:
  - the OpenAI and Anthropic SDK clients;
  - the HTTP request of the custom handler and of `update` / `download_semgrep_rules`;
  - the git clone with its retries.

  Their results arrive as parameters: the reply status and payload, whether the clone succeeded, and the converted batches.
- File reading and writing are parameters or left out:
  - the YAML and JSON parsers;
  - `save_config`, whose own errors are swallowed;
  - the `env.json` proxy file, given as a flag saying whether the write succeeded;
  - environment variables and proxies.
- The report layout (HTML, JSON and text content) is left out. Only the sort, the tallies, the generator choice and the return contract of `generate_report` are modelled. The report file write, which can raise, is left out.
- `extract_file_info`, `_generate_file_info` and `_generate_project_info` are heuristics. Their result is a parameter (`projectInfo`).
- The scanner constructor's reading of the scan settings (`scanner.py:124-131`) is left out. `Walk.ScanConfig` is a parameter.
- The timeout setting is left out; it is never used.
- The prompt text is left out. Logging, printing and progress messages are left out; only progress percentages are modelled.
- The thread pool is a parameter. Each file's `scan_file` outcome is a parameter (`scan`), and the completions are any order of those outcomes, one per collected file (`Scanner.FromFiles`).
- Python object aliasing is not modelled, for three reasons:
  - the converter places the same rule object in several buckets;
  - the merge writes synthesized ids back into the caller's rule;
  - `DEFAULT_CONFIG.copy()` is shallow.
- Floating point is not modelled:
  - timestamps are integers;
  - file sizes are compared in whole bytes;
  - the progress `int(70.0 * k / n)` is floor division, which agrees for these small non-negative values.
  - parsed JSON and YAML values have no float case, so a float setting such as `max_tokens: 4096.0`, which `int()` in `models.py` accepts, cannot be represented.
- Json.Repr: Python's `repr` escapes inside strings, and the model does not. Quotes, backslashes and non-printable characters are copied as they are, and a string containing `'` is not switched to double quotes. So `{'a': "it's"}` comes out as `{'a': 'it's'}`. This touches every place a non-string value passes through `str()`: the reply text `Providers.Reply` falls back to, the `# CWE-` and `# OWASP-` placeholders of `Semgrep.Placeholder`, and the `Bearer` key of the custom provider.
- `Text.Lower` lower-cases ASCII letters only.
- Paths are POSIX paths.
- `int()` of a string is modelled as parsing an optionally signed decimal. Other numeric spellings are left out.
- A non-JSON custom API reply raises, like any other exception reaching the scanner. It is reported as `API连接错误`.
- `export_rules`, the dialogs and the rule table are Qt user interface and are left out. So are `gui.py`, `styles.py` and `__main__.py`.
- Providers.ChooseModel: a scanner left without a handler is modelled as no handler. The later call on it raises, which the analysis reports as an error finding.
- Rules.ShouldUpdate: the stamp is given as the parsed record. Reading the clock and the file is left out.
- Scanner.ScanFile: reading the file may fail, which is given as the text's `Err`. The exception message is an opaque string.
- Findings.FromDict: the typed record does not hold arbitrary JSON values. A field of the wrong JSON type (a `scan_id` of `1`, say) is refused with `WrongType`, where the dataclass would store it as it is.
- Analysis.ModelIssue: the same typed record is used. A non-string text field is stored as its `str` (so `null` becomes `"None"`), and a `line_number` that is not an integer or boolean is dropped; Python keeps both as they are. A list severity, which makes `issues_by_severity` raise on an unhashable key, is counted under its `str` instead.
- Semgrep.ConvertRule: the converted record has string fields, where Python keeps the raw value. A falsy non-string `id`, `name` or `message` (`null`, `0`, `false`, `[]`, `{}`) is stored as ""; any other non-string is stored as its `str`.
- Rules.Update: the fetched payload is a typed rule store. `update` accepts any JSON object, so a payload such as `{"python": "x"}` or `{"python": [1]}`, which Python installs and saves as the whole database, is not expressible.
- Rules.Open: the loaded file is a typed rule store too. A JSON object whose bucket values are not lists of rule objects (`{"python": "x"}`, say), which `_load_patterns` keeps, is not expressible; a file whose values have no length, which makes loading fail, is `LoadFailed`.
- Analysis.RuleFindings: the regular-expression engine is a parameter. The only law stated about it is `EmptyMatchesAll`: the empty pattern compiles and is found in every text.
- Rules.MergeEntries: incoming rule records are typed. A rule whose `id` or `pattern` is a non-string value is not modelled; a top-level batch that is not a dict, where `items()` raises and the merge returns 0 with nothing changed, is not modelled either.
- Rules.Save: a rules-file write that fails part way through leaves a truncated file; the model has the file keep its old contents. One `Write` outcome applies to every save within one call of `Open`, `MergeIntoDb` or `ImportAndSave`.

## Findings

The operations keep each behaviour below as written, so that they stay comparable with the code. Each corrected definition is declared beside the operation it corrects, together with the property it was meant to have.

| source | as written | input that shows it | evidently intended | confidence | as-written member | corrected member |
|---|---|---|---|---|---|---|
| codescan/vulndb.py:352-364 | a synthesized id is looked up in the id index like a supplied one | store `python: [rule with id python-0002]`, batch `python: [rule without id]` | a rule without an id is always a new rule | not executed | Rules.SynthesizedIdOverwrites | Rules.IdLessRuleNeverOverwrites (about Rules.MergeOneFixed) |
| codescan/rule_manager.py:380-417 | the index found in the displayed bucket is applied to the bucket of the rule's first declared language | rule `a` shown under `python` with languages `[javascript, python]`, and bucket `javascript: [b, a]` | edit the rule in the bucket where it was found | not executed | RuleEditor.EditOverwritesOtherBucket | RuleEditor.EditFixedTouchesOnlySelected (about RuleEditor.EditRuleFixed) |
| codescan/utils.py:104-127 | the first 1024 bytes are decoded as UTF-8, even when a multi-byte character is cut at the boundary | 1023 `a` bytes followed by `C3 A9` | accept a character cut short by the 1024-byte boundary | not executed | FileUtils.CutCharacterLooksBinary | FileUtils.TextFileIsText (about FileUtils.IsBinaryFixed) |

=== FILE: analysis.dfy ===
/** The per-file analysis of `CodeScanner._analyze_file_content` in
    `codescan/scanner.py`: picking the JSON array out of the model's reply,
    turning it into findings with their fallbacks, and matching the rule
    store against the file. The model adapter, `json.loads` and Python's
    `re` are oracles passed in. */
module Analysis {
  import opened Wrappers
  import Text
  import opened Json
  import Rules
  import FileUtils
  import opened Findings

  // ---------------------------------------------------------------------
  // Scanning the reply text

  /** `needle` occurs in `s` at index `j`. */
  predicate At(s: string, j: nat, needle: string) {
    j + |needle| <= |s| && s[j..j + |needle|] == needle
  }

  /** The first occurrence of `needle` at or after `from`, or -1. */
  function FindFrom(s: string, needle: string, from: nat): (r: int)
    requires |needle| > 0
    ensures r == -1 || (from <= r && At(s, r, needle))
    ensures r == -1 ==> forall j :: from <= j ==> !At(s, j, needle)
    ensures r >= 0 ==> forall j :: from <= j < r ==> !At(s, j, needle)
    decreases |s| - from
  {
    if from + |needle| > |s| then -1
    else if At(s, from, needle) then from
    else FindFrom(s, needle, from + 1)
  }

  lemma FindFromIs(s: string, needle: string, from: nat, k: nat)
    requires |needle| > 0 && from <= k && At(s, k, needle)
    requires forall j :: from <= j < k ==> !At(s, j, needle)
    ensures FindFrom(s, needle, from) == k
  {
  }

  /** The first index at or after `q` that is not whitespace (`\s*`). */
  function SkipSpace(s: string, q: nat): (r: nat)
    requires q <= |s|
    ensures q <= r <= |s| && Text.AllSpace(s[q..r])
    ensures r < |s| ==> !Text.IsSpace(s[r])
    decreases |s| - q
  {
    if q < |s| && Text.IsSpace(s[q]) then
      var r := SkipSpace(s, q + 1);
      assert s[q..r] == [s[q]] + s[q + 1..r];
      r
    else q
  }

  /** The start of the whitespace run that ends at `f`, not before `q`. */
  function SpaceRunStart(s: string, q: nat, f: nat): (r: nat)
    requires q <= f <= |s|
    ensures q <= r <= f && Text.AllSpace(s[r..f])
    ensures r > q ==> !Text.IsSpace(s[r - 1])
    decreases f - q
  {
    if f > q && Text.IsSpace(s[f - 1]) then
      var r := SpaceRunStart(s, q, f - 1);
      assert s[r..f] == s[r..f - 1] + [s[f - 1]];
      r
    else f
  }

  /** The block opened by the fence at `p`: the capture of
      ```` ```json\s*([\s\S]*?)\s*``` ```` and the index just past the
      closing fence, or `None` when no closing fence follows. The capture
      starts after the whitespace following the opening fence and stops
      before the whitespace preceding the nearest closing fence. */
  function Block(text: string, p: nat): (r: Option<(string, nat)>)
    requires p + 7 <= |text|
    ensures r.Some? ==> Trimmed(r.value.0) && p + 7 < r.value.1 <= |text|
  {
    var q := SkipSpace(text, p + 7);
    var f := FindFrom(text, "```", q);
    if f < 0 then None
    else
      var e := SpaceRunStart(text, q, f);
      Some((text[q..e], f + 3))
  }

  /** The captures `re.findall` collects for the fenced alternative from
      index `from` on. */
  function Fences(text: string, from: nat): (r: seq<string>)
    requires from <= |text|
    ensures forall k :: 0 <= k < |r| ==> Trimmed(r[k])
    decreases |text| - from
  {
    var p := FindFrom(text, "```json", from);
    if p < 0 then []
    else
      match Block(text, p)
      case None => []
      case Some((c, e)) => [c] + Fences(text, e)
  }

  /** Empty, or neither starting nor ending with whitespace. */
  predicate Trimmed(s: string) {
    |s| == 0 || (!Text.IsSpace(s[0]) && !Text.IsSpace(s[|s| - 1]))
  }

  /** The anchored alternative `^\s*\[\s*\{[\s\S]*\}\s*\]\s*$`: the whole
      reply is one array of objects. */
  predicate WholeArray(text: string) {
    var t := Text.Strip(text);
    |t| >= 2 && t[0] == '[' && t[|t| - 1] == ']'
    && var inner := Text.Strip(t[1..|t| - 1]);
       |inner| >= 2 && inner[0] == '{' && inner[|inner| - 1] == '}'
  }

  /** `re.findall` of the two-alternative pattern. The anchored alternative
      can only match at index 0, only when the fenced one does not, and then
      consumes the whole reply with an empty group. */
  function Captures(text: string): seq<string> {
    if Text.StartsWith(text, "```json") then Fences(text, 0)
    else if WholeArray(text) then [""]
    else Fences(text, 0)
  }

  function FirstNonBlank(caps: seq<string>): (r: Option<string>)
    ensures r.Some? ==> r.value in caps && !Text.IsBlank(r.value)
    ensures r.None? ==> forall c :: c in caps ==> Text.IsBlank(c)
  {
    if |caps| == 0 then None
    else if !Text.IsBlank(caps[0]) then Some(caps[0])
    else FirstNonBlank(caps[1..])
  }

  /** The first non-blank capture, else the whole reply. */
  function Chosen(reply: string): string {
    match FirstNonBlank(Captures(reply))
    case Some(c) => c
    case None => reply
  }

  /** The clean-up after choosing: strip, then cut to the brackets. */
  function Candidate(chosen: string): string {
    Brackets(Text.Strip(chosen))
  }

  /** Unless the text already starts with `[`, cut it from the first `[` to
      the last `]` when both occur. */
  function Brackets(s: string): string {
    if Text.StartsWith(s, "[") then s
    else
      var start := Text.Find(s, '[');
      var end := Text.RFind(s, ']');
      if start == -1 || end == -1 then s
      else if end < start then ""
      else s[start..end + 1]
  }

  /** The text handed to `json.loads`. */
  function ExtractJson(reply: string): string {
    Candidate(Chosen(reply))
  }

  /** `r` occurs in `s` at `a`, with no `[` before it and no `]` after it. */
  predicate Piece(s: string, a: nat, r: string) {
    a + |r| <= |s| && s[a..a + |r|] == r
    && (forall j :: 0 <= j < a ==> s[j] != '[')
    && (forall j :: a + |r| <= j < |s| ==> s[j] != ']')
  }

  /** The cut keeps a text that starts with `[` or lacks a bracket of
      either kind. */
  lemma BracketsKeep(s: string)
    requires Text.StartsWith(s, "[") || !Text.Contains(s, '[') || !Text.Contains(s, ']')
    ensures Brackets(s) == s
  {
  }

  /** Otherwise it is the piece that runs from a `[` to a `]` with no `[`
      before it and no `]` after it, or the empty text when every `]` comes
      before the first `[`. */
  lemma BracketsCut(s: string)
    requires !Text.StartsWith(s, "[") && Text.Contains(s, '[') && Text.Contains(s, ']')
    ensures exists a :: Piece(s, a, Brackets(s))
    ensures var r := Brackets(s); r == [] || (r[0] == '[' && r[|r| - 1] == ']')
  {
    if Text.RFind(s, ']') < Text.Find(s, '[') {
      BracketsCrossed(s);
    } else {
      BracketsSpan(s, Text.Find(s, '['), Text.RFind(s, ']'));
    }
  }

  lemma BracketsCrossed(s: string)
    requires !Text.StartsWith(s, "[") && Text.Contains(s, '[') && Text.Contains(s, ']')
    requires Text.RFind(s, ']') < Text.Find(s, '[')
    ensures Brackets(s) == [] && Piece(s, Text.Find(s, '['), [])
  {
  }

  lemma BracketsSpan(s: string, start: nat, end: nat)
    requires !Text.StartsWith(s, "[") && start == Text.Find(s, '[') && end == Text.RFind(s, ']')
    requires start <= end
    ensures var r := Brackets(s); Piece(s, start, r) && r[0] == '[' && r[|r| - 1] == ']'
  {
    BracketsIs(s, start, end);
    SpanIsPiece(s, start, end);
  }

  lemma BracketsIs(s: string, start: nat, end: nat)
    requires !Text.StartsWith(s, "[") && start == Text.Find(s, '[') && end == Text.RFind(s, ']')
    requires start <= end
    ensures Brackets(s) == s[start..end + 1]
  {
  }

  lemma SpanIsPiece(s: string, start: nat, end: nat)
    requires start <= end < |s| && s[start] == '[' && s[end] == ']'
    requires forall j :: 0 <= j < start ==> s[j] != '['
    requires forall j :: end < j < |s| ==> s[j] != ']'
    ensures Piece(s, start, s[start..end + 1])
    ensures var r := s[start..end + 1]; r[0] == '[' && r[|r| - 1] == ']'
  {
  }

  /** A reply without a ```` ```json ```` fence is used whole. */
  lemma UnfencedReplyUsedWhole(reply: string)
    requires forall j :: !At(reply, j, "```json")
    ensures Chosen(reply) == reply
  {
    assert !At(reply, 0, "```json");
    NoFences(reply);
    assert Captures(reply) == [] || Captures(reply) == [""];
    assert Text.IsBlank("");
  }

  lemma NoFences(text: string)
    requires forall j :: !At(text, j, "```json")
    ensures Fences(text, 0) == []
  {
    assert FindFrom(text, "```json", 0) == -1;
  }

  lemma NotBlank(s: string)
    requires |s| > 0 && !Text.IsSpace(s[0])
    ensures !Text.IsBlank(s)
  {
  }

  /** A reply that is exactly one fenced block yields the block's text. */
  lemma FencedReply(body: string)
    requires |body| > 0 && !Text.IsSpace(body[0]) && !Text.IsSpace(body[|body| - 1])
    requires forall i :: 0 <= i < |body| ==> body[i] != '`'
    ensures Chosen("```json\n" + body + "\n```") == body
  {
    var text := "```json\n" + body + "\n```";
    assert text[..7] == "```json";
    FencedBlock(body);
    assert FindFrom(text, "```json", 0) == 0 by {
      assert At(text, 0, "```json");
    }
    assert FindFrom(text, "```json", |text|) == -1;
    assert Fences(text, |text|) == [];
    assert Fences(text, 0) == [body];
    assert Captures(text) == [body];
    NotBlank(body);
  }

  lemma FencedBlock(body: string)
    requires |body| > 0 && !Text.IsSpace(body[0]) && !Text.IsSpace(body[|body| - 1])
    requires forall i :: 0 <= i < |body| ==> body[i] != '`'
    ensures var text := "```json\n" + body + "\n```";
      Block(text, 0) == Some((body, |text|))
  {
    var text := "```json\n" + body + "\n```";
    var n := |body|;
    assert |text| == n + 12;
    assert text[7] == '\n' && text[8] == body[0];
    assert SkipSpace(text, 8) == 8;
    assert SkipSpace(text, 7) == 8;
    var f := n + 9;
    assert At(text, f, "```") by {
      assert text[f..f + 3] == "```";
    }
    forall j | 8 <= j < f
      ensures !At(text, j, "```")
    {
      assert text[j] == (if j < n + 8 then body[j - 8] else '\n');
    }
    FindFromIs(text, "```", 8, f);
    assert text[f - 1] == '\n' && text[f - 2] == body[n - 1];
    assert SpaceRunStart(text, 8, f - 1) == f - 1;
    assert text[8..f - 1] == body;
  }

  // ---------------------------------------------------------------------
  // Findings from the reply

  /** What the model adapter returned: the reply text, or the message of
      the exception it raised. */
  datatype Reply = Answer(text: string) | Failure(message: string)

  /** Python's `re` module, case-insensitively: the message `re.compile`
      raises for a pattern, if any, and whether `search` finds the pattern
      in a text. */
  datatype Regex = Regex(compileError: string -> Option<string>, search: (string, string) -> bool)

  /** What Python's `re` does with the empty pattern: it compiles, and a
      search finds it in every text (at position 0). */
  ghost predicate EmptyMatchesAll(regex: Regex) {
    regex.compileError("").None? && forall t :: regex.search("", t)
  }

  const ApiErrorPrefix: string := "API连接错误: "

  /** The single finding returned when anything raises. */
  function ApiError(filePath: string, message: string): (r: Issue)
    ensures r.severity == "info" && r.confidence == "high" && r.filePath == filePath
    ensures Text.StartsWith(r.description, ApiErrorPrefix)
  {
    var d := ApiErrorPrefix + message;
    assert d[..|ApiErrorPrefix|] == ApiErrorPrefix;
    Issue("info", filePath, None, None, d,
          "请在设置中检查您的API配置，确保API密钥正确且网络连接正常。", None, "high")
  }

  /** The finding added when the reply is not JSON. */
  function ParseFallback(filePath: string): Issue {
    Issue("info", filePath, None, None, "模型未返回标准JSON格式，无法完成深度分析",
          "请检查API设置并重试", None, "low")
  }

  /** `type(v).__name__`. */
  function TypeName(j: Json): string {
    match j
    case JNull => "NoneType"
    case JBool(_) => "bool"
    case JInt(_) => "int"
    case JStr(_) => "str"
    case JList(_) => "list"
    case JObj(_) => "dict"
  }

  /** A text field: a string is taken as stored. Python stores any other
      value as it is; the typed `Issue` here holds its `str` instead (so a
      `null` becomes `"None"`). */
  function TextField(item: Json, key: string, default: string): string {
    match Get(item, key)
    case None => default
    case Some(v) => Str(v)
  }

  function OptionalText(item: Json, key: string): Option<string> {
    match Get(item, key)
    case None => None
    case Some(JNull) => None
    case Some(v) => Some(Str(v))
  }

  /** `line_number`: an integer (a boolean counts as 0 or 1). Python keeps
      any other value as it is; the typed `Issue` here cannot hold it and
      drops it. */
  function LineField(item: Json): Option<int> {
    match Get(item, "line_number")
    case Some(JInt(i)) => Some(i)
    case Some(JBool(b)) => Some(if b then 1 else 0)
    case _ => None
  }

  /** One finding built from one object of the model's array: a string a
      field holds is taken as is, a missing field takes its default. */
  function ModelIssue(filePath: string, item: Json): (r: Issue)
    requires item.JObj?
    ensures r.filePath == filePath
    ensures Kept(item, "severity", "medium", r.severity)
    ensures Kept(item, "description", "未提供描述", r.description)
    ensures Kept(item, "recommendation", "", r.recommendation)
    ensures Kept(item, "confidence", "medium", r.confidence)
    ensures forall n :: Get(item, "line_number") == Some(JInt(n)) ==> r.line == Some(n)
    ensures !Has(item, "line_number") ==> r.line.None?
    ensures KeptOptional(item, "code_snippet", r.snippet) && KeptOptional(item, "cwe_id", r.cwe)
  {
    Issue(TextField(item, "severity", "medium"), filePath, LineField(item), OptionalText(item, "code_snippet"),
          TextField(item, "description", "未提供描述"), TextField(item, "recommendation", ""),
          OptionalText(item, "cwe_id"), TextField(item, "confidence", "medium"))
  }

  /** `item.get(key, default)` gave `v`, as far as strings go. */
  predicate Kept(item: Json, key: string, default: string, v: string) {
    (!Has(item, key) ==> v == default)
    && (Get(item, key).Some? && Get(item, key).value.JStr? ==> v == Get(item, key).value.s)
  }

  /** `item.get(key)` gave `v`, as far as strings and `None` go. */
  predicate KeptOptional(item: Json, key: string, v: Option<string>) {
    (!Has(item, key) || Get(item, key) == Some(JNull) ==> v.None?)
    && (Get(item, key).Some? && Get(item, key).value.JStr? ==> v == Some(Get(item, key).value.s))
  }

  /** The loop over the decoded items: an item that is not an object makes
      `.get` raise. */
  function ModelIssues(filePath: string, items: seq<Json>): (r: Result<seq<Issue>, string>)
    ensures r.Ok? <==> forall k :: 0 <= k < |items| ==> items[k].JObj?
    ensures r.Ok? ==>
      |r.value| == |items| && forall k :: 0 <= k < |items| ==> r.value[k] == ModelIssue(filePath, items[k])
  {
    if |items| == 0 then Ok([])
    else if !items[0].JObj? then Err("'" + TypeName(items[0]) + "' object has no attribute 'get'")
    else
      match ModelIssues(filePath, items[1..])
      case Err(m) => Err(m)
      case Ok(rest) =>
        assert forall k :: 1 <= k < |items| ==> items[k] == items[1..][k - 1];
        Ok([ModelIssue(filePath, items[0])] + rest)
  }

  /** The model's part, given what `json.loads` made of the extracted text:
      the fallback finding when it was not JSON, the decoded findings
      otherwise, or the message of what raised. */
  function ModelPart(filePath: string, decoded: Option<Json>): Result<seq<Issue>, string> {
    match decoded
    case None => Ok([ParseFallback(filePath)])
    case Some(doc) =>
      match Iterate(doc)
      case None => Err("'" + TypeName(doc) + "' object is not iterable")
      case Some(items) => ModelIssues(filePath, items)
  }

  // ---------------------------------------------------------------------
  // Findings from the rule store

  /** The first line the pattern is found in. */
  function FirstMatchingLine(pattern: string, lines: seq<string>, regex: Regex): (r: Option<nat>)
    ensures r.Some? ==>
      r.value < |lines| && regex.search(pattern, lines[r.value]) && forall j :: 0 <= j < r.value ==> !regex.search(pattern, lines[j])
    ensures r.None? ==> forall j :: 0 <= j < |lines| ==> !regex.search(pattern, lines[j])
  {
    if |lines| == 0 then None
    else if regex.search(pattern, lines[0]) then Some(0)
    else match FirstMatchingLine(pattern, lines[1..], regex)
      case None => None
      case Some(i) => Some(i + 1)
  }

  /** The lines `[start, end)` shown around line `i` of `n`: up to two
      before and two after, as many as exist. */
  function Around(n: nat, i: nat): (r: (nat, nat))
    requires i < n
    ensures r.0 <= i < r.1 <= n && r.1 - r.0 <= 5
    ensures r.0 == 0 || r.0 == i - 2
    ensures r.1 == n || r.1 == i + 3
    ensures i >= 2 ==> r.0 == i - 2
    ensures i + 3 <= n ==> r.1 == i + 3
  {
    (if i >= 2 then i - 2 else 0, if i + 3 <= n then i + 3 else n)
  }

  /** The snippet shown for line `i`. */
  function Window(lines: seq<string>, i: nat): string
    requires i < |lines|
  {
    var (start, end) := Around(|lines|, i);
    Text.Join("\n", lines[start..end])
  }

  /** The finding for a rule whose pattern is found in the file. */
  function RuleIssue(filePath: string, lines: seq<string>, rule: Rules.Rule, regex: Regex): Issue
  {
    var at := FirstMatchingLine(rule.pattern, lines, regex);
    Issue(rule.severity.GetOr("medium"), filePath,
          if at.Some? then Some(at.value + 1) else None,
          if at.Some? then Some(Window(lines, at.value)) else None,
          rule.description.GetOr("发现潜在漏洞"), rule.recommendation.GetOr("请检查此处代码"),
          None, "medium")
  }

  /** The rule finding points at the first line the pattern is found in,
      counting from 1, and shows up to two lines either side of it; when no
      single line matches (a pattern spanning lines) it has neither. */
  lemma RuleIssueLocates(filePath: string, lines: seq<string>, rule: Rules.Rule, regex: Regex)
    ensures var r := RuleIssue(filePath, lines, rule, regex);
      r.filePath == filePath && r.confidence == "medium" && r.cwe.None?
      && (r.line.Some? <==> r.snippet.Some?)
    ensures var r := RuleIssue(filePath, lines, rule, regex);
      r.line.Some? ==>
        1 <= r.line.value <= |lines| && regex.search(rule.pattern, lines[r.line.value - 1])
        && (forall j :: 0 <= j < r.line.value - 1 ==> !regex.search(rule.pattern, lines[j]))
        && r.snippet == Some(Window(lines, r.line.value - 1))
    ensures var r := RuleIssue(filePath, lines, rule, regex);
      r.line.None? ==> forall line :: line in lines ==> !regex.search(rule.pattern, line)
  {
  }

  /** The rules whose pattern is found anywhere in the file, in order. */
  function Matching(content: string, rules: seq<Rules.Rule>, regex: Regex): (r: seq<Rules.Rule>)
    ensures forall x :: x in r ==> x in rules && regex.search(x.pattern, content)
    ensures |r| <= |rules|
  {
    if |rules| == 0 then []
    else if regex.search(rules[0].pattern, content) then [rules[0]] + Matching(content, rules[1..], regex)
    else Matching(content, rules[1..], regex)
  }

  predicate AllCompile(rules: seq<Rules.Rule>, regex: Regex) {
    forall k :: 0 <= k < |rules| ==> regex.compileError(rules[k].pattern).None?
  }

  /** The loop over the relevant rules, given the file and its lines: a
      pattern that does not compile raises; otherwise one finding per
      matching rule, in rule order. */
  function RuleFindings(filePath: string, content: string, lines: seq<string>, rules: seq<Rules.Rule>, regex: Regex): (r: Result<seq<Issue>, string>)
    ensures r.Ok? <==> AllCompile(rules, regex)
    ensures r.Ok? ==> var m := Matching(content, rules, regex);
      |r.value| == |m| && forall k :: 0 <= k < |m| ==> r.value[k] == RuleIssue(filePath, lines, m[k], regex)
  {
    if |rules| == 0 then Ok([])
    else match regex.compileError(rules[0].pattern)
      case Some(message) => Err(message)
      case None =>
        assert forall k :: 1 <= k < |rules| ==> rules[k] == rules[1..][k - 1];
        match RuleFindings(filePath, content, lines, rules[1..], regex)
        case Err(m) => Err(m)
        case Ok(rest) =>
          if regex.search(rules[0].pattern, content) then
            MatchingCons(filePath, content, lines, rules, regex, rest);
            Ok([RuleIssue(filePath, lines, rules[0], regex)] + rest)
          else Ok(rest)
  }

  /** A matching first rule puts its finding in front of the rest's. */
  lemma MatchingCons(filePath: string, content: string, lines: seq<string>, rules: seq<Rules.Rule>, regex: Regex, rest: seq<Issue>)
    requires |rules| > 0 && regex.search(rules[0].pattern, content)
    requires var m := Matching(content, rules[1..], regex);
      |rest| == |m| && forall k :: 0 <= k < |m| ==> rest[k] == RuleIssue(filePath, lines, m[k], regex)
    ensures var m := Matching(content, rules, regex); var r := [RuleIssue(filePath, lines, rules[0], regex)] + rest;
      |r| == |m| && forall k :: 0 <= k < |m| ==> r[k] == RuleIssue(filePath, lines, m[k], regex)
  {
    var m := Matching(content, rules, regex);
    assert m == [rules[0]] + Matching(content, rules[1..], regex);
  }

  // ---------------------------------------------------------------------
  // The whole analysis

  /** `_analyze_file_content`: the rules for the file's language are the
      common ones plus its bucket; the model's findings come first, the rule
      findings after them; anything that raises replaces all of them with
      one `API连接错误` finding. The prompt is not modelled: the adapter's
      reply is given. */
  function AnalyzeFile(filePath: string, content: string, store: Rules.Store,
                       reply: Reply, parse: string -> Option<Json>, regex: Regex): seq<Issue>
  {
    Analyze(filePath, content, RulesFor(store, filePath), reply, parse, regex)
  }

  /** The analysis once the relevant rules are known. */
  function Analyze(filePath: string, content: string, rules: seq<Rules.Rule>,
                   reply: Reply, parse: string -> Option<Json>, regex: Regex): seq<Issue>
  {
    match reply
    case Failure(message) => [ApiError(filePath, message)]
    case Answer(text) => AnalyzeDecoded(filePath, content, rules, parse(ExtractJson(text)), regex)
  }

  /** The analysis once the reply has been decoded: the model's findings,
      then the rule findings, unless either raised. */
  function AnalyzeDecoded(filePath: string, content: string, rules: seq<Rules.Rule>,
                          decoded: Option<Json>, regex: Regex): seq<Issue>
  {
    match ModelPart(filePath, decoded)
    case Err(message) => [ApiError(filePath, message)]
    case Ok(modelIssues) =>
      match RuleFindings(filePath, content, Lines(content), rules, regex)
      case Err(message) => [ApiError(filePath, message)]
      case Ok(ruleIssues) => modelIssues + ruleIssues
  }

  /** `content.split("\n")`. */
  function Lines(content: string): seq<string> {
    Text.Split(content, '\n')
  }

  /** The rules that apply to a file: the common ones plus its language's. */
  function RulesFor(store: Rules.Store, filePath: string): seq<Rules.Rule> {
    Rules.PatternsFor(store, FileUtils.Language(filePath))
  }

  /** An adapter that raises gives one `API连接错误` finding carrying its
      message. */
  lemma AdapterFailure(filePath: string, content: string, rules: seq<Rules.Rule>,
                       message: string, parse: string -> Option<Json>, regex: Regex)
    ensures var r := Analyze(filePath, content, rules, Failure(message), parse, regex);
      |r| == 1 && r[0].severity == "info" && r[0].confidence == "high" && r[0].filePath == filePath
      && r[0].description == ApiErrorPrefix + message
  {
  }

  /** Anything that raises after the reply arrived — iterating the decoded
      value, an item that is not an object, a rule pattern that does not
      compile — replaces every finding with one `API连接错误` finding. */
  lemma FailureGivesOneFinding(filePath: string, content: string, rules: seq<Rules.Rule>,
                               decoded: Option<Json>, regex: Regex)
    requires ModelPart(filePath, decoded).Err? || !AllCompile(rules, regex)
    ensures var r := AnalyzeDecoded(filePath, content, rules, decoded, regex);
      |r| == 1 && r[0].severity == "info" && r[0].confidence == "high" && r[0].filePath == filePath
      && Text.StartsWith(r[0].description, ApiErrorPrefix)
  {
  }

  /** A decoded value that is not a list of objects raises: a scalar is not
      iterable, and iterating a non-empty dict or string yields strings,
      which have no `get`. */
  lemma NonListRaises(filePath: string, doc: Json)
    requires doc.JNull? || doc.JBool? || doc.JInt? || (doc.JObj? && |doc.fields| > 0) || (doc.JStr? && |doc.s| > 0)
    ensures ModelPart(filePath, Some(doc)).Err?
  {
    if doc.JObj? || doc.JStr? {
      var items := Iterate(doc).value;
      assert items[0].JStr?;
    }
  }

  /** A reply that is not JSON still gets the rule findings, after the one
      finding that says so. */
  lemma UnparsedReplyKeepsRules(filePath: string, content: string, rules: seq<Rules.Rule>, regex: Regex)
    requires AllCompile(rules, regex)
    ensures var r := AnalyzeDecoded(filePath, content, rules, None, regex);
      var m := Matching(content, rules, regex);
      |r| == 1 + |m| && r[0] == ParseFallback(filePath)
      && forall k :: 0 <= k < |m| ==> r[k + 1] == RuleIssue(filePath, Lines(content), m[k], regex)
  {
    var rf := RuleFindings(filePath, content, Lines(content), rules, regex);
    var r := [ParseFallback(filePath)] + rf.value;
    assert AnalyzeDecoded(filePath, content, rules, None, regex) == r;
    forall k | 0 <= k < |rf.value| ensures r[k + 1] == rf.value[k] { }
  }

  /** A reply that decodes to a list of objects gives one finding per
      object, in order, followed by one finding per matching rule. */
  lemma ParsedReplyFindings(filePath: string, content: string, rules: seq<Rules.Rule>, regex: Regex, items: seq<Json>)
    requires forall k :: 0 <= k < |items| ==> items[k].JObj?
    requires AllCompile(rules, regex)
    ensures var r := AnalyzeDecoded(filePath, content, rules, Some(JList(items)), regex);
      var m := Matching(content, rules, regex);
      |r| == |items| + |m|
      && (forall k :: 0 <= k < |items| ==> r[k] == ModelIssue(filePath, items[k]))
      && forall k :: 0 <= k < |m| ==> r[|items| + k] == RuleIssue(filePath, Lines(content), m[k], regex)
  {
    var rf := RuleFindings(filePath, content, Lines(content), rules, regex);
    var mp := ModelIssues(filePath, items);
    ParsedReplyConcat(filePath, content, rules, regex, items);
    Stitch(mp.value, rf.value, filePath, items, Matching(content, rules, regex), Lines(content), regex);
  }

  /** Model findings followed by rule findings, position by position. */
  lemma Stitch(a: seq<Issue>, b: seq<Issue>, filePath: string, items: seq<Json>, m: seq<Rules.Rule>, lines: seq<string>, regex: Regex)
    requires forall k :: 0 <= k < |items| ==> items[k].JObj?
    requires |a| == |items| && forall k :: 0 <= k < |items| ==> a[k] == ModelIssue(filePath, items[k])
    requires |b| == |m| && forall k :: 0 <= k < |m| ==> b[k] == RuleIssue(filePath, lines, m[k], regex)
    ensures var r := a + b;
      |r| == |items| + |m|
      && (forall k :: 0 <= k < |items| ==> r[k] == ModelIssue(filePath, items[k]))
      && forall k :: 0 <= k < |m| ==> r[|items| + k] == RuleIssue(filePath, lines, m[k], regex)
  {
    forall k | 0 <= k < |items| ensures (a + b)[k] == ModelIssue(filePath, items[k]) {
      assert (a + b)[k] == a[k];
    }
    forall k | 0 <= k < |m| ensures (a + b)[|items| + k] == RuleIssue(filePath, lines, m[k], regex) {
      assert (a + b)[|items| + k] == b[k];
    }
  }

  lemma ParsedReplyConcat(filePath: string, content: string, rules: seq<Rules.Rule>, regex: Regex, items: seq<Json>)
    requires forall k :: 0 <= k < |items| ==> items[k].JObj?
    requires AllCompile(rules, regex)
    ensures AnalyzeDecoded(filePath, content, rules, Some(JList(items)), regex)
      == ModelIssues(filePath, items).value + RuleFindings(filePath, content, Lines(content), rules, regex).value
  {
    assert ModelPart(filePath, Some(JList(items))) == ModelIssues(filePath, items);
  }

  /** Every rule whose pattern is found in the file is among the matching
      ones, so it yields a finding. */
  lemma {:induction false} MatchingComplete(content: string, rules: seq<Rules.Rule>, regex: Regex)
    ensures forall k :: 0 <= k < |rules| && regex.search(rules[k].pattern, content) ==>
      rules[k] in Matching(content, rules, regex)
    ensures EmptyMatchesAll(regex) ==>
      forall k :: 0 <= k < |rules| && rules[k].pattern == "" ==> rules[k] in Matching(content, rules, regex)
  {
    if |rules| > 0 {
      MatchingComplete(content, rules[1..], regex);
      assert forall k :: 1 <= k < |rules| ==> rules[k] == rules[1..][k - 1];
    }
  }

  /** A rule with a missing or empty pattern (stored as "") matches every
      file, whatever its content; its finding points at line 1 and shows
      the first three lines (or all of them, when there are fewer). */
  lemma EmptyPatternMatchesEverything(filePath: string, content: string, lines: seq<string>, rules: seq<Rules.Rule>, regex: Regex)
    requires EmptyMatchesAll(regex)
    ensures forall k :: 0 <= k < |rules| && rules[k].pattern == "" ==> rules[k] in Matching(content, rules, regex)
    ensures forall rule: Rules.Rule :: rule.pattern == "" && |lines| > 0 ==>
      RuleIssue(filePath, lines, rule, regex).line == Some(1)
      && RuleIssue(filePath, lines, rule, regex).snippet == Some(Text.Join("\n", lines[..if |lines| < 3 then |lines| else 3]))
  {
    MatchingComplete(content, rules, regex);
    forall rule: Rules.Rule | rule.pattern == "" && |lines| > 0
      ensures RuleIssue(filePath, lines, rule, regex).line == Some(1)
      ensures RuleIssue(filePath, lines, rule, regex).snippet == Some(Text.Join("\n", lines[..if |lines| < 3 then |lines| else 3]))
    {
      assert regex.search("", lines[0]);
      assert FirstMatchingLine(rule.pattern, lines, regex) == Some(0);
      assert lines[0..if |lines| < 3 then |lines| else 3] == lines[..if |lines| < 3 then |lines| else 3];
    }
  }
}

=== FILE: cli.dfy ===
/** The command-line layer (`codescan/cli.py`): showing and updating the
    API configuration, choosing the report format from the output path,
    dispatching the eight commands, and collecting the findings of a
    git-merge scan. Printing, logging, environment variables, git and the
    scanner's file access are not modelled; what they answer is passed in. */
module Cli {
  import opened Wrappers
  import Text
  import opened Json
  import Settings
  import FileUtils
  import Findings
  import Scanner

  // ---------------------------------------------------------------------
  // config --show

  /** `n` asterisks. */
  function Stars(n: nat): (r: string)
    ensures |r| == n && forall i :: 0 <= i < n ==> r[i] == '*'
  {
    if n == 0 then "" else "*" + Stars(n - 1)
  }

  /** The masked API key: a key longer than ten characters keeps its first
      six and last four, with one `*` for each character between; a
      shorter key is shown as six asterisks. */
  function MaskKey(key: string): (r: string)
  {
    if |key| > 10 then key[..6] + Stars(|key| - 10) + key[|key| - 4..] else "******"
  }

  /** A long key keeps its length, its first six and last four characters,
      and shows nothing of the rest; a short key reveals nothing, not even
      its length. */
  lemma MaskShape(key: string)
    ensures var r := MaskKey(key);
      && (|key| > 10 ==>
            && |r| == |key| && r[..6] == key[..6] && r[|r| - 4..] == key[|key| - 4..]
            && forall i :: 6 <= i < |key| - 4 ==> r[i] == '*')
      && (|key| <= 10 ==> r == "******")
  {
    if |key| > 10 {
      var r := MaskKey(key);
      var s := Stars(|key| - 10);
      assert r == key[..6] + s + key[|key| - 4..];
      forall i | 6 <= i < |key| - 4
        ensures r[i] == '*'
      {
        assert r[i] == s[i - 6];
      }
      assert r[..6] == key[..6];
      assert r[|r| - 4..] == key[|key| - 4..];
    }
  }

  /** Two keys that agree on their first six and last four characters are
      shown alike: the mask depends on nothing else but the length. */
  lemma MaskForgetsMiddle(a: string, b: string)
    requires |a| == |b| > 10 && a[..6] == b[..6] && a[|a| - 4..] == b[|b| - 4..]
    ensures MaskKey(a) == MaskKey(b)
  {
  }

  /** What the key line of `config --show` prints for the configured value:
      a truthy string is masked; a falsy value is "not set" (`None`); a
      short list or dict is six asterisks because only its length is
      taken; anything else cannot be sliced or measured and raises. */
  function ShownKey(apiKey: Json): (r: Result<Option<string>, string>)
    ensures apiKey.JStr? ==> r == Ok(if apiKey.s == "" then None else Some(MaskKey(apiKey.s)))
    ensures !Truthy(apiKey) ==> r == Ok(None)
  {
    if !Truthy(apiKey) then Ok(None)
    else match apiKey
      case JStr(s) => Ok(Some(MaskKey(s)))
      case JList(xs) => if |xs| > 10 then Err("TypeError") else Ok(Some("******"))
      case JObj(fs) => if |fs| > 10 then Err("TypeError") else Ok(Some("******"))
      case _ => Err("TypeError")
  }

  /** The four settings `config --show` prints. */
  datatype Shown = Shown(provider: Json, model: Json, apiKey: Option<string>, baseUrl: Json)

  /** `config --show`: the `default` model entry with its printed defaults
      (DeepSeek, `deepseek-chat`, the DeepSeek URL). `models` and its
      `default` entry must be dicts. */
  function Show(cfg: Settings.Config): (r: Result<Shown, string>)
    ensures r.Ok? ==> Settings.Models(cfg).JObj?
  {
    var models := Settings.Models(cfg);
    if !models.JObj? then Err("AttributeError")
    else
      var dc := Lookup(models.fields, "default").GetOr(JObj([]));
      if !dc.JObj? then Err("AttributeError")
      else
        match ShownKey(GetOr(dc, "api_key", JStr("")))
        case Err(e) => Err(e)
        case Ok(key) =>
          Ok(Shown(GetOr(dc, "provider", JStr("deepseek")), GetOr(dc, "model", JStr("deepseek-chat")), key,
                   GetOr(dc, "base_url", JStr(Settings.DeepseekUrl))))
  }

  /** On the shipped defaults, `--show` prints DeepSeek with no key set. */
  lemma ShowDefaults()
    ensures Show(Settings.Defaults) ==
      Ok(Shown(JStr("deepseek"), JStr("deepseek-chat"), None, JStr(Settings.DeepseekUrl)))
  {
    var models := Settings.Models(Settings.Defaults);
    assert Lookup(Settings.Defaults, "models") == Some(JObj(Settings.DefaultSections[0].1));
    var dc := Lookup(models.fields, "default").value;
    assert dc == Settings.ModelDefaults("deepseek", "deepseek-chat", Some(Settings.DeepseekUrl));
    ModelDefaultsFields("deepseek", "deepseek-chat", Some(Settings.DeepseekUrl));
  }

  /** The fields of a shipped model entry read back as written. */
  lemma ModelDefaultsFields(provider: string, model: string, baseUrl: Option<string>)
    ensures var fs := Settings.ModelDefaults(provider, model, baseUrl).fields;
      && Lookup(fs, "provider") == Some(JStr(provider)) && Lookup(fs, "model") == Some(JStr(model))
      && Lookup(fs, "api_key") == Some(JStr(""))
      && Lookup(fs, "base_url") == (if baseUrl.Some? then Some(JStr(baseUrl.value)) else None)
  {
    var fs := Settings.ModelDefaults(provider, model, baseUrl).fields;
    var head := [("provider", JStr(provider)), ("model", JStr(model)), ("api_key", JStr(""))];
    var tail := [("max_tokens", JInt(8192))];
    if baseUrl.Some? {
      assert fs == head + [("base_url", JStr(baseUrl.value))] + tail;
      FourFields(fs, "provider", "model", "api_key", "base_url");
    } else {
      assert fs == head + tail;
      FourFields(fs, "provider", "model", "api_key", "max_tokens");
    }
  }

  // ---------------------------------------------------------------------
  // config (update)

  /** The options of `config`; an empty string is an option not given. */
  datatype ConfigArgs = ConfigArgs(provider: string, model: string, baseUrl: string, apiKey: string, httpProxy: string)

  /** The exit code and the configuration afterwards. */
  datatype Outcome = Outcome(code: int, cfg: Settings.Config)

  /** The providers whose own entry mirrors a new default. */
  const Mirrored: seq<Json> := [JStr("deepseek"), JStr("openai"), JStr("anthropic")]

  /** The provider: the option, else the current default's, else DeepSeek. */
  function ProviderOf(args: ConfigArgs, dc: Json): Json {
    if args.provider != "" then JStr(args.provider) else GetOr(dc, "provider", JStr("deepseek"))
  }

  /** The base URL: the option; else the DeepSeek URL for DeepSeek; else the
      current default's, else empty. */
  function ResolveBaseUrl(args: ConfigArgs, provider: Json, dc: Json): (r: Json)
    ensures args.baseUrl != "" ==> r == JStr(args.baseUrl)
    ensures args.baseUrl == "" && provider == JStr("deepseek") ==> r == JStr(Settings.DeepseekUrl)
    ensures args.baseUrl == "" && provider != JStr("deepseek") ==> r == GetOr(dc, "base_url", JStr(""))
  {
    if args.baseUrl != "" then JStr(args.baseUrl)
    else if provider == JStr("deepseek") then JStr(Settings.DeepseekUrl)
    else GetOr(dc, "base_url", JStr(""))
  }

  /** The new default entry: provider, model, key, a limit of 8192 tokens,
      and the base URL only when it is non-empty. */
  function NewEntry(provider: Json, model: Json, apiKey: Json, baseUrl: Json): (r: seq<(string, Json)>)
  {
    [("provider", provider), ("model", model), ("api_key", apiKey), ("max_tokens", JInt(8192))]
      + (if Truthy(baseUrl) then [("base_url", baseUrl)] else [])
  }

  /** Whether `config_api` reads the current default entry: it does so
      only for a fallback, that is for the provider, the model or the key
      when the option is missing, and for the base URL when that option is
      missing and the provider is not DeepSeek. */
  predicate ReadsEntry(args: ConfigArgs, provider: Json) {
    args.provider == "" || args.model == "" || args.apiKey == ""
    || (args.baseUrl == "" && provider != JStr("deepseek"))
  }

  /** `config_api` without `--show`. A `models` value that is not a dict
      raises, and so does a `default` entry that is not a dict once a
      fallback reads it; both give exit code 1 with nothing changed, as
      does a key given neither as an option nor in the current default.
      Otherwise `default` gets the new entry, and a DeepSeek, OpenAI or
      Anthropic provider gets a copy under its own name. Writing the
      configuration file swallows its own errors; writing the proxy file
      (when `--http-proxy` is given) may fail, `envWritten` says whether it
      did, and its failure gives exit code 1 after the configuration has
      already changed. */
  function ConfigApi(args: ConfigArgs, cfg: Settings.Config, envWritten: bool): (r: Outcome)
    ensures r.code == 0 || r.code == 1
    ensures r.code == 0 ==> Settings.Models(r.cfg).JObj?
    ensures !Settings.Models(cfg).JObj? ==> r == Outcome(1, cfg)
    ensures r.code == 1 && (args.httpProxy == "" || envWritten) ==> r.cfg == cfg
  {
    var models := Settings.Models(cfg);
    if !models.JObj? then Outcome(1, cfg)
    else
      var dc := Lookup(models.fields, "default").GetOr(JObj([]));
      var provider := ProviderOf(args, dc);
      if !dc.JObj? && ReadsEntry(args, provider) then Outcome(1, cfg)
      else
        var model := if args.model != "" then JStr(args.model) else GetOr(dc, "model", JStr("deepseek-chat"));
        var baseUrl := ResolveBaseUrl(args, provider, dc);
        var apiKey := if args.apiKey != "" then JStr(args.apiKey) else GetOr(dc, "api_key", JStr(""));
        if !Truthy(apiKey) then Outcome(1, cfg)
        else
          var entry := JObj(NewEntry(provider, model, apiKey, baseUrl));
          var ms := Put(models.fields, "default", entry);
          var ms' := if provider in Mirrored then Put(ms, provider.s, entry) else ms;
          var cfg' := Put(cfg, "models", JObj(ms'));
          if args.httpProxy != "" && !envWritten then Outcome(1, cfg') else Outcome(0, cfg')
  }

  /** The current default entry as `config_api` reads it. */
  function DefaultEntry(cfg: Settings.Config): Json
    requires Settings.Models(cfg).JObj?
  {
    Lookup(Settings.Models(cfg).fields, "default").GetOr(JObj([]))
  }

  /** A `default` entry that is not a dict matters only when a fallback
      reads it: then the exit code is 1 and nothing changes; when every
      option it would supply is given, the update goes through as usual. */
  lemma NonDictDefaultEntry(args: ConfigArgs, cfg: Settings.Config, envWritten: bool)
    requires Settings.Models(cfg).JObj? && !DefaultEntry(cfg).JObj?
    ensures ReadsEntry(args, ProviderOf(args, DefaultEntry(cfg))) ==> ConfigApi(args, cfg, envWritten) == Outcome(1, cfg)
    ensures !ReadsEntry(args, ProviderOf(args, DefaultEntry(cfg))) ==>
      (ConfigApi(args, cfg, envWritten).code == 0 <==> args.httpProxy == "" || envWritten)
    ensures !ReadsEntry(args, ProviderOf(args, DefaultEntry(cfg))) ==>
      Lookup(Settings.Models(ConfigApi(args, cfg, envWritten).cfg).fields, "default").Some?
  {
  }

  /** Without a key in the options or the current default, nothing is
      saved and the exit code is 1. */
  lemma MissingKeyAborts(args: ConfigArgs, cfg: Settings.Config, envWritten: bool)
    requires Settings.Models(cfg).JObj?
    requires args.apiKey == "" && !Truthy(GetOr(DefaultEntry(cfg), "api_key", JStr("")))
    ensures ConfigApi(args, cfg, envWritten) == Outcome(1, cfg)
  {
  }

  /** A successful update makes `get_model_config("default")` return the
      new entry, whose provider, model and key are the options where given
      and whose `base_url` is present exactly when non-empty. The current
      default entry was a dict, or no fallback had to read it. */
  lemma SavedDefault(args: ConfigArgs, cfg: Settings.Config, envWritten: bool)
    requires ConfigApi(args, cfg, envWritten).code == 0
    ensures Settings.Models(cfg).JObj?
    ensures DefaultEntry(cfg).JObj? || !ReadsEntry(args, ProviderOf(args, DefaultEntry(cfg)))
    ensures var dc := DefaultEntry(cfg);
      var provider := ProviderOf(args, dc);
      var baseUrl := ResolveBaseUrl(args, provider, dc);
      var e := Settings.ModelConfig(ConfigApi(args, cfg, envWritten).cfg, "default");
      && e.Ok? && e.value.JObj?
      && Lookup(e.value.fields, "provider") == Some(provider)
      && (args.model != "" ==> Lookup(e.value.fields, "model") == Some(JStr(args.model)))
      && (args.apiKey != "" ==> Lookup(e.value.fields, "api_key") == Some(JStr(args.apiKey)))
      && Lookup(e.value.fields, "max_tokens") == Some(JInt(8192))
      && (HasKey(e.value.fields, "base_url") <==> Truthy(baseUrl))
  {
    var dc := DefaultEntry(cfg);
    var provider := ProviderOf(args, dc);
    var model := if args.model != "" then JStr(args.model) else GetOr(dc, "model", JStr("deepseek-chat"));
    var baseUrl := ResolveBaseUrl(args, provider, dc);
    var apiKey := if args.apiKey != "" then JStr(args.apiKey) else GetOr(dc, "api_key", JStr(""));
    var entry := JObj(NewEntry(provider, model, apiKey, baseUrl));
    UpdatedModels(args, cfg, envWritten);
    NewEntryFields(provider, model, apiKey, baseUrl);
  }

  /** The `models` dict after a successful update: `default` holds the new
      entry, the provider's own name holds it too when mirrored, and every
      other entry and every other section is as before. */
  lemma UpdatedModels(args: ConfigArgs, cfg: Settings.Config, envWritten: bool)
    requires ConfigApi(args, cfg, envWritten).code == 0
    ensures Settings.Models(cfg).JObj?
    ensures DefaultEntry(cfg).JObj? || !ReadsEntry(args, ProviderOf(args, DefaultEntry(cfg)))
    ensures var dc := DefaultEntry(cfg);
      var provider := ProviderOf(args, dc);
      var model := if args.model != "" then JStr(args.model) else GetOr(dc, "model", JStr("deepseek-chat"));
      var apiKey := if args.apiKey != "" then JStr(args.apiKey) else GetOr(dc, "api_key", JStr(""));
      var entry := JObj(NewEntry(provider, model, apiKey, ResolveBaseUrl(args, provider, dc)));
      var after := ConfigApi(args, cfg, envWritten).cfg;
      && Truthy(apiKey)
      && Settings.Models(after).JObj?
      && Lookup(Settings.Models(after).fields, "default") == Some(entry)
      && (provider in Mirrored ==> Lookup(Settings.Models(after).fields, provider.s) == Some(entry))
      && (forall name :: name != "default" && (provider !in Mirrored || name != provider.s) ==>
            Lookup(Settings.Models(after).fields, name) == Lookup(Settings.Models(cfg).fields, name))
      && (forall k :: k != "models" ==> Lookup(after, k) == Lookup(cfg, k))
  {
  }

  /** The first four fields of a dict whose first four keys are the
      four distinct given ones read back as written; with only four
      fields, no other key is present. */
  lemma FourFields(fs: seq<(string, Json)>, k0: string, k1: string, k2: string, k3: string)
    requires |fs| >= 4 && fs[0].0 == k0 && fs[1].0 == k1 && fs[2].0 == k2 && fs[3].0 == k3
    requires k0 != k1 && k0 != k2 && k0 != k3 && k1 != k2 && k1 != k3 && k2 != k3
    ensures Lookup(fs, k0) == Some(fs[0].1) && Lookup(fs, k1) == Some(fs[1].1)
    ensures Lookup(fs, k2) == Some(fs[2].1) && Lookup(fs, k3) == Some(fs[3].1)
    ensures forall k :: |fs| == 4 && k != k0 && k != k1 && k != k2 && k != k3 ==> !HasKey(fs, k)
  {
    LookupFirst(fs, 0);
    LookupFirst(fs, 1);
    LookupFirst(fs, 2);
    LookupFirst(fs, 3);
  }

  /** The fields of a new entry read back as written. */
  lemma NewEntryFields(provider: Json, model: Json, apiKey: Json, baseUrl: Json)
    ensures var fs := NewEntry(provider, model, apiKey, baseUrl);
      && Lookup(fs, "provider") == Some(provider) && Lookup(fs, "model") == Some(model)
      && Lookup(fs, "api_key") == Some(apiKey) && Lookup(fs, "max_tokens") == Some(JInt(8192))
      && (HasKey(fs, "base_url") <==> Truthy(baseUrl))
      && (Truthy(baseUrl) ==> Lookup(fs, "base_url") == Some(baseUrl))
  {
    var fs := NewEntry(provider, model, apiKey, baseUrl);
    FourFields(fs, "provider", "model", "api_key", "max_tokens");
    if Truthy(baseUrl) {
      assert fs[4].0 == "base_url";
      LookupFirst(fs, 4);
    } else {
      assert |fs| == 4;
    }
  }

  // ---------------------------------------------------------------------
  // Report format

  /** The format `scan` and friends derive from the output path: its
      extension without the dot, or `html` when that is empty. */
  function ReportFormat(outputPath: string): (r: string)
    ensures r != ""
  {
    var ext := FileUtils.SplitExt(outputPath).1;
    var fmt := if ext == "" then "" else ext[1..];
    if fmt == "" then "html" else fmt
  }

  /** A path whose last component ends in `.e`, with a stem that does not
      begin with a dot, has extension `.e`. */
  lemma SplitExtOf(stem: string, e: string)
    requires |stem| > 0 && stem[0] != '.' && !Text.Contains(stem, '/')
    requires !Text.Contains(e, '.') && !Text.Contains(e, '/')
    ensures FileUtils.SplitExt(stem + "." + e) == (stem, "." + e)
  {
    var p := stem + "." + e;
    assert p[|stem|] == '.';
    assert forall j :: |stem| < j < |p| ==> p[j] == e[j - |stem| - 1];
    var dot := Text.RFind(p, '.');
    assert dot == |stem|;
    assert !Text.Contains(p, '/') by {
      forall j | 0 <= j < |p|
        ensures p[j] != '/'
      {
        if j < |stem| { assert p[j] == stem[j]; }
      }
    }
    assert p[0] == stem[0];
    assert FileUtils.HasNonDot(p, 0, dot);
    assert p[..dot] == stem;
    assert p[dot..] == "." + e;
  }

  /** The report named by `generate_report_filename` with extension `e`
      is written in format `e`: so a scan without `--output` writes HTML. */
  lemma DefaultReportFormat(isFile: bool, basePath: string, timestamp: string, e: string)
    requires e != "" && !Text.Contains(e, '.') && !Text.Contains(e, '/') && !Text.Contains(timestamp, '/')
    ensures ReportFormat(FileUtils.ReportFilename(isFile, basePath, timestamp, e)) == e
  {
    var name := FileUtils.ReportName(isFile, basePath);
    var stem := "codescan_" + name + "_" + timestamp;
    FilenameParts(name, timestamp, e);
    assert FileUtils.ReportFilename(isFile, basePath, timestamp, e) == stem + "." + e;
    SplitExtOf(stem, e);
    assert ("." + e)[1..] == e;
  }

  /** The report file name is a stem without `/`, a dot and the extension. */
  lemma FilenameParts(name: string, timestamp: string, e: string)
    requires !Text.Contains(name, '/') && !Text.Contains(timestamp, '/')
    ensures var stem := "codescan_" + name + "_" + timestamp;
      && "codescan_" + (name + ("_" + (timestamp + ("." + e)))) == stem + "." + e
      && !Text.Contains(stem, '/') && |stem| > 0 && stem[0] == 'c'
  {
    var stem := "codescan_" + name + "_" + timestamp;
    forall j | 0 <= j < |stem|
      ensures stem[j] != '/'
    {
      if j < 9 { assert stem[j] == "codescan_"[j]; }
      else if j < 9 + |name| { assert stem[j] == name[j - 9]; }
      else if j > 9 + |name| { assert stem[j] == timestamp[j - 10 - |name|]; }
    }
  }

  /** A path without an extension, or ending in a bare dot, is written as
      HTML; any other extension is used as the format without its dot. */
  lemma ReportFormatCases(outputPath: string)
    ensures var ext := FileUtils.SplitExt(outputPath).1;
      && (|ext| <= 1 ==> ReportFormat(outputPath) == "html")
      && (|ext| > 1 ==> ReportFormat(outputPath) == ext[1..] && "." + ReportFormat(outputPath) == ext)
  {
  }

  // ---------------------------------------------------------------------
  // Command dispatch

  datatype Command = ScanFile | ScanDir | ScanGithub | GitMerge | Update | Configure | ImportRule | ImportGithub

  /** The command-line name of each command. */
  function CommandName(c: Command): string {
    match c
    case ScanFile => "file"
    case ScanDir => "dir"
    case ScanGithub => "github"
    case GitMerge => "git-merge"
    case Update => "update"
    case Configure => "config"
    case ImportRule => "import-rule"
    case ImportGithub => "import-github"
  }

  /** The command `main` dispatches for a name, matched in the order `main` compares the names. */
  function CommandFor(name: string): (r: Option<Command>)
  {
    if name == "file" then Some(ScanFile)
    else if name == "dir" then Some(ScanDir)
    else if name == "github" then Some(ScanGithub)
    else if name == "git-merge" then Some(GitMerge)
    else if name == "update" then Some(Update)
    else if name == "config" then Some(Configure)
    else if name == "import-rule" then Some(ImportRule)
    else if name == "import-github" then Some(ImportGithub)
    else None
  }

  /** Exactly the eight names are recognised, each as its own command. */
  lemma CommandRoundTrip(c: Command, name: string)
    ensures CommandFor(CommandName(c)) == Some(c)
    ensures CommandFor(name).Some? ==> CommandName(CommandFor(name).value) == name
  {
  }

  /** `main`: the handler's exit code for a known command, 1 otherwise.
      `run` stands for the command handlers. */
  function Dispatch(name: string, run: Command -> int): (r: int)
    ensures CommandFor(name).None? ==> r == 1
  {
    match CommandFor(name)
    case None => 1
    case Some(c) => run(c)
  }

  /** Every command runs its own handler, and nothing else reaches one. */
  lemma DispatchRuns(c: Command, name: string, run: Command -> int)
    ensures Dispatch(CommandName(c), run) == run(c)
    ensures (forall d :: name != CommandName(d)) ==> Dispatch(name, run) == 1
  {
    if forall d :: name != CommandName(d) {
      if CommandFor(name).Some? {
        CommandRoundTrip(CommandFor(name).value, name);
      }
    }
  }

  // ---------------------------------------------------------------------
  // git-merge

  /** The findings of `scan_git_merge`: each changed path that is a file
      under the working directory is scanned, and the findings are joined
      in diff order; a scan that raises aborts the command. */
  function MergeIssues(cwd: string, diff: seq<string>, isFile: string -> bool,
                       scan: string -> Result<Findings.ScanResult, string>): (r: Result<seq<Findings.Issue>, string>)
    ensures (forall k :: 0 <= k < |diff| ==> !isFile(Scanner.PathJoin(cwd, diff[k]))) ==> r == Ok([])
  {
    if |diff| == 0 then Ok([])
    else
      var path := Scanner.PathJoin(cwd, diff[0]);
      if !isFile(path) then MergeIssues(cwd, diff[1..], isFile, scan)
      else
        match scan(path)
        case Err(e) => Err(e)
        case Ok(result) =>
          match MergeIssues(cwd, diff[1..], isFile, scan)
          case Err(e) => Err(e)
          case Ok(rest) => Ok(result.issues + rest)
  }

  /** Scanning two runs of paths gives the two runs' findings in order. */
  lemma {:induction false} MergeIssuesConcat(cwd: string, a: seq<string>, b: seq<string>, isFile: string -> bool,
                                             scan: string -> Result<Findings.ScanResult, string>)
    requires MergeIssues(cwd, a, isFile, scan).Ok? && MergeIssues(cwd, b, isFile, scan).Ok?
    ensures MergeIssues(cwd, a + b, isFile, scan) ==
      Ok(MergeIssues(cwd, a, isFile, scan).value + MergeIssues(cwd, b, isFile, scan).value)
  {
    if |a| == 0 {
      var bs := MergeIssues(cwd, b, isFile, scan).value;
      assert a + b == b;
      assert MergeIssues(cwd, a, isFile, scan).value == [];
      assert [] + bs == bs;
    } else {
      assert MergeIssues(cwd, a[1..], isFile, scan).Ok?;
      MergeIssuesConcat(cwd, a[1..], b, isFile, scan);
      assert (a + b)[0] == a[0];
      assert (a + b)[1..] == a[1..] + b;
      ConcatStep(cwd, a, a[1..] + b, a + b, isFile, scan, MergeIssues(cwd, b, isFile, scan).value);
    }
  }

  /** The inductive step of `MergeIssuesConcat`, for `ab == a + b`. */
  lemma {:induction false} ConcatStep(cwd: string, a: seq<string>, tb: seq<string>, ab: seq<string>, isFile: string -> bool,
                   scan: string -> Result<Findings.ScanResult, string>, bs: seq<Findings.Issue>)
    requires |a| > 0 && |ab| > 0 && ab[0] == a[0] && ab[1..] == tb
    requires MergeIssues(cwd, a, isFile, scan).Ok? && MergeIssues(cwd, a[1..], isFile, scan).Ok?
    requires MergeIssues(cwd, tb, isFile, scan) == Ok(MergeIssues(cwd, a[1..], isFile, scan).value + bs)
    ensures MergeIssues(cwd, ab, isFile, scan) == Ok(MergeIssues(cwd, a, isFile, scan).value + bs)
  {
    var h := HeadIssues(cwd, a[0], isFile, scan);
    MergeCons(cwd, a, isFile, scan);
    MergeCons(cwd, ab, isFile, scan);
    var rest := MergeIssues(cwd, a[1..], isFile, scan).value;
    assert h.value + (rest + bs) == (h.value + rest) + bs;
  }

  /** What one changed path contributes: nothing for a non-file, else the
      findings of its scan or the error it raised. */
  function HeadIssues(cwd: string, f: string, isFile: string -> bool,
                      scan: string -> Result<Findings.ScanResult, string>): Result<seq<Findings.Issue>, string>
  {
    var path := Scanner.PathJoin(cwd, f);
    if !isFile(path) then Ok([])
    else match scan(path)
      case Err(e) => Err(e)
      case Ok(result) => Ok(result.issues)
  }

  /** The findings of a run of paths are its first path's followed by the
      rest's, the first error winning. */
  lemma {:induction false} MergeCons(cwd: string, s: seq<string>, isFile: string -> bool,
                                     scan: string -> Result<Findings.ScanResult, string>)
    requires |s| > 0
    ensures var h := HeadIssues(cwd, s[0], isFile, scan);
      var t := MergeIssues(cwd, s[1..], isFile, scan);
      MergeIssues(cwd, s, isFile, scan) ==
        if h.Err? then Err(h.error) else if t.Err? then Err(t.error) else Ok(h.value + t.value)
  {
    var h := HeadIssues(cwd, s[0], isFile, scan);
    if h.Ok? && h.value == [] {
      var t := MergeIssues(cwd, s[1..], isFile, scan);
      if t.Ok? { assert [] + t.value == t.value; }
    }
  }

  /** A changed path that is not a file (deleted, or a directory)
      contributes nothing and cannot make the command fail. */
  lemma SkipsNonFiles(cwd: string, f: string, rest: seq<string>, isFile: string -> bool,
                      scan: string -> Result<Findings.ScanResult, string>)
    requires !isFile(Scanner.PathJoin(cwd, f))
    ensures MergeIssues(cwd, [f] + rest, isFile, scan) == MergeIssues(cwd, rest, isFile, scan)
  {
    assert ([f] + rest)[1..] == rest;
  }

  /** `scan_git_merge` after git has answered: with no changed paths the
      command ends with exit code 0 and no report (`None`); otherwise the
      merge result over the joined findings, identified by both branch
      names. */
  function GitMergeScan(cwd: string, branch: string, current: string, diff: seq<string>, isFile: string -> bool,
                        scan: string -> Result<Findings.ScanResult, string>, read: string -> Option<string>, now: int)
    : (r: Result<Option<Findings.ScanResult>, string>)
    ensures diff == [] ==> r == Ok(None)
    ensures r.Ok? && r.value.Some? ==>
      && MergeIssues(cwd, diff, isFile, scan).Ok?
      && r.value.value.issues == MergeIssues(cwd, diff, isFile, scan).value
      && r.value.value.scanId == "git-merge-" + branch + "-" + current
      && r.value.value.scanType == "git-merge"
  {
    if diff == [] then Ok(None)
    else
      match MergeIssues(cwd, diff, isFile, scan)
      case Err(e) => Err(e)
      case Ok(issues) => Ok(Some(Scanner.MergeResult(cwd, "git-merge-" + branch + "-" + current, issues, diff, read, now)))
  }
}

=== FILE: counter.dfy ===
/** Insertion-ordered counting dictionaries, the `d[k] = d.get(k, 0) + 1`
    idiom the scanner and the helpers use for language and extension
    statistics. Two counters are equal as Python dicts when `AsMap` agrees. */
module Counter {

  type Counts = seq<(string, nat)>

  /** The keys in insertion order. */
  function Keys(c: Counts): (ks: seq<string>)
    ensures |ks| == |c|
  {
    if |c| == 0 then [] else [c[0].0] + Keys(c[1..])
  }

  /** Keys are pairwise distinct, as in any Python dict. */
  predicate Distinct(c: Counts) {
    |c| == 0 || (c[0].0 !in Keys(c[1..]) && Distinct(c[1..]))
  }

  /** `d.get(k, 0)`. */
  function Get(c: Counts, k: string): nat {
    if |c| == 0 then 0
    else if c[0].0 == k then c[0].1
    else Get(c[1..], k)
  }

  /** The sum of all counts. */
  function Total(c: Counts): nat {
    if |c| == 0 then 0 else c[0].1 + Total(c[1..])
  }

  /** `d[k] = d.get(k, 0) + 1`: an existing key is incremented in place, a
      new key is appended with count 1. */
  function Bump(c: Counts, k: string): (r: Counts)
  {
    if |c| == 0 then [(k, 1)]
    else if c[0].0 == k then [(k, c[0].1 + 1)] + c[1..]
    else [c[0]] + Bump(c[1..], k)
  }

  lemma {:induction false} AbsentGet(c: Counts, k: string)
    requires k !in Keys(c)
    ensures Get(c, k) == 0
    decreases |c|
  {
    if |c| > 0 {
      AbsentGet(c[1..], k);
    }
  }

  /** Bumping keeps the keys distinct, adds `k` to the keys (at the end when
      new), adds one to `k`'s count and to the total, and leaves every other
      count alone. */
  lemma {:induction false} BumpFacts(c: Counts, k: string)
    requires Distinct(c)
    ensures Distinct(Bump(c, k))
    ensures k in Keys(c) ==> Keys(Bump(c, k)) == Keys(c)
    ensures k !in Keys(c) ==> Keys(Bump(c, k)) == Keys(c) + [k]
    ensures Get(Bump(c, k), k) == Get(c, k) + 1
    ensures forall k' :: k' != k ==> Get(Bump(c, k), k') == Get(c, k')
    ensures Total(Bump(c, k)) == Total(c) + 1
    decreases |c|
  {
    if |c| > 0 {
      var r := Bump(c, k);
      if c[0].0 == k {
        assert r[1..] == c[1..];
        AbsentGet(c[1..], k);
      } else {
        BumpFacts(c[1..], k);
        assert r[1..] == Bump(c[1..], k);
      }
    }
  }

  /** The keys list the first components, position by position. */
  lemma {:induction false} KeysAt(c: Counts)
    ensures forall i :: 0 <= i < |c| ==> Keys(c)[i] == c[i].0
    decreases |c|
  {
    if |c| > 0 {
      KeysAt(c[1..]);
    }
  }

  /** Pairwise different first components make a dict. */
  lemma {:induction false} PairwiseDistinct(c: Counts)
    requires forall i, j :: 0 <= i < j < |c| ==> c[i].0 != c[j].0
    ensures Distinct(c)
    decreases |c|
  {
    if |c| > 0 {
      KeysAt(c[1..]);
      PairwiseDistinct(c[1..]);
    }
  }

  /** A dict whose counts are all zero answers zero for every key. */
  lemma {:induction false} ZeroCounts(c: Counts, k: string)
    requires forall i :: 0 <= i < |c| ==> c[i].1 == 0
    ensures Get(c, k) == 0 && Total(c) == 0
    decreases |c|
  {
    if |c| > 0 {
      ZeroCounts(c[1..], k);
    }
  }

  /** Counting `keys` one after another into the dict `c`. */
  function TallyInto(c: Counts, keys: seq<string>): Counts {
    if |keys| == 0 then c
    else Bump(TallyInto(c, keys[..|keys| - 1]), keys[|keys| - 1])
  }

  /** Counting `keys` into an initially empty dict. */
  function Tally(keys: seq<string>): Counts {
    TallyInto([], keys)
  }

  lemma {:induction false} TallyIntoDistinct(c: Counts, keys: seq<string>)
    requires Distinct(c)
    ensures Distinct(TallyInto(c, keys))
    decreases |keys|
  {
    if |keys| > 0 {
      TallyIntoDistinct(c, keys[..|keys| - 1]);
      BumpFacts(TallyInto(c, keys[..|keys| - 1]), keys[|keys| - 1]);
    }
  }

  /** Each key's count grows by its number of occurrences. */
  lemma {:induction false} TallyIntoGet(c: Counts, keys: seq<string>, k: string)
    requires Distinct(c)
    ensures Get(TallyInto(c, keys), k) == Get(c, k) + multiset(keys)[k]
    decreases |keys|
  {
    if |keys| > 0 {
      var init := keys[..|keys| - 1];
      var last := keys[|keys| - 1];
      var prev := TallyInto(c, init);
      TallyIntoGet(c, init, k);
      TallyIntoDistinct(c, init);
      BumpGet(prev, last, k);
      Occurrences(keys, k);
    }
  }

  lemma BumpGet(c: Counts, last: string, k: string)
    requires Distinct(c)
    ensures Get(Bump(c, last), k) == Get(c, k) + if k == last then 1 else 0
  {
    BumpFacts(c, last);
  }

  lemma Occurrences(keys: seq<string>, k: string)
    requires |keys| > 0
    ensures var last := keys[|keys| - 1];
      multiset(keys)[k] == multiset(keys[..|keys| - 1])[k] + if k == last then 1 else 0
  {
    var init := keys[..|keys| - 1];
    assert keys == init + [keys[|keys| - 1]];
    assert multiset(keys) == multiset(init) + multiset{keys[|keys| - 1]};
  }

  /** The keys afterwards are the old keys, in their old order, followed by
      the keys counted that were new. */
  lemma {:induction false} TallyIntoKeys(c: Counts, keys: seq<string>, k: string)
    requires Distinct(c)
    ensures k in Keys(TallyInto(c, keys)) <==> k in Keys(c) || k in keys
    ensures |Keys(TallyInto(c, keys))| >= |Keys(c)| && Keys(TallyInto(c, keys))[..|Keys(c)|] == Keys(c)
    decreases |keys|
  {
    if |keys| > 0 {
      var init := keys[..|keys| - 1];
      var last := keys[|keys| - 1];
      TallyIntoKeys(c, init, k);
      TallyIntoDistinct(c, init);
      BumpFacts(TallyInto(c, init), last);
      Membership(keys, k);
      var before := Keys(TallyInto(c, init));
      assert (before + [last])[..|Keys(c)|] == before[..|Keys(c)|];
    }
  }

  lemma Membership(keys: seq<string>, k: string)
    requires |keys| > 0
    ensures k in keys <==> k in keys[..|keys| - 1] || k == keys[|keys| - 1]
  {
    assert keys == keys[..|keys| - 1] + [keys[|keys| - 1]];
  }

  /** The counts grow in total by the number of keys counted. */
  lemma {:induction false} TallyIntoTotal(c: Counts, keys: seq<string>)
    requires Distinct(c)
    ensures Total(TallyInto(c, keys)) == Total(c) + |keys|
    decreases |keys|
  {
    if |keys| > 0 {
      TallyIntoTotal(c, keys[..|keys| - 1]);
      TallyIntoDistinct(c, keys[..|keys| - 1]);
      BumpFacts(TallyInto(c, keys[..|keys| - 1]), keys[|keys| - 1]);
    }
  }

  /** Each key's count in the tally is its number of occurrences. */
  lemma TallyGet(keys: seq<string>, k: string)
    ensures Get(Tally(keys), k) == multiset(keys)[k]
  {
    TallyIntoGet([], keys, k);
  }

  /** The tally's keys are exactly the keys counted. */
  lemma TallyKeys(keys: seq<string>, k: string)
    ensures k in Keys(Tally(keys)) <==> k in keys
  {
    TallyIntoKeys([], keys, k);
  }

  /** The counts sum to the number of keys counted. */
  lemma TallyTotal(keys: seq<string>)
    ensures Total(Tally(keys)) == |keys|
  {
    TallyIntoTotal([], keys);
  }

  /** The counter as a plain map: what Python's dict equality compares. */
  function AsMap(c: Counts): map<string, nat> {
    map k | k in Keys(c) :: Get(c, k)
  }

  /** Counting two arrangements of the same keys gives equal dicts, however
      the insertion order of their keys differs. */
  lemma TallyOrderIndependent(a: seq<string>, b: seq<string>)
    requires multiset(a) == multiset(b)
    ensures AsMap(Tally(a)) == AsMap(Tally(b))
  {
    forall k ensures k in Keys(Tally(a)) <==> k in Keys(Tally(b)) {
      TallyKeys(a, k);
      TallyKeys(b, k);
      assert k in a <==> k in multiset(a);
      assert k in b <==> k in multiset(b);
    }
    forall k ensures Get(Tally(a), k) == Get(Tally(b), k) {
      TallyGet(a, k);
      TallyGet(b, k);
    }
  }
}

=== FILE: file_utils.dfy ===
/** The file helpers of `codescan/utils.py`: extension-to-language mapping,
    binary sniffing on the first kilobyte, extension statistics and report
    file names. */
module FileUtils {
  import opened Wrappers
  import Text
  import Counter
  import Rules

  // ---------------------------------------------------------------------
  // Extensions and languages

  /** The last path component of `p` holds a dot that some character other
      than a dot precedes within that component. */
  predicate HasExtension(p: string) {
    exists k, d :: 0 <= k < d < |p| && p[k] != '.' && p[d] == '.' && !Text.Contains(p[k..], '/')
  }

  /** `os.path.splitext` (POSIX): the extension starts at the last `.` of
      the last path component, unless everything before that dot in the
      component is dots (a leading-dot name such as `.bashrc`). The
      extension is empty exactly when there is no such dot. */
  function SplitExt(p: string): (r: (string, string))
    ensures r.0 + r.1 == p
    ensures r.1 == "" || (r.1[0] == '.' && !Text.Contains(r.1, '/') && !Text.Contains(r.1[1..], '.'))
    ensures r.1 != "" <==> HasExtension(p)
  {
    var sep := Text.RFind(p, '/');
    var dot := Text.RFind(p, '.');
    ExtensionFound(p);
    if dot > sep && HasNonDot(p, sep + 1, dot) then
      LastDotTail(p, sep, dot);
      var k :| sep + 1 <= k < dot && p[k] != '.';
      assert !Text.Contains(p[k..], '/') by {
        assert forall j :: 0 <= j < |p[k..]| ==> p[k..][j] == p[k + j];
      }
      (p[..dot], p[dot..])
    else (p, "")
  }

  /** From the last dot after the last slash on, a path holds one dot and
      no slash. */
  lemma LastDotTail(p: string, sep: int, dot: int)
    requires sep == Text.RFind(p, '/') && dot == Text.RFind(p, '.') && dot > sep
    ensures forall j :: sep < j < |p| ==> p[j] != '/'
    ensures p[dot..][0] == '.' && !Text.Contains(p[dot..], '/') && !Text.Contains(p[dot..][1..], '.')
  {
    var t := p[dot..];
    assert forall j :: 0 <= j < |t| ==> t[j] == p[dot + j];
    assert forall j :: 0 <= j < |t[1..]| ==> t[1..][j] == p[dot + 1 + j];
  }

  /** No character of `s` from `from` on is `c`. */
  lemma NotAfter(s: string, from: nat, c: char)
    requires from <= |s| && !Text.Contains(s[from..], c)
    ensures forall j :: from <= j < |s| ==> s[j] != c
  {
    forall j | from <= j < |s| ensures s[j] != c {
      assert s[from..][j - from] == s[j];
    }
  }

  /** An extension in the sense of `HasExtension` is one the split finds. */
  lemma ExtensionFound(p: string)
    ensures HasExtension(p) ==>
      Text.RFind(p, '.') > Text.RFind(p, '/') && HasNonDot(p, Text.RFind(p, '/') + 1, Text.RFind(p, '.'))
  {
    if HasExtension(p) {
      ExtensionFoundWitness(p);
    }
  }

  lemma ExtensionFoundWitness(p: string)
    requires HasExtension(p)
    ensures Text.RFind(p, '.') > Text.RFind(p, '/')
    ensures HasNonDot(p, Text.RFind(p, '/') + 1, Text.RFind(p, '.'))
  {
    var sep := Text.RFind(p, '/');
    var dot := Text.RFind(p, '.');
    var k, d :| 0 <= k < d < |p| && p[k] != '.' && p[d] == '.' && !Text.Contains(p[k..], '/');
    assert Text.Contains(p, '.') by { assert p[d] == '.'; }
    assert d <= dot;
    NotAfter(p, k, '/');
    assert sep < k;
  }

  /** Some character of `p[from..to]` is not a dot. */
  predicate HasNonDot(p: string, from: int, to: int)
    requires 0 <= from && to <= |p|
  {
    exists k :: from <= k < to && p[k] != '.'
  }

  /** The `FILE_EXTENSIONS` table. */
  const Extensions: map<string, string> := map[
    ".py" := "python", ".js" := "javascript", ".ts" := "typescript", ".jsx" := "javascript",
    ".tsx" := "typescript", ".java" := "java", ".c" := "c", ".cpp" := "c++", ".cs" := "c#",
    ".go" := "golang", ".rs" := "rust", ".php" := "php", ".rb" := "ruby", ".swift" := "swift",
    ".kt" := "kotlin", ".scala" := "scala", ".m" := "objective-c", ".h" := "c", ".sh" := "bash",
    ".bat" := "batch", ".ps1" := "powershell", ".sql" := "sql", ".html" := "html", ".css" := "css",
    ".scss" := "scss", ".less" := "less", ".xml" := "xml", ".json" := "json", ".yaml" := "yaml",
    ".yml" := "yaml", ".md" := "markdown", ".tex" := "latex", ".r" := "r", ".dart" := "dart",
    ".lua" := "lua", ".pl" := "perl", ".groovy" := "groovy", ".vb" := "visual basic"]

  /** The lower-cased extension of a path, possibly "". */
  function Ext(path: string): string {
    SplitExt(Text.Lower(path)).1
  }

  /** `p` has the extension `e`: it ends with `e` and has an extension. */
  predicate ExtensionIs(p: string, e: string) {
    HasExtension(p) && Text.EndsWith(p, e)
  }

  /** `get_file_language`: the table entry for the lower-cased extension,
      else `unknown`. Stated without the split: a table extension the
      lower-cased path ends with (as a real extension) gives its language,
      and a path that ends with none is `unknown`. */
  function Language(path: string): (r: string)
    ensures forall e :: e in Extensions && ExtensionIs(Text.Lower(path), e) ==> r == Extensions[e]
    ensures (forall e :: e in Extensions ==> !ExtensionIs(Text.Lower(path), e)) ==> r == "unknown"
  {
    var lp := Text.Lower(path);
    ExtensionsShape();
    forall e | e in Extensions && ExtensionIs(lp, e)
      ensures e == Ext(path)
    {
      DotSuffixUnique(lp, e, Ext(path));
    }
    if Ext(path) in Extensions then Extensions[Ext(path)] else "unknown"
  }

  /** Every key of the table is a dot followed by characters that are
      neither dots nor slashes. */
  predicate DotWord(e: string) {
    |e| > 0 && e[0] == '.' && '/' !in e && '.' !in e[1..]
  }

  lemma ExtensionsShape()
    ensures forall e :: e in Extensions ==> DotWord(e)
  {
    assert DotWord(".py");
    assert DotWord(".js");
    assert DotWord(".ts");
    assert DotWord(".jsx");
    assert DotWord(".tsx");
    assert DotWord(".java");
    assert DotWord(".c");
    assert DotWord(".cpp");
    assert DotWord(".cs");
    assert DotWord(".go");
    assert DotWord(".rs");
    assert DotWord(".php");
    assert DotWord(".rb");
    assert DotWord(".swift");
    assert DotWord(".kt");
    assert DotWord(".scala");
    assert DotWord(".m");
    assert DotWord(".h");
    assert DotWord(".sh");
    assert DotWord(".bat");
    assert DotWord(".ps1");
    assert DotWord(".sql");
    assert DotWord(".html");
    assert DotWord(".css");
    assert DotWord(".scss");
    assert DotWord(".less");
    assert DotWord(".xml");
    assert DotWord(".json");
    assert DotWord(".yaml");
    assert DotWord(".yml");
    assert DotWord(".md");
    assert DotWord(".tex");
    assert DotWord(".r");
    assert DotWord(".dart");
    assert DotWord(".lua");
    assert DotWord(".pl");
    assert DotWord(".groovy");
    assert DotWord(".vb");
  }

  /** A path has at most one extension: a dot-word it ends with, as a real
      extension, is its split extension. */
  lemma DotSuffixUnique(p: string, e: string, x: string)
    requires x == SplitExt(p).1 && DotWord(e) && ExtensionIs(p, e)
    ensures e == x
  {
    assert x != "";
    assert forall i :: 1 <= i < |e| ==> e[i] != '.' by {
      forall i | 1 <= i < |e| ensures e[i] != '.' { assert e[1..][i - 1] == e[i]; }
    }
    assert forall i :: 1 <= i < |x| ==> x[i] != '.' by {
      forall i | 1 <= i < |x| ensures x[i] != '.' { assert x[1..][i - 1] == x[i]; }
    }
    assert p[|p| - |x|..] == x;
    assert p[|p| - |e|..] == e;
    assert |e| <= |x| ==> x[|x| - |e|] == p[|p| - |e|];
    assert |x| <= |e| ==> e[|e| - |x|] == p[|p| - |x|];
    assert |e| == |x|;
  }

  /** The language does not depend on the case of the path. */
  lemma LanguageIgnoresCase(path: string)
    ensures Language(Text.Lower(path)) == Language(path)
  {
    assert Text.Lower(Text.Lower(path)) == Text.Lower(path);
  }

  /** `.go` files are labelled `golang` and `.cpp` files `c++`, names no
      bucket of the rule store uses; such files receive only the common
      rules. */
  lemma GoAndCppGetOnlyCommon(store: Rules.Store, path: string)
    requires Ext(path) == ".go" || Ext(path) == ".cpp"
    requires forall lang :: lang in store ==> lang in Rules.StandardBuckets
    ensures Rules.PatternsFor(store, Language(path)) == Rules.Bucket(store, "common")
  {
    var lang := Language(path);
    GoAndCppLanguages(path);
    GoAndCppNotBuckets();
    Rules.MissingBucketGetsCommon(store, lang);
  }

  lemma GoAndCppLanguages(path: string)
    requires Ext(path) == ".go" || Ext(path) == ".cpp"
    ensures Language(path) == "golang" || Language(path) == "c++"
  {
  }

  lemma GoAndCppNotBuckets()
    ensures Text.Lower("golang") == "golang" && "golang" !in Rules.StandardBuckets
    ensures Text.Lower("c++") == "c++" && "c++" !in Rules.StandardBuckets
  {
    assert Text.Lower("golang") == "golang";
    assert Text.Lower("c++") == "c++";
  }

  // ---------------------------------------------------------------------
  // Binary sniffing

  type Byte = x: int | 0 <= x < 256

  /** `BINARY_MIME_PREFIXES`. */
  const BinaryMimePrefixes: seq<string> := ["image/", "audio/", "video/", "application/octet-stream",
    "application/zip", "application/x-rar", "application/pdf", "application/msword", "application/vnd.ms-"]

  predicate BinaryMime(mime: string) {
    exists i :: 0 <= i < |BinaryMimePrefixes| && Text.StartsWith(mime, BinaryMimePrefixes[i])
  }

  /** The length of the UTF-8 sequence a lead byte starts; 0 when the byte
      cannot start one (continuation bytes, C0, C1, F5 to FF). */
  function SeqLen(b: Byte): nat {
    if b <= 0x7F then 1
    else if 0xC2 <= b <= 0xDF then 2
    else if 0xE0 <= b <= 0xEF then 3
    else if 0xF0 <= b <= 0xF4 then 4
    else 0
  }

  /** The allowed range of the second byte after a lead byte, which rules
      out overlong forms, surrogates and code points above U+10FFFF. */
  predicate SecondOk(lead: Byte, b: Byte) {
    if lead == 0xE0 then 0xA0 <= b <= 0xBF
    else if lead == 0xED then 0x80 <= b <= 0x9F
    else if lead == 0xF0 then 0x90 <= b <= 0xBF
    else if lead == 0xF4 then 0x80 <= b <= 0x8F
    else 0x80 <= b <= 0xBF
  }

  predicate Cont(b: Byte) {
    0x80 <= b <= 0xBF
  }

  /** The first `n` bytes of `s` (all of `s` when shorter) are consistent
      with a sequence of length `n` starting at `s[0]`. */
  predicate SeqBytesOk(s: seq<Byte>, n: nat)
    requires |s| > 0
  {
    (n < 2 || |s| < 2 || SecondOk(s[0], s[1])) && forall k :: 2 <= k < n && k < |s| ==> Cont(s[k])
  }

  /** Strict UTF-8 validity, as Python's decoder checks it. */
  predicate ValidUtf8(s: seq<Byte>)
    decreases |s|
  {
    |s| == 0 || (var n := SeqLen(s[0]); n > 0 && n <= |s| && SeqBytesOk(s, n) && ValidUtf8(s[n..]))
  }

  /** Valid UTF-8 except that the last sequence may be cut short. */
  predicate ValidUtf8Prefix(s: seq<Byte>)
    decreases |s|
  {
    |s| == 0 || (var n := SeqLen(s[0]); n > 0 && SeqBytesOk(s, n) && (n <= |s| ==> ValidUtf8Prefix(s[n..])))
  }

  /** Any prefix of valid UTF-8 is valid up to a cut-short last sequence. */
  lemma {:induction false} PrefixOfValid(s: seq<Byte>, m: nat)
    requires ValidUtf8(s) && m <= |s|
    ensures ValidUtf8Prefix(s[..m])
    decreases |s|
  {
    if m > 0 {
      var n := SeqLen(s[0]);
      var t := s[..m];
      assert t[0] == s[0];
      if n <= m {
        PrefixOfValid(s[n..], m - n);
        assert t[n..] == s[n..][..m - n];
      }
    }
  }

  /** Only ASCII bytes: valid. */
  lemma {:induction false} AsciiValid(s: seq<Byte>)
    requires forall i :: 0 <= i < |s| ==> s[i] <= 0x7F
    ensures ValidUtf8(s)
    decreases |s|
  {
    if |s| > 0 {
      AsciiValid(s[1..]);
    }
  }

  /** ASCII bytes followed by a lone lead byte are not valid. */
  lemma {:induction false} CutLeadInvalid(s: seq<Byte>, lead: Byte)
    requires forall i :: 0 <= i < |s| ==> s[i] <= 0x7F
    requires SeqLen(lead) >= 2
    ensures !ValidUtf8(s + [lead])
    decreases |s|
  {
    if |s| > 0 {
      assert (s + [lead])[1..] == s[1..] + [lead];
      CutLeadInvalid(s[1..], lead);
    }
  }

  /** The file bytes as far as sniffing sees them: `None` when the file
      cannot be opened. */
  function FirstKilobyte(data: seq<Byte>): seq<Byte> {
    if |data| <= 1024 then data else data[..1024]
  }

  /** `is_binary_file` given the guessed MIME type and the file contents:
      a binary MIME prefix, an unopenable file, a NUL byte in the first 1024
      bytes, or first 1024 bytes that do not decode as UTF-8. */
  function IsBinary(mime: Option<string>, data: Option<seq<Byte>>): (r: bool)
    ensures mime.Some? && BinaryMime(mime.value) ==> r
    ensures data.None? ==> r
    ensures data.Some? && 0 in FirstKilobyte(data.value) ==> r
    ensures !(mime.Some? && BinaryMime(mime.value)) && data.Some? && 0 !in FirstKilobyte(data.value)
      ==> (r <==> !ValidUtf8(FirstKilobyte(data.value)))
  {
    if mime.Some? && BinaryMime(mime.value) then true
    else match data
      case None => true
      case Some(bytes) =>
        var chunk := FirstKilobyte(bytes);
        if 0 in chunk then true else !ValidUtf8(chunk)
  }

  /** As written, a text file whose 1024th byte starts a multi-byte
      character is called binary: 1023 `a`s followed by `é` (C3 A9) is valid
      UTF-8, but its first kilobyte ends in a lone C3. */
  lemma CutCharacterLooksBinary()
    ensures var data := seq(1023, _ => 0x61 as Byte) + [0xC3 as Byte, 0xA9 as Byte];
      ValidUtf8(data) && !IsBinaryFixed(None, Some(data)) && IsBinary(None, Some(data))
  {
    var a := seq(1023, _ => 0x61 as Byte);
    var data := a + [0xC3 as Byte, 0xA9 as Byte];
    AsciiValid(a);
    ValidAppend(a, [0xC3 as Byte, 0xA9 as Byte]);
    assert ValidUtf8([0xC3 as Byte, 0xA9 as Byte]) by {
      assert [0xC3 as Byte, 0xA9 as Byte][2..] == [];
    }
    assert FirstKilobyte(data) == a + [0xC3 as Byte];
    CutLeadInvalid(a, 0xC3);
    PrefixOfValid(data, 1024);
    assert 0 !in FirstKilobyte(data);
  }

  lemma {:induction false} ValidAppend(a: seq<Byte>, b: seq<Byte>)
    requires forall i :: 0 <= i < |a| ==> a[i] <= 0x7F
    requires ValidUtf8(b)
    ensures ValidUtf8(a + b)
    decreases |a|
  {
    if |a| > 0 {
      assert (a + b)[1..] == a[1..] + b;
      ValidAppend(a[1..], b);
    } else {
      assert a + b == b;
    }
  }

  /** `is_binary_file` corrected: a sequence cut short by the 1024-byte
      limit is not held against the file. */
  function IsBinaryFixed(mime: Option<string>, data: Option<seq<Byte>>): bool {
    if mime.Some? && BinaryMime(mime.value) then true
    else match data
      case None => true
      case Some(bytes) =>
        var chunk := FirstKilobyte(bytes);
        if 0 in chunk then true
        else if |bytes| <= 1024 then !ValidUtf8(chunk)
        else !ValidUtf8Prefix(chunk)
  }

  /** With the correction, a readable file that is valid UTF-8 without NUL
      bytes and without a binary MIME type is never called binary. */
  lemma TextFileIsText(mime: Option<string>, data: seq<Byte>)
    requires !(mime.Some? && BinaryMime(mime.value))
    requires ValidUtf8(data) && 0 !in data
    ensures !IsBinaryFixed(mime, Some(data))
  {
    if |data| > 1024 {
      PrefixOfValid(data, 1024);
    }
  }

  // ---------------------------------------------------------------------
  // Statistics and names

  /** The non-empty lower-cased extensions of the files, in order. */
  function Exts(files: seq<string>): (r: seq<string>)
    ensures |r| <= |files|
    ensures "" !in r
  {
    if |files| == 0 then []
    else (if Ext(files[0]) != "" then [Ext(files[0])] else []) + Exts(files[1..])
  }

  lemma {:induction false} ExtsCount(files: seq<string>, e: string)
    requires e != ""
    ensures multiset(Exts(files))[e] == |FilesWithExt(files, e)|
    decreases |files|
  {
    if |files| > 0 {
      ExtsCount(files[1..], e);
    }
  }

  function FilesWithExt(files: seq<string>, e: string): seq<string> {
    if |files| == 0 then []
    else (if Ext(files[0]) == e then [files[0]] else []) + FilesWithExt(files[1..], e)
  }

  /** `get_file_extension_stats`. */
  function ExtensionStats(files: seq<string>): Counter.Counts {
    Counter.Tally(Exts(files))
  }

  /** Each extension is counted once per file carrying it, files without an
      extension are skipped, and the counts sum to at most the number of
      files. */
  lemma ExtensionStatsCounts(files: seq<string>, e: string)
    ensures e != "" ==> Counter.Get(ExtensionStats(files), e) == |FilesWithExt(files, e)|
    ensures "" !in Counter.Keys(ExtensionStats(files))
    ensures Counter.Total(ExtensionStats(files)) <= |files|
  {
    if e != "" {
      Counter.TallyGet(Exts(files), e);
      ExtsCount(files, e);
    }
    Counter.TallyKeys(Exts(files), "");
    Counter.TallyTotal(Exts(files));
  }

  /** `generate_report_filename` given whether the base path is a file and
      the formatted timestamp. */
  function ReportFilename(isFile: bool, basePath: string, timestamp: string, extension: string): (r: string)
    ensures Text.StartsWith(r, "codescan_") && Text.EndsWith(r, "." + extension)
  {
    var tail := "_" + (timestamp + ("." + extension));
    AffixesOf("codescan_", ReportName(isFile, basePath) + tail);
    AffixesOf("_", timestamp + ("." + extension));
    AffixesOf(timestamp, "." + extension);
    AffixesOf(ReportName(isFile, basePath), tail);
    "codescan_" + (ReportName(isFile, basePath) + tail)
  }

  /** The prefix and suffix of a concatenation; a suffix of the second
      part is a suffix of the whole. */
  lemma AffixesOf(a: string, b: string)
    ensures Text.StartsWith(a + b, a) && (a + b)[|a|..] == b
    ensures forall e :: Text.EndsWith(b, e) ==> Text.EndsWith(a + b, e)
  {
    assert (a + b)[..|a|] == a;
  }

  /** The base name, without its extension for a file; it holds no `/`. */
  function ReportName(isFile: bool, basePath: string): (name: string)
    ensures !Text.Contains(name, '/')
  {
    var base := Text.BaseName(basePath);
    if isFile then
      assert SplitExt(base).0 == base[..|SplitExt(base).0|];
      NoSlashPrefix(base, |SplitExt(base).0|);
      SplitExt(base).0
    else base
  }

  lemma NoSlashPrefix(s: string, n: nat)
    requires n <= |s| && !Text.Contains(s, '/')
    ensures !Text.Contains(s[..n], '/')
  {
    assert forall i :: 0 <= i < n ==> s[..n][i] == s[i];
  }

  /** The name part between the prefix and the timestamp is the base name,
      without its extension for a file. */
  lemma ReportFilenameName(isFile: bool, basePath: string, timestamp: string, extension: string)
    ensures var name := if isFile then SplitExt(Text.BaseName(basePath)).0 else Text.BaseName(basePath);
      ReportFilename(isFile, basePath, timestamp, extension)[9..9 + |name|] == name
      && !Text.Contains(name, '/')
  {
    var name := ReportName(isFile, basePath);
    var tail := "_" + (timestamp + ("." + extension));
    AffixesOf("codescan_", name + tail);
    AffixesOf(name, tail);
  }
}

=== FILE: findings.dfy ===
/** The finding and scan-result records of `codescan/scanner.py`, their
    derived counts, and the dictionary form used to save and reload them. */
module Findings {
  import opened Wrappers
  import opened Json
  import Counter

  /** `VulnerabilityIssue`. */
  datatype Issue = Issue(
    severity: string,
    filePath: string,
    line: Option<int>,
    snippet: Option<string>,
    description: string,
    recommendation: string,
    cwe: Option<string>,
    confidence: string)

  /** `ScanResult`. The timestamp is whole seconds. */
  datatype ScanResult = ScanResult(
    scanId: string,
    scanPath: string,
    scanType: string,
    timestamp: int,
    issues: seq<Issue>,
    stats: Json,
    projectInfo: Json)

  /** A finding with only the fields `VulnerabilityIssue` requires, the rest
      at their defaults. */
  function BareIssue(severity: string, filePath: string): Issue {
    Issue(severity, filePath, None, None, "", "", None, "medium")
  }

  /** `total_issues`. */
  function TotalIssues(r: ScanResult): nat {
    |r.issues|
  }

  /** The five severities every tally starts from, in this order. */
  const KnownSeverities: seq<string> := ["critical", "high", "medium", "low", "info"]

  const ZeroCounts: Counter.Counts := [("critical", 0), ("high", 0), ("medium", 0), ("low", 0), ("info", 0)]

  lemma ZeroCountsFacts(k: string)
    ensures Counter.Distinct(ZeroCounts) && Counter.Keys(ZeroCounts) == KnownSeverities
    ensures Counter.Get(ZeroCounts, k) == 0 && Counter.Total(ZeroCounts) == 0
  {
    Counter.KeysAt(ZeroCounts);
    Counter.PairwiseDistinct(ZeroCounts);
    Counter.ZeroCounts(ZeroCounts, k);
  }

  function Severities(issues: seq<Issue>): (r: seq<string>)
    ensures |r| == |issues| && forall i :: 0 <= i < |issues| ==> r[i] == issues[i].severity
  {
    seq(|issues|, i requires 0 <= i < |issues| => issues[i].severity)
  }

  /** `issues_by_severity`: the five known severities first (zero when
      absent), then any other severity in order of first appearance. */
  function IssuesBySeverity(r: ScanResult): Counter.Counts {
    Counter.TallyInto(ZeroCounts, Severities(r.issues))
  }

  /** Every severity, known or not, is counted exactly as often as it
      occurs; the known five always head the keys; the counts add up to
      `total_issues`. */
  lemma IssuesBySeverityCounts(r: ScanResult, s: string)
    ensures Counter.Get(IssuesBySeverity(r), s) == multiset(Severities(r.issues))[s]
    ensures |Counter.Keys(IssuesBySeverity(r))| >= 5 && Counter.Keys(IssuesBySeverity(r))[..5] == KnownSeverities
    ensures Counter.Total(IssuesBySeverity(r)) == TotalIssues(r)
  {
    ZeroCountsFacts(s);
    Counter.TallyIntoGet(ZeroCounts, Severities(r.issues), s);
    Counter.TallyIntoKeys(ZeroCounts, Severities(r.issues), s);
    Counter.TallyIntoTotal(ZeroCounts, Severities(r.issues));
  }

  // ---------------------------------------------------------------------
  // Dictionary form

  function OptInt(o: Option<int>): Json {
    match o case None => JNull case Some(i) => JInt(i)
  }

  function OptStr(o: Option<string>): Json {
    match o case None => JNull case Some(s) => JStr(s)
  }

  /** `vars(issue)`: the fields in declaration order. */
  function IssueToJson(i: Issue): Json {
    JObj([("severity", JStr(i.severity)), ("file_path", JStr(i.filePath)),
          ("line_number", OptInt(i.line)), ("code_snippet", OptStr(i.snippet)),
          ("description", JStr(i.description)), ("recommendation", JStr(i.recommendation)),
          ("cwe_id", OptStr(i.cwe)), ("confidence", JStr(i.confidence))])
  }

  function IssuesToJson(issues: seq<Issue>): (r: seq<Json>)
    ensures |r| == |issues|
  {
    if |issues| == 0 then [] else [IssueToJson(issues[0])] + IssuesToJson(issues[1..])
  }

  /** `to_dict`. */
  function ToDict(r: ScanResult): Json {
    JObj([("scan_id", JStr(r.scanId)), ("scan_path", JStr(r.scanPath)), ("scan_type", JStr(r.scanType)),
          ("timestamp", JInt(r.timestamp)),
          ("issues", JList(IssuesToJson(r.issues))),
          ("stats", r.stats), ("project_info", r.projectInfo)])
  }

  /** Keyword arguments are accepted only when every key names a field. */
  predicate OnlyKeys(fs: seq<(string, Json)>, names: seq<string>) {
    forall i :: 0 <= i < |fs| ==> fs[i].0 in names
  }

  const IssueFields: seq<string> := ["severity", "file_path", "line_number", "code_snippet",
                                      "description", "recommendation", "cwe_id", "confidence"]

  const ResultFields: seq<string> := ["scan_id", "scan_path", "scan_type", "timestamp", "stats", "project_info"]

  /** Why `from_dict` fails. Python raises for a value that is not a
      mapping, a keyword that names no field, a required field that is
      missing, and an `issues` value that cannot be iterated
      (`NotIterable`). `WrongType` is the model's own refusal: the records
      here have typed fields, so a field whose JSON type differs from the
      declared one, which the dataclass would store as it is, is not
      loaded. */
  datatype LoadError = NotAMapping | UnexpectedKey | Missing(key: string) | NotIterable | WrongType(key: string)

  function StrField(fs: seq<(string, Json)>, key: string, default: Option<string>): Result<string, LoadError> {
    match Lookup(fs, key)
    case Some(JStr(s)) => Ok(s)
    case Some(_) => Err(WrongType(key))
    case None => if default.Some? then Ok(default.value) else Err(Missing(key))
  }

  function OptStrField(fs: seq<(string, Json)>, key: string): Result<Option<string>, LoadError> {
    match Lookup(fs, key)
    case Some(JStr(s)) => Ok(Some(s))
    case Some(JNull) => Ok(None)
    case Some(_) => Err(WrongType(key))
    case None => Ok(None)
  }

  function OptIntField(fs: seq<(string, Json)>, key: string): Result<Option<int>, LoadError> {
    match Lookup(fs, key)
    case Some(JInt(i)) => Ok(Some(i))
    case Some(JNull) => Ok(None)
    case Some(_) => Err(WrongType(key))
    case None => Ok(None)
  }

  /** `VulnerabilityIssue(**issue_data)`: `severity` and `file_path` are
      required, unknown keys are refused, the rest default. */
  function IssueFromJson(j: Json): Result<Issue, LoadError> {
    if !j.JObj? then Err(NotAMapping)
    else if !OnlyKeys(j.fields, IssueFields) then Err(UnexpectedKey)
    else
      var fs := j.fields;
      var severity :- StrField(fs, "severity", None);
      var filePath :- StrField(fs, "file_path", None);
      var line :- OptIntField(fs, "line_number");
      var snippet :- OptStrField(fs, "code_snippet");
      var description :- StrField(fs, "description", Some(""));
      var recommendation :- StrField(fs, "recommendation", Some(""));
      var cwe :- OptStrField(fs, "cwe_id");
      var confidence :- StrField(fs, "confidence", Some("medium"));
      Ok(Issue(severity, filePath, line, snippet, description, recommendation, cwe, confidence))
  }

  function IssuesFromJson(items: seq<Json>): Result<seq<Issue>, LoadError> {
    if |items| == 0 then Ok([])
    else
      var first :- IssueFromJson(items[0]);
      var rest :- IssuesFromJson(items[1..]);
      Ok([first] + rest)
  }

  /** The mapping without its `issues` entry (`data.pop("issues", [])`). */
  function WithoutIssues(fs: seq<(string, Json)>): (r: seq<(string, Json)>)
    ensures forall i :: 0 <= i < |r| ==> r[i].0 != "issues"
  {
    if |fs| == 0 then []
    else if fs[0].0 == "issues" then WithoutIssues(fs[1..])
    else [fs[0]] + WithoutIssues(fs[1..])
  }

  /** `from_dict`: the issues are rebuilt from what iterating `issues`
      yields (nothing when absent; the keys of a dict and the characters of
      a string, which then fail as non-mappings) and the remaining keys must
      be result fields; `stats` and `project_info` default to empty
      mappings. */
  function FromDict(d: Json): Result<ScanResult, LoadError> {
    if !d.JObj? then Err(NotAMapping)
    else
      var issuesJson := match Lookup(d.fields, "issues") case Some(v) => v case None => JList([]);
      match Iterate(issuesJson)
      case None => Err(NotIterable)
      case Some(items) =>
        var issues :- IssuesFromJson(items);
        ResultFromFields(WithoutIssues(d.fields), issues)
  }

  /** `cls(**data)` once the issues are rebuilt. */
  function ResultFromFields(fs: seq<(string, Json)>, issues: seq<Issue>): Result<ScanResult, LoadError> {
    if !OnlyKeys(fs, ResultFields) then Err(UnexpectedKey)
    else
      var scanId :- StrField(fs, "scan_id", None);
      var scanPath :- StrField(fs, "scan_path", None);
      var scanType :- StrField(fs, "scan_type", None);
      var timestamp :- match Lookup(fs, "timestamp")
        case Some(JInt(t)) => Ok(t)
        case _ => Err(if HasKey(fs, "timestamp") then WrongType("timestamp") else Missing("timestamp"));
      var stats := match Lookup(fs, "stats") case Some(v) => v case None => JObj([]);
      var info := match Lookup(fs, "project_info") case Some(v) => v case None => JObj([]);
      Ok(ScanResult(scanId, scanPath, scanType, timestamp, issues, stats, info))
  }

  lemma IssueRoundTrip(i: Issue)
    ensures IssueFromJson(IssueToJson(i)) == Ok(i)
  {
    var fs := IssueToJson(i).fields;
    assert OnlyKeys(fs, IssueFields);
    IssueFieldsRead(i);
  }

  lemma IssueFieldsRead(i: Issue)
    ensures var fs := IssueToJson(i).fields;
      && StrField(fs, "severity", None) == Ok(i.severity)
      && StrField(fs, "file_path", None) == Ok(i.filePath)
      && OptIntField(fs, "line_number") == Ok(i.line)
      && OptStrField(fs, "code_snippet") == Ok(i.snippet)
      && StrField(fs, "description", Some("")) == Ok(i.description)
      && StrField(fs, "recommendation", Some("")) == Ok(i.recommendation)
      && OptStrField(fs, "cwe_id") == Ok(i.cwe)
      && StrField(fs, "confidence", Some("medium")) == Ok(i.confidence)
  {
    IssueFieldsReadFront(i);
    IssueFieldsReadBack(i);
  }

  lemma IssueFieldsReadFront(i: Issue)
    ensures var fs := IssueToJson(i).fields;
      && StrField(fs, "severity", None) == Ok(i.severity)
      && StrField(fs, "file_path", None) == Ok(i.filePath)
      && OptIntField(fs, "line_number") == Ok(i.line)
      && OptStrField(fs, "code_snippet") == Ok(i.snippet)
  {
    IssueStrField(i, 0, "severity", i.severity, None);
    IssueStrField(i, 1, "file_path", i.filePath, None);
    IssueOptionalFields(i);
  }

  lemma IssueOptionalFields(i: Issue)
    ensures var fs := IssueToJson(i).fields;
      && OptIntField(fs, "line_number") == Ok(i.line)
      && OptStrField(fs, "code_snippet") == Ok(i.snippet)
      && OptStrField(fs, "cwe_id") == Ok(i.cwe)
  {
    var fs := IssueToJson(i).fields;
    IssueField(i, 2, "line_number");
    OptIntRead(fs, "line_number", i.line);
    IssueField(i, 3, "code_snippet");
    OptStrRead(fs, "code_snippet", i.snippet);
    IssueField(i, 6, "cwe_id");
    OptStrRead(fs, "cwe_id", i.cwe);
  }

  lemma IssueFieldsReadBack(i: Issue)
    ensures var fs := IssueToJson(i).fields;
      && StrField(fs, "description", Some("")) == Ok(i.description)
      && StrField(fs, "recommendation", Some("")) == Ok(i.recommendation)
      && OptStrField(fs, "cwe_id") == Ok(i.cwe)
      && StrField(fs, "confidence", Some("medium")) == Ok(i.confidence)
  {
    IssueStrField(i, 4, "description", i.description, Some(""));
    IssueStrField(i, 5, "recommendation", i.recommendation, Some(""));
    IssueOptionalFields(i);
    IssueStrField(i, 7, "confidence", i.confidence, Some("medium"));
  }

  lemma IssueStrField(i: Issue, n: nat, key: string, v: string, d: Option<string>)
    requires n < |IssueFields| && IssueFields[n] == key && IssueToJson(i).fields[n].1 == JStr(v)
    ensures StrField(IssueToJson(i).fields, key, d) == Ok(v)
  {
    IssueField(i, n, key);
  }

  lemma StrRead(fs: seq<(string, Json)>, key: string, v: string, d: Option<string>)
    requires Lookup(fs, key) == Some(JStr(v))
    ensures StrField(fs, key, d) == Ok(v)
  {
  }

  lemma OptStrRead(fs: seq<(string, Json)>, key: string, o: Option<string>)
    requires Lookup(fs, key) == Some(OptStr(o))
    ensures OptStrField(fs, key) == Ok(o)
  {
  }

  lemma OptIntRead(fs: seq<(string, Json)>, key: string, o: Option<int>)
    requires Lookup(fs, key) == Some(OptInt(o))
    ensures OptIntField(fs, key) == Ok(o)
  {
  }

  /** Each field of a saved finding is found under its own name. */
  lemma IssueField(i: Issue, n: nat, key: string)
    requires n < |IssueFields| && IssueFields[n] == key
    ensures Lookup(IssueToJson(i).fields, key) == Some(IssueToJson(i).fields[n].1)
  {
    var fs := IssueToJson(i).fields;
    assert forall j :: 0 <= j < |fs| ==> fs[j].0 == IssueFields[j];
    assert forall j :: 0 <= j < n ==> fs[j].0 != fs[n].0 by {
      IssueFieldsDistinct();
    }
    LookupFirst(fs, n);
  }
  lemma IssueFieldsDistinct()
    ensures forall a, b :: 0 <= a < b < |IssueFields| ==> IssueFields[a] != IssueFields[b]
  {
  }

  lemma {:induction false} IssuesRoundTrip(issues: seq<Issue>)
    ensures IssuesFromJson(IssuesToJson(issues)) == Ok(issues)
    decreases |issues|
  {
    if |issues| > 0 {
      IssueRoundTrip(issues[0]);
      IssuesRoundTrip(issues[1..]);
      var js := IssuesToJson(issues);
      assert js[0] == IssueToJson(issues[0]) && js[1..] == IssuesToJson(issues[1..]);
      IssuesFromCons(js, issues[0], issues[1..]);
      assert issues == [issues[0]] + issues[1..];
    }
  }

  lemma IssuesFromCons(items: seq<Json>, first: Issue, rest: seq<Issue>)
    requires |items| > 0 && IssueFromJson(items[0]) == Ok(first) && IssuesFromJson(items[1..]) == Ok(rest)
    ensures IssuesFromJson(items) == Ok([first] + rest)
  {
  }

  lemma {:induction false} WithoutIssuesSplit(a: seq<(string, Json)>, x: Json, b: seq<(string, Json)>)
    requires forall i :: 0 <= i < |a| ==> a[i].0 != "issues"
    requires forall i :: 0 <= i < |b| ==> b[i].0 != "issues"
    ensures WithoutIssues(a + [("issues", x)] + b) == a + b
    decreases |a|
  {
    if |a| == 0 {
      assert ([("issues", x)] + b)[1..] == b;
      WithoutIssuesNone(b);
    } else {
      WithoutIssuesSplit(a[1..], x, b);
      assert (a + [("issues", x)] + b)[1..] == a[1..] + [("issues", x)] + b;
      assert a + b == [a[0]] + (a[1..] + b);
    }
  }

  lemma {:induction false} WithoutIssuesNone(b: seq<(string, Json)>)
    requires forall i :: 0 <= i < |b| ==> b[i].0 != "issues"
    ensures WithoutIssues(b) == b
    decreases |b|
  {
    if |b| > 0 {
      WithoutIssuesNone(b[1..]);
      assert b == [b[0]] + b[1..];
    }
  }

  lemma ResultFieldsDistinct()
    ensures forall a, b :: 0 <= a < b < |ResultFields| ==> ResultFields[a] != ResultFields[b]
  {
  }

  /** The result's fields other than its issues, in `to_dict` order. */
  function ResultEntries(r: ScanResult): seq<(string, Json)> {
    [("scan_id", JStr(r.scanId)), ("scan_path", JStr(r.scanPath)), ("scan_type", JStr(r.scanType)),
     ("timestamp", JInt(r.timestamp)), ("stats", r.stats), ("project_info", r.projectInfo)]
  }

  lemma DictShape(r: ScanResult)
    ensures Lookup(ToDict(r).fields, "issues") == Some(JList(IssuesToJson(r.issues)))
    ensures WithoutIssues(ToDict(r).fields) == ResultEntries(r)
  {
    LookupFirst(ToDict(r).fields, 4);
    DictWithoutIssues(r);
  }

  lemma DictWithoutIssues(r: ScanResult)
    ensures WithoutIssues(ToDict(r).fields) == ResultEntries(r)
  {
    var front := ResultEntries(r)[..4];
    var back := ResultEntries(r)[4..];
    var issues := JList(IssuesToJson(r.issues));
    assert ToDict(r).fields == front + [("issues", issues)] + back;
    WithoutIssuesSplit(front, issues, back);
    assert front + back == ResultEntries(r);
  }

  lemma ResultEntriesRead(r: ScanResult)
    ensures var fs := ResultEntries(r);
      && OnlyKeys(fs, ResultFields)
      && StrField(fs, "scan_id", None) == Ok(r.scanId)
      && StrField(fs, "scan_path", None) == Ok(r.scanPath)
      && StrField(fs, "scan_type", None) == Ok(r.scanType)
      && Lookup(fs, "timestamp") == Some(JInt(r.timestamp))
      && Lookup(fs, "stats") == Some(r.stats)
      && Lookup(fs, "project_info") == Some(r.projectInfo)
  {
    assert OnlyKeys(ResultEntries(r), ResultFields);
    ResultNameFields(r);
    ResultField(r, 3);
    ResultField(r, 4);
    ResultField(r, 5);
  }

  lemma ResultNameFields(r: ScanResult)
    ensures var fs := ResultEntries(r);
      && StrField(fs, "scan_id", None) == Ok(r.scanId)
      && StrField(fs, "scan_path", None) == Ok(r.scanPath)
      && StrField(fs, "scan_type", None) == Ok(r.scanType)
  {
    ResultField(r, 0);
    ResultField(r, 1);
    ResultField(r, 2);
  }

  lemma ResultField(r: ScanResult, n: nat)
    requires n < |ResultFields|
    ensures Lookup(ResultEntries(r), ResultFields[n]) == Some(ResultEntries(r)[n].1)
  {
    var fs := ResultEntries(r);
    assert forall j :: 0 <= j < |fs| ==> fs[j].0 == ResultFields[j];
    assert forall j :: 0 <= j < n ==> fs[j].0 != fs[n].0 by {
      ResultFieldsDistinct();
    }
    LookupFirst(fs, n);
  }

  /** `issues` is read by iterating it: an empty dict or string loads the
      same result as an empty list, and a value that cannot be iterated is
      refused. */
  lemma IssuesIterated(fs: seq<(string, Json)>, v: Json)
    requires Lookup(fs, "issues") == Some(v)
    ensures v == JObj([]) || v == JStr("") ==>
      FromDict(JObj(fs)) == ResultFromFields(WithoutIssues(fs), [])
    ensures (v.JNull? || v.JBool? || v.JInt?) ==> FromDict(JObj(fs)) == Err(NotIterable)
  {
  }

  /** Saving a result as a mapping and loading it back gives the same
      result. */
  lemma DictRoundTrip(r: ScanResult)
    ensures FromDict(ToDict(r)) == Ok(r)
  {
    DictShape(r);
    IssuesRoundTrip(r.issues);
    ResultEntriesRoundTrip(r);
  }

  lemma ResultEntriesRoundTrip(r: ScanResult)
    ensures ResultFromFields(ResultEntries(r), r.issues) == Ok(r)
  {
    ResultEntriesRead(r);
  }
}

=== FILE: json.dfy ===
/** JSON/YAML documents as parsed by Python (`json.load`, `yaml.safe_load`).
    Objects keep their fields in insertion order, as Python dicts do; a
    well-formed object has pairwise distinct keys. Floating-point numbers are
    not modelled: numbers are integers. */
module Json {
  import opened Wrappers
  import Text

  datatype Json =
    | JNull
    | JBool(b: bool)
    | JInt(i: int)
    | JStr(s: string)
    | JList(items: seq<Json>)
    | JObj(fields: seq<(string, Json)>)

  /** Python truthiness: `None`, `False`, `0`, `""`, `[]` and `{}` are false. */
  predicate Truthy(j: Json) {
    match j
    case JNull => false
    case JBool(b) => b
    case JInt(i) => i != 0
    case JStr(s) => |s| > 0
    case JList(xs) => |xs| > 0
    case JObj(fs) => |fs| > 0
  }

  /** The keys of an object's fields, in order. */
  function Keys(fs: seq<(string, Json)>): (ks: seq<string>)
    ensures |ks| == |fs|
    ensures forall i :: 0 <= i < |fs| ==> ks[i] == fs[i].0
  {
    if |fs| == 0 then [] else [fs[0].0] + Keys(fs[1..])
  }

  /** `key in d` for a dict `d` given as its field list. */
  predicate HasKey(fs: seq<(string, Json)>, key: string) {
    exists i :: 0 <= i < |fs| && fs[i].0 == key
  }

  /** Field lookup `d[key]` on a field list: the first field with that key. */
  function Lookup(fs: seq<(string, Json)>, key: string): (r: Option<Json>)
    ensures r.Some? <==> HasKey(fs, key)
    ensures r.Some? ==> exists i :: 0 <= i < |fs| && fs[i] == (key, r.value)
  {
    if |fs| == 0 then None
    else if fs[0].0 == key then Some(fs[0].1)
    else
      var r := Lookup(fs[1..], key);
      assert r.Some? ==> exists i :: 1 <= i < |fs| && fs[i] == (key, r.value) by {
        if r.Some? {
          var i :| 0 <= i < |fs[1..]| && fs[1..][i] == (key, r.value);
          assert fs[i + 1] == (key, r.value);
        }
      }
      assert HasKey(fs[1..], key) ==> HasKey(fs, key) by {
        if HasKey(fs[1..], key) {
          var i :| 0 <= i < |fs[1..]| && fs[1..][i].0 == key;
          assert fs[i + 1].0 == key;
        }
      }
      assert HasKey(fs, key) && fs[0].0 != key ==> HasKey(fs[1..], key) by {
        if HasKey(fs, key) && fs[0].0 != key {
          var i :| 0 <= i < |fs| && fs[i].0 == key;
          assert fs[1..][i - 1].0 == key;
        }
      }
      r
  }

  /** Past a different first key, membership is decided by the rest. */
  lemma HasKeyTail(fs: seq<(string, Json)>, key: string)
    requires |fs| > 0 && fs[0].0 != key
    ensures HasKey(fs, key) <==> HasKey(fs[1..], key)
  {
    if HasKey(fs, key) {
      var i :| 0 <= i < |fs| && fs[i].0 == key;
      assert fs[1..][i - 1].0 == key;
    }
    if HasKey(fs[1..], key) {
      var i :| 0 <= i < |fs[1..]| && fs[1..][i].0 == key;
      assert fs[i + 1].0 == key;
    }
  }

  /** Looking up the key of a field no earlier field shares finds that
      field's value. */
  lemma {:induction false} LookupFirst(fs: seq<(string, Json)>, i: nat)
    requires i < |fs|
    requires forall j :: 0 <= j < i ==> fs[j].0 != fs[i].0
    ensures Lookup(fs, fs[i].0) == Some(fs[i].1)
  {
    if i > 0 {
      LookupFirst(fs[1..], i - 1);
    }
  }

  /** `key in j` for a value known to be a dict; false for any other value. */
  predicate Has(j: Json, key: string) {
    j.JObj? && HasKey(j.fields, key)
  }

  /** Python's `key in j`, or `None` where it raises `TypeError`: dict
      membership, list membership, substring test on a string. */
  function Member(key: string, j: Json): (r: Option<bool>)
    ensures j.JObj? ==> r == Some(HasKey(j.fields, key))
    ensures r.None? <==> j.JNull? || j.JBool? || j.JInt?
  {
    match j
    case JObj(fs) => Some(HasKey(fs, key))
    case JList(xs) => Some(JStr(key) in xs)
    case JStr(s) => Some(Text.Occurs(key, s))
    case _ => None
  }

  /** `j[key]` when `j` is a dict holding `key`, else `None`. */
  function Get(j: Json, key: string): (r: Option<Json>)
    ensures r.Some? <==> Has(j, key)
  {
    if j.JObj? then Lookup(j.fields, key) else None
  }

  /** `d.get(key, default)` for a dict `d`. */
  function GetOr(j: Json, key: string, default: Json): Json {
    Get(j, key).GetOr(default)
  }

  /** Assignment `d[key] = v`: replaces the first field with that key in
      place, or appends a new field at the end (dict insertion order). */
  function Put(fs: seq<(string, Json)>, key: string, v: Json): (r: seq<(string, Json)>)
    ensures HasKey(fs, key) ==> |r| == |fs|
    ensures !HasKey(fs, key) ==> r == fs + [(key, v)]
    ensures Lookup(r, key) == Some(v)
    ensures forall k :: k != key ==> Lookup(r, k) == Lookup(fs, k)
  {
    if |fs| == 0 then [(key, v)]
    else if fs[0].0 == key then [(key, v)] + fs[1..]
    else
      var rest := Put(fs[1..], key, v);
      HasKeyTail(fs, key);
      assert [fs[0]] + fs[1..] == fs;
      [fs[0]] + rest
  }

  /** What `for x in j` iterates over, or `None` when Python raises
      `TypeError` because the value is not iterable: a list yields its items,
      a string its one-character strings and a dict its keys. */
  function Iterate(j: Json): (r: Option<seq<Json>>)
    ensures j.JList? ==> r == Some(j.items)
    ensures (j.JNull? || j.JBool? || j.JInt?) <==> r.None?
    ensures j.JStr? ==> r.Some? && |r.value| == |j.s|
    ensures j.JObj? ==> r.Some? && |r.value| == |j.fields|
  {
    match j
    case JList(xs) => Some(xs)
    case JStr(s) => Some(seq(|s|, i requires 0 <= i < |s| => JStr([s[i]])))
    case JObj(fs) => Some(seq(|fs|, i requires 0 <= i < |fs| => JStr(fs[i].0)))
    case _ => None
  }

  /** Python's `str(j)`: strings are themselves, everything else is its
      `repr`. */
  function Str(j: Json): string {
    if j.JStr? then j.s else Repr(j)
  }

  /** Python's `repr(j)` for JSON-like values. Strings are quoted with single
      quotes; the escaping `repr` applies inside them is not modelled. */
  function Repr(j: Json): string
    decreases j
  {
    match j
    case JNull => "None"
    case JBool(b) => if b then "True" else "False"
    case JInt(i) => Text.IntToString(i)
    case JStr(s) => "'" + s + "'"
    case JList(xs) =>
      "[" + Text.Join(", ", seq(|xs|, i requires 0 <= i < |xs| => Repr(xs[i]))) + "]"
    case JObj(fs) =>
      "{" + Text.Join(", ", seq(|fs|, i requires 0 <= i < |fs| =>
                                 assert fs[i].1 < fs[i];
                                 "'" + fs[i].0 + "': " + Repr(fs[i].1))) + "}"
  }

  /** Python's `int(j)` for the values a configuration may hold, or `None`
      where Python raises. Booleans are 0/1; strings are parsed as an
      optionally signed decimal surrounded by whitespace. */
  function PyInt(j: Json): (r: Option<int>)
    ensures j.JInt? ==> r == Some(j.i)
    ensures j.JNull? || j.JList? || j.JObj? ==> r.None?
  {
    match j
    case JInt(i) => Some(i)
    case JBool(b) => Some(if b then 1 else 0)
    case JStr(s) => Text.ParseInt(Text.Strip(s))
    case _ => None
  }
}

=== FILE: providers.dfy ===
/** Model providers (`codescan/models.py`): which handler a model
    configuration selects, how the generic HTTP handler builds its headers
    and request body and picks the answer out of a reply, which configured
    models are listed as usable, and how the scanner falls back to the
    `default` model. The SDK clients and the HTTP request itself are not
    modelled: a handler is the record of what it was built with. */
module Providers {
  import opened Wrappers
  import Text
  import opened Json
  import Settings

  /** A model handler, as constructed. DeepSeek uses the OpenAI-compatible
      handler with its own base URL. */
  datatype Handler =
    | OpenAICompatible(apiKey: Json, model: Json, maxTokens: int, baseUrl: Json, extraBody: Json)
    | Anthropic(apiKey: Json, model: Json, maxTokens: int)
    | Custom(apiUrl: Json, apiKey: Json, headers: Json, params: Json)

  /** Why no handler could be built. `NoGet` is the `AttributeError` of
      calling `.get` on a configuration value that is not a dict;
      `BadHeaders` the `TypeError` of testing or setting a key on headers
      that are not a dict; `NotInstalled` the `ImportError` of the Anthropic
      handler when the `anthropic` package is missing. */
  datatype HandlerError =
    | NoGet
    | InvalidConfig(name: string)
    | BadMaxTokens
    | Unsupported(provider: Json)
    | BadHeaders
    | NotInstalled

  /** The providers the dispatch knows, in the order it tests them. */
  const Supported: seq<Json> := [JStr("openai"), JStr("anthropic"), JStr("deepseek"), JStr("custom")]

  const DefaultMaxTokens := 8192

  // ---------------------------------------------------------------------
  // The generic HTTP handler

  /** `CustomAPIHandler.__init__`: missing headers and parameters become
      `{}`; a truthy key adds `Authorization: Bearer <key>` unless the
      headers already hold that name. */
  function CustomHandler(apiUrl: Json, apiKey: Json, headers: Json, params: Json): (r: Result<Handler, HandlerError>)
    ensures r.Ok? ==> r.value.Custom? && r.value.apiUrl == apiUrl && r.value.apiKey == apiKey
    ensures r.Ok? ==> r.value.params == (if Truthy(params) then params else JObj([]))
    ensures r.Err? ==> r.error == BadHeaders
  {
    var hs := if Truthy(headers) then headers else JObj([]);
    var ps := if Truthy(params) then params else JObj([]);
    if !Truthy(apiKey) then Ok(Custom(apiUrl, apiKey, hs, ps))
    else
      match Member("Authorization", hs)
      case None => Err(BadHeaders)
      case Some(true) => Ok(Custom(apiUrl, apiKey, hs, ps))
      case Some(false) =>
        if hs.JObj? then Ok(Custom(apiUrl, apiKey, JObj(Put(hs.fields, "Authorization", JStr("Bearer " + Str(apiKey)))), ps))
        else Err(BadHeaders)
  }

  /** With a key and dict headers lacking `Authorization`, the bearer header
      is appended and every other header is kept. */
  lemma BearerAdded(apiUrl: Json, key: string, hs: seq<(string, Json)>, params: Json, name: string)
    requires key != [] && !HasKey(hs, "Authorization")
    ensures var r := CustomHandler(apiUrl, JStr(key), JObj(hs), params);
      && r.Ok?
      && r.value.headers == JObj(hs + [("Authorization", JStr("Bearer " + key))])
      && Lookup(r.value.headers.fields, "Authorization") == Some(JStr("Bearer " + key))
      && (name != "Authorization" ==> Lookup(r.value.headers.fields, name) == Lookup(hs, name))
  {
    var headers := if Truthy(JObj(hs)) then JObj(hs) else JObj([]);
    assert headers == JObj(hs);
    assert Member("Authorization", headers) == Some(false);
    assert Str(JStr(key)) == key;
    assert CustomHandler(apiUrl, JStr(key), JObj(hs), params).value.headers == JObj(Put(hs, "Authorization", JStr("Bearer " + key)));
  }

  /** Headers that already name `Authorization`, or a missing key, leave the
      headers as configured. */
  lemma HeadersKept(apiUrl: Json, apiKey: Json, hs: seq<(string, Json)>, params: Json)
    requires hs != []
    requires HasKey(hs, "Authorization") || !Truthy(apiKey)
    ensures var r := CustomHandler(apiUrl, apiKey, JObj(hs), params);
      r.Ok? && r.value.headers == JObj(hs)
  {
  }

  /** Only headers that are not a dict can make the construction fail, and
      only when a key is given. */
  lemma CustomFailsOnlyOnBadHeaders(apiUrl: Json, apiKey: Json, headers: Json, params: Json)
    ensures CustomHandler(apiUrl, apiKey, headers, params).Err? <==>
      Truthy(apiKey) && Truthy(headers) && !headers.JObj?
      && (headers.JList? || headers.JStr? ==> Member("Authorization", headers) == Some(false))
  {
  }

  /** Overlay of `{**base, **more}`: each field of `more` is assigned in
      order over `base`. */
  function Overlay(base: seq<(string, Json)>, more: seq<(string, Json)>): (r: seq<(string, Json)>)
    ensures |base| <= |r|
    decreases |more|
  {
    if |more| == 0 then base
    else Overlay(Put(base, more[0].0, more[0].1), more[1..])
  }

  /** After the overlay, a key of `more` reads as its last value there, and
      any other key as in `base`. With distinct keys in `more` that is the
      value `more` holds. */
  lemma {:induction false} OverlayLookup(base: seq<(string, Json)>, more: seq<(string, Json)>, k: string)
    requires forall i, j :: 0 <= i < j < |more| ==> more[i].0 != more[j].0
    ensures Lookup(Overlay(base, more), k) == if HasKey(more, k) then Lookup(more, k) else Lookup(base, k)
    decreases |more|
  {
    if |more| > 0 {
      var base' := Put(base, more[0].0, more[0].1);
      OverlayLookup(base', more[1..], k);
      if more[0].0 != k {
        HasKeyTail(more, k);
      }
    }
  }

  /** `analyze_code`'s request body `{"prompt": prompt, **params}`, or the
      `TypeError` when the parameters are not a dict. */
  function Body(prompt: string, params: Json): (r: Result<seq<(string, Json)>, string>)
    ensures r.Ok? <==> params.JObj?
  {
    if params.JObj? then Ok(Overlay([("prompt", JStr(prompt))], params.fields))
    else Err("TypeError")
  }

  /** The body holds every parameter, and the prompt unless a parameter of
      the same name overrides it; it holds nothing else. */
  lemma BodyOverlay(prompt: string, params: seq<(string, Json)>, k: string)
    requires forall i, j :: 0 <= i < j < |params| ==> params[i].0 != params[j].0
    ensures Body(prompt, JObj(params)).Ok?
    ensures Lookup(Body(prompt, JObj(params)).value, k) ==
      if HasKey(params, k) then Lookup(params, k)
      else if k == "prompt" then Some(JStr(prompt))
      else None
  {
    OverlayLookup([("prompt", JStr(prompt))], params, k);
  }

  /** The reply fields tried in order. */
  const ReplyKeys: seq<string> := ["response", "output", "result"]

  /** The first of `keys` that the payload holds gives the answer; with
      none, the answer is `str(payload)`. `key in payload` raises on a
      number, boolean or `null`; indexing a list or a string by a key
      raises too. */
  function Pick(payload: Json, keys: seq<string>): (r: Result<Json, string>)
    ensures !payload.JObj? && r.Ok? ==> r == Ok(JStr(Str(payload)))
    decreases |keys|
  {
    if |keys| == 0 then Ok(JStr(Str(payload)))
    else
      match Member(keys[0], payload)
      case None => Err("TypeError")
      case Some(false) => Pick(payload, keys[1..])
      case Some(true) =>
        if payload.JObj? then Ok(Lookup(payload.fields, keys[0]).value) else Err("TypeError")
  }

  /** `CustomAPIHandler.analyze_code` after the request: a status other
      than 200 raises, a body that is not JSON raises, otherwise the answer
      is picked from the reply. */
  function Reply(status: int, payload: Option<Json>): (r: Result<Json, string>)
    ensures status != 200 ==> r == Err("API调用失败: HTTP " + Text.IntToString(status))
    ensures status == 200 && payload.None? ==> r.Err?
  {
    if status != 200 then Err("API调用失败: HTTP " + Text.IntToString(status))
    else if payload.None? then Err("JSONDecodeError")
    else Pick(payload.value, ReplyKeys)
  }

  /** For a dict reply: `response` wins over `output`, which wins over
      `result`; with none of them the answer is the reply's `str`. */
  lemma ReplyPrecedence(fs: seq<(string, Json)>)
    ensures var r := Reply(200, Some(JObj(fs)));
      && (HasKey(fs, "response") ==> r == Ok(Lookup(fs, "response").value))
      && (!HasKey(fs, "response") && HasKey(fs, "output") ==> r == Ok(Lookup(fs, "output").value))
      && (!HasKey(fs, "response") && !HasKey(fs, "output") && HasKey(fs, "result") ==> r == Ok(Lookup(fs, "result").value))
      && (!HasKey(fs, "response") && !HasKey(fs, "output") && !HasKey(fs, "result") ==> r == Ok(JStr(Repr(JObj(fs)))))
  {
    assert ReplyKeys[1..] == ["output", "result"];
    assert ReplyKeys[1..][1..] == ["result"];
  }

  /** A reply that is a list or a string is answered with its `str` exactly
      when it mentions none of the reply keys; mentioning one raises. */
  lemma ReplyNonDict(payload: Json)
    requires payload.JList? || payload.JStr?
    ensures var r := Reply(200, Some(payload));
      r.Ok? <==> (forall i :: 0 <= i < |ReplyKeys| ==> Member(ReplyKeys[i], payload) == Some(false))
    ensures Reply(200, Some(payload)).Ok? ==> Reply(200, Some(payload)) == Ok(JStr(Str(payload)))
  {
    assert ReplyKeys[1..] == ["output", "result"];
    assert ReplyKeys[1..][1..] == ["result"];
  }

  // ---------------------------------------------------------------------
  // Dispatch

  /** `get_model_handler` once the configuration entry is known: a falsy
      provider is an invalid configuration; `max_tokens` (default 8192) is
      converted to an integer before the provider is looked at; an unknown
      provider raises, and so does the Anthropic provider when its package
      is not installed (`anthropicInstalled`). */
  function HandlerOf(name: string, mc: Json, anthropicInstalled: bool): (r: Result<Handler, HandlerError>)
    ensures !mc.JObj? ==> r == Err(NoGet)
    ensures mc.JObj? && !Truthy(GetOr(mc, "provider", JStr(""))) ==> r == Err(InvalidConfig(name))
  {
    if !mc.JObj? then Err(NoGet)
    else
      var provider := GetOr(mc, "provider", JStr(""));
      if !Truthy(provider) then Err(InvalidConfig(name))
      else
        var apiKey := GetOr(mc, "api_key", JStr(""));
        var model := GetOr(mc, "model", JStr(""));
        match PyInt(GetOr(mc, "max_tokens", JInt(DefaultMaxTokens)))
        case None => Err(BadMaxTokens)
        case Some(maxTokens) =>
          if provider == JStr("openai") then
            Ok(OpenAICompatible(apiKey, model, maxTokens, GetOr(mc, "base_url", JNull), ExtraBody(GetOr(mc, "extra_body", JNull))))
          else if provider == JStr("deepseek") then
            Ok(OpenAICompatible(apiKey, model, maxTokens, GetOr(mc, "base_url", JStr(Settings.DeepseekUrl)), ExtraBody(GetOr(mc, "extra_body", JNull))))
          else if provider == JStr("anthropic") then
            if anthropicInstalled then Ok(Anthropic(apiKey, model, maxTokens)) else Err(NotInstalled)
          else if provider == JStr("custom") then
            CustomHandler(GetOr(mc, "api_url", JStr("")), apiKey, GetOr(mc, "headers", JObj([])), GetOr(mc, "params", JObj([])))
          else Err(Unsupported(provider))
  }

  /** `OpenAIHandler` keeps `extra_body or {}`. */
  function ExtraBody(j: Json): Json {
    if Truthy(j) then j else JObj([])
  }

  /** `get_model_handler(name)`: the entry `get_model_config` returns for
      the name, turned into a handler. */
  function HandlerFor(cfg: Settings.Config, name: string, anthropicInstalled: bool): (r: Result<Handler, HandlerError>)
    ensures !Settings.Models(cfg).JObj? ==> r == Err(NoGet)
  {
    match Settings.ModelConfig(cfg, name)
    case Err(_) => Err(NoGet)
    case Ok(mc) => HandlerOf(name, mc, anthropicInstalled)
  }

  /** The handler kind follows the provider, and a provider outside the
      four known ones is rejected exactly then. */
  lemma ProviderDispatch(name: string, fs: seq<(string, Json)>, provider: Json, anthropicInstalled: bool)
    requires Lookup(fs, "provider") == Some(provider) && Truthy(provider)
    requires PyInt(GetOr(JObj(fs), "max_tokens", JInt(DefaultMaxTokens))).Some?
    ensures var r := HandlerOf(name, JObj(fs), anthropicInstalled);
      && (provider == JStr("openai") || provider == JStr("deepseek") ==> r.Ok? && r.value.OpenAICompatible?)
      && (provider == JStr("anthropic") && anthropicInstalled ==> r.Ok? && r.value.Anthropic?)
      && (provider == JStr("anthropic") && !anthropicInstalled ==> r == Err(NotInstalled))
      && (provider == JStr("custom") ==> (r.Ok? && r.value.Custom?) || r == Err(BadHeaders))
      && (r == Err(Unsupported(provider)) <==> provider !in Supported)
      && (r.Err? && r.error.Unsupported? ==> r.error.provider == provider)
  {
  }

  /** The handler an OpenAI or DeepSeek entry with a usable `max_tokens`
      builds, field by field. */
  lemma OpenAIShape(name: string, fs: seq<(string, Json)>, anthropicInstalled: bool)
    requires Lookup(fs, "provider") == Some(JStr("deepseek")) || Lookup(fs, "provider") == Some(JStr("openai"))
    requires PyInt(GetOr(JObj(fs), "max_tokens", JInt(DefaultMaxTokens))).Some?
    ensures var mc := JObj(fs);
      HandlerOf(name, mc, anthropicInstalled) == Ok(OpenAICompatible(
        GetOr(mc, "api_key", JStr("")), GetOr(mc, "model", JStr("")),
        PyInt(GetOr(mc, "max_tokens", JInt(DefaultMaxTokens))).value,
        GetOr(mc, "base_url", if Lookup(fs, "provider") == Some(JStr("deepseek")) then JStr(Settings.DeepseekUrl) else JNull),
        ExtraBody(GetOr(mc, "extra_body", JNull))))
  {
    var p := Lookup(fs, "provider").value;
    assert GetOr(JObj(fs), "provider", JStr("")) == p;
    assert Truthy(p);
  }

  /** Without a `base_url`, DeepSeek talks to its own endpoint while OpenAI
      uses the SDK's; without `max_tokens` the limit is 8192. */
  lemma DeepseekDefaultUrl(name: string, fs: seq<(string, Json)>, anthropicInstalled: bool)
    requires !HasKey(fs, "base_url") && !HasKey(fs, "max_tokens")
    requires Lookup(fs, "provider") == Some(JStr("deepseek")) || Lookup(fs, "provider") == Some(JStr("openai"))
    ensures var r := HandlerOf(name, JObj(fs), anthropicInstalled);
      && r.Ok? && r.value.maxTokens == DefaultMaxTokens
      && r.value.baseUrl == (if Lookup(fs, "provider") == Some(JStr("deepseek")) then JStr(Settings.DeepseekUrl) else JNull)
  {
    OpenAIShape(name, fs, anthropicInstalled);
  }

  /** An explicit `base_url` is kept as given for either provider. */
  lemma ExplicitBaseUrl(name: string, fs: seq<(string, Json)>, url: Json, anthropicInstalled: bool)
    requires Lookup(fs, "base_url") == Some(url)
    requires Lookup(fs, "provider") == Some(JStr("deepseek")) || Lookup(fs, "provider") == Some(JStr("openai"))
    requires PyInt(GetOr(JObj(fs), "max_tokens", JInt(DefaultMaxTokens))).Some?
    ensures var r := HandlerOf(name, JObj(fs), anthropicInstalled);
      r.Ok? && r.value.baseUrl == url
  {
    OpenAIShape(name, fs, anthropicInstalled);
  }

  /** A `max_tokens` that `int()` rejects fails the construction whatever
      the provider, even an unknown one. */
  lemma BadMaxTokensFirst(name: string, fs: seq<(string, Json)>, anthropicInstalled: bool)
    requires Truthy(GetOr(JObj(fs), "provider", JStr("")))
    requires PyInt(GetOr(JObj(fs), "max_tokens", JInt(DefaultMaxTokens))).None?
    ensures HandlerOf(name, JObj(fs), anthropicInstalled) == Err(BadMaxTokens)
  {
  }

  // ---------------------------------------------------------------------
  // Listing

  /** `list_available_models` over the `models` entries in order: the names
      whose provider is known. An entry that is not a dict has no `get`. */
  function Listed(entries: seq<(string, Json)>): (r: Result<seq<string>, string>)
    ensures r.Ok? <==> AllDicts(entries)
    ensures r.Ok? ==> |r.value| <= |entries|
  {
    if |entries| == 0 then Ok([])
    else if !entries[0].1.JObj? then Err("AttributeError")
    else
      match Listed(entries[1..])
      case Err(e) => Err(e)
      case Ok(rest) =>
        if GetOr(entries[0].1, "provider", JStr("")) in Supported then Ok([entries[0].0] + rest) else Ok(rest)
  }

  /** Whether every entry is a dict. */
  predicate AllDicts(entries: seq<(string, Json)>) {
    forall i :: 0 <= i < |entries| ==> entries[i].1.JObj?
  }

  /** Whether an entry's provider is one of the four known. */
  predicate Usable(entry: (string, Json)) {
    GetOr(entry.1, "provider", JStr("")) in Supported
  }

  /** A name is listed exactly when some entry of that name has a known
      provider. */
  lemma {:induction false} ListedExactly(entries: seq<(string, Json)>, name: string)
    requires Listed(entries).Ok?
    ensures name in Listed(entries).value <==> exists i :: 0 <= i < |entries| && entries[i].0 == name && Usable(entries[i])
  {
    if |entries| > 0 {
      ListedExactly(entries[1..], name);
      if exists i :: 1 <= i < |entries| && entries[i].0 == name && Usable(entries[i]) {
        var i :| 1 <= i < |entries| && entries[i].0 == name && Usable(entries[i]);
        assert entries[1..][i - 1] == entries[i];
      }
      if exists i :: 0 <= i < |entries[1..]| && entries[1..][i].0 == name && Usable(entries[1..][i]) {
        var i :| 0 <= i < |entries[1..]| && entries[1..][i].0 == name && Usable(entries[1..][i]);
        assert entries[i + 1] == entries[1..][i];
      }
    }
  }

  /** Listing keeps the configuration's order: the list of two runs of
      entries is the two lists joined. */
  lemma {:induction false} ListedInOrder(a: seq<(string, Json)>, b: seq<(string, Json)>)
    requires Listed(a).Ok? && Listed(b).Ok?
    ensures Listed(a + b) == Ok(Listed(a).value + Listed(b).value)
  {
    if |a| > 0 {
      ListedStep(a);
      ListedInOrder(a[1..], b);
      assert (a + b)[1..] == a[1..] + b;
      assert (a + b)[0] == a[0];
      assert AllDicts(a + b) by {
        forall k | 0 <= k < |a + b|
          ensures (a + b)[k].1.JObj?
        {
          if k < |a| { assert (a + b)[k] == a[k]; } else { assert (a + b)[k] == b[k - |a|]; }
        }
      }
      ListedStep(a + b);
      var head := if Usable(a[0]) then [a[0].0] else [];
      assert head + (Listed(a[1..]).value + Listed(b).value) == (head + Listed(a[1..]).value) + Listed(b).value;
    } else {
      assert a + b == b;
      assert Listed(a).value == [];
      assert [] + Listed(b).value == Listed(b).value;
    }
  }

  /** One step of the listing: the first entry's name, if usable, before
      the rest's list. */
  lemma ListedStep(s: seq<(string, Json)>)
    requires |s| > 0 && Listed(s).Ok?
    ensures Listed(s[1..]).Ok?
    ensures Listed(s).value == (if Usable(s[0]) then [s[0].0] else []) + Listed(s[1..]).value
  {
    assert s[0].1.JObj?;
    assert AllDicts(s[1..]) by {
      forall k | 0 <= k < |s[1..]|
        ensures s[1..][k].1.JObj?
      {
        assert s[1..][k] == s[k + 1];
      }
    }
    var rest := Listed(s[1..]).value;
    if Usable(s[0]) {
      assert Listed(s) == Ok([s[0].0] + rest);
    } else {
      assert Listed(s) == Ok(rest);
      assert [] + rest == rest;
    }
  }

  /** `list_available_models()` on the whole configuration. */
  function AvailableModels(cfg: Settings.Config): (r: Result<seq<string>, string>)
    ensures r.Err? <==> !Settings.Models(cfg).JObj? || !AllDicts(Settings.Models(cfg).fields)
  {
    var models := Settings.Models(cfg);
    if models.JObj? then Listed(models.fields) else Err("AttributeError")
  }

  /** Every listed model, when names are distinct, yields a handler whose
      provider is accepted: building it never fails for an unknown or
      missing provider. */
  lemma ListedModelsDispatch(cfg: Settings.Config, i: nat, anthropicInstalled: bool)
    requires Settings.Models(cfg).JObj?
    requires var ms := Settings.Models(cfg).fields;
      i < |ms| && (forall j :: 0 <= j < i ==> ms[j].0 != ms[i].0)
    requires AvailableModels(cfg).Ok? && Usable(Settings.Models(cfg).fields[i])
    ensures Settings.Models(cfg).fields[i].0 in AvailableModels(cfg).value
    ensures var r := HandlerFor(cfg, Settings.Models(cfg).fields[i].0, anthropicInstalled);
      !(r.Err? && (r.error.Unsupported? || r.error.InvalidConfig? || r.error.NoGet?))
  {
    var ms := Settings.Models(cfg).fields;
    ListedExactly(ms, ms[i].0);
    LookupFirst(ms, i);
    assert Settings.ModelConfig(cfg, ms[i].0) == Ok(ms[i].1);
    KnownProviderDispatches(ms[i].0, ms[i].1, anthropicInstalled);
  }

  /** A dict entry with a known provider never fails for its provider. */
  lemma KnownProviderDispatches(name: string, mc: Json, anthropicInstalled: bool)
    requires mc.JObj? && GetOr(mc, "provider", JStr("")) in Supported
    ensures var r := HandlerOf(name, mc, anthropicInstalled);
      !(r.Err? && (r.error.Unsupported? || r.error.InvalidConfig? || r.error.NoGet?))
  {
    var p := GetOr(mc, "provider", JStr(""));
    assert p == JStr("openai") || p == JStr("anthropic") || p == JStr("deepseek") || p == JStr("custom");
  }

  // ---------------------------------------------------------------------
  // The scanner's model

  /** The model a scanner ends up with: the configuration name it settled
      on and the handler, if one could be built. */
  datatype Chosen = Chosen(name: string, handler: Option<Handler>)

  /** `CodeScanner.__init__`: a model without a truthy `api_key` is replaced
      by `default`; if building the handler fails for another name, the
      scanner retries with `default`, whose failure propagates; a failure
      for `default` itself is swallowed and leaves the scanner without a
      handler. */
  function ChooseModel(cfg: Settings.Config, name: string, anthropicInstalled: bool): (r: Result<Chosen, HandlerError>)
    ensures r.Ok? ==> Settings.ModelConfig(cfg, name).Ok? && Settings.ModelConfig(cfg, name).value.JObj?
    ensures r.Ok? && r.value.handler.Some? ==> HandlerFor(cfg, r.value.name, anthropicInstalled) == Ok(r.value.handler.value)
    ensures r.Ok? && r.value.handler.None? ==> r.value.name == "default" && HandlerFor(cfg, "default", anthropicInstalled).Err?
  {
    match Settings.ModelConfig(cfg, name)
    case Err(_) => Err(NoGet)
    case Ok(mc) =>
      if !mc.JObj? then Err(NoGet)
      else
        var first := if Truthy(GetOr(mc, "api_key", JNull)) then name else "default";
        match HandlerFor(cfg, first, anthropicInstalled)
        case Ok(h) => Ok(Chosen(first, Some(h)))
        case Err(e) =>
          if first != "default" then
            match HandlerFor(cfg, "default", anthropicInstalled)
            case Ok(h) => Ok(Chosen("default", Some(h)))
            case Err(e2) => Err(e2)
          else Ok(Chosen("default", None))
  }

  /** The scanner uses the requested name only when that entry has a key
      and its handler builds; otherwise it is on `default`. */
  lemma ChosenName(cfg: Settings.Config, name: string, anthropicInstalled: bool)
    requires ChooseModel(cfg, name, anthropicInstalled).Ok?
    ensures var c := ChooseModel(cfg, name, anthropicInstalled).value;
      && (c.name == name || c.name == "default")
      && (c.name != "default" ==>
            Truthy(GetOr(Settings.ModelConfig(cfg, name).value, "api_key", JNull)) && HandlerFor(cfg, name, anthropicInstalled).Ok?)
      && ((name != "default" && HandlerFor(cfg, name, anthropicInstalled).Ok? && Truthy(GetOr(Settings.ModelConfig(cfg, name).value, "api_key", JNull)))
            ==> c == Chosen(name, Some(HandlerFor(cfg, name, anthropicInstalled).value)))
  {
  }

  /** The scanner is left without a handler exactly when it ends on
      `default` and the `default` handler cannot be built. */
  lemma NoHandlerOnlyForDefault(cfg: Settings.Config, name: string, anthropicInstalled: bool)
    requires Settings.Models(cfg).JObj?
    requires Settings.ModelConfig(cfg, name).value.JObj?
    requires HandlerFor(cfg, "default", anthropicInstalled).Err?
    ensures var r := ChooseModel(cfg, name, anthropicInstalled);
      r.Ok? && r.value.handler.None? <==>
        name == "default" || !Truthy(GetOr(Settings.ModelConfig(cfg, name).value, "api_key", JNull))
  {
  }

  /** Without the `anthropic` package, a keyed Anthropic model cannot be
      built: the scanner moves to `default` when that one builds, and fails
      with `default`'s error when it does not. */
  lemma MissingAnthropicFallsBack(cfg: Settings.Config, name: string, fs: seq<(string, Json)>)
    requires name != "default"
    requires Settings.ModelConfig(cfg, name) == Ok(JObj(fs))
    requires Lookup(fs, "provider") == Some(JStr("anthropic")) && Truthy(GetOr(JObj(fs), "api_key", JNull))
    requires PyInt(GetOr(JObj(fs), "max_tokens", JInt(DefaultMaxTokens))).Some?
    ensures HandlerFor(cfg, name, false) == Err(NotInstalled)
    ensures var d := HandlerFor(cfg, "default", false);
      && (d.Ok? ==> ChooseModel(cfg, name, false) == Ok(Chosen("default", Some(d.value))))
      && (d.Err? ==> ChooseModel(cfg, name, false) == Err(d.error))
  {
    assert GetOr(JObj(fs), "provider", JStr("")) == JStr("anthropic");
  }
}

=== FILE: reports.dfy ===
/** Report generation (`codescan/report.py`): which generator a format
    name selects, what `generate_report` returns, the order findings are
    listed in, and the severity figures the reports print. The report
    texts themselves (HTML, JSON and plain-text layout) are not modelled. */
module Reports {
  import opened Wrappers
  import Text
  import opened Findings
  import Counter

  // ---------------------------------------------------------------------
  // Generators

  datatype Format = Html | JsonReport | PlainText

  /** The lower-case name each generator is chosen by. */
  function FormatName(f: Format): string {
    match f
    case Html => "html"
    case JsonReport => "json"
    case PlainText => "text"
  }

  /** `get_report_generator`: the name is lower-cased, then must be
      `html`, `json` or `text`; anything else raises `ValueError`. */
  function GeneratorFor(formatType: string): (r: Result<Format, string>)
  {
    var name := Text.Lower(formatType);
    if name == "html" then Ok(Html)
    else if name == "json" then Ok(JsonReport)
    else if name == "text" then Ok(PlainText)
    else Err("不支持的报告格式: " + name)
  }

  /** Lower-casing twice is lower-casing once. */
  lemma LowerIdempotent(s: string)
    ensures Text.Lower(Text.Lower(s)) == Text.Lower(s)
  {
  }

  /** The choice ignores case: a name selects a generator exactly when its
      lower-case form is one of the three names, and then the generator
      of that name. */
  lemma GeneratorIgnoresCase(formatType: string, f: Format)
    ensures GeneratorFor(formatType) == GeneratorFor(Text.Lower(formatType))
    ensures GeneratorFor(formatType) == Ok(f) <==> Text.Lower(formatType) == FormatName(f)
    ensures GeneratorFor(formatType).Err? <==> Text.Lower(formatType) !in ["html", "json", "text"]
  {
    LowerIdempotent(formatType);
  }

  /** Upper-case spellings are accepted. */
  lemma UpperCaseAccepted()
    ensures GeneratorFor("HTML") == Ok(Html) && GeneratorFor("Json") == Ok(JsonReport) && GeneratorFor("TEXT") == Ok(PlainText)
  {
    assert Text.Lower("HTML") == "html";
    assert Text.Lower("Json") == "json";
    assert Text.Lower("TEXT") == "text";
  }

  /** What `generate_report` does with the content: with a non-empty output
      path the content is written to that file and the path is returned;
      otherwise nothing is written and the content itself is returned. */
  datatype Written = Written(returned: string, file: Option<(string, string)>)

  function GenerateReport(content: string, outputPath: Option<string>): (r: Written)
    ensures r.file.Some? <==> outputPath.Some? && outputPath.value != ""
    ensures r.file.Some? ==> r.returned == outputPath.value && r.file.value == (outputPath.value, content)
    ensures r.file.None? ==> r.returned == content
  {
    if outputPath.Some? && outputPath.value != "" then Written(outputPath.value, Some((outputPath.value, content)))
    else Written(content, None)
  }

  // ---------------------------------------------------------------------
  // Order of the findings

  /** The sort key: critical 0, high 1, medium 2, low 3, info 4, any other
      severity 5. */
  function Rank(i: Issue): (r: nat)
    ensures r <= 5
    ensures r < 5 <==> i.severity in KnownSeverities
    ensures r < 5 ==> KnownSeverities[r] == i.severity
  {
    if i.severity == "critical" then 0
    else if i.severity == "high" then 1
    else if i.severity == "medium" then 2
    else if i.severity == "low" then 3
    else if i.severity == "info" then 4
    else 5
  }

  predicate SortedByRank(s: seq<Issue>) {
    forall i, j :: 0 <= i < j < |s| ==> Rank(s[i]) <= Rank(s[j])
  }

  /** Insert `x` in front of the first element ranked no better than it. */
  function Insert(x: Issue, s: seq<Issue>): (r: seq<Issue>)
    ensures |r| == |s| + 1
    ensures multiset(r) == multiset(s) + multiset{x}
    ensures r[0] == x || (|s| > 0 && r[0] == s[0])
  {
    if |s| == 0 then [x]
    else if Rank(x) <= Rank(s[0]) then [x] + s
    else
      assert s == [s[0]] + s[1..];
      [s[0]] + Insert(x, s[1..])
  }

  /** Python's stable `sorted(issues, key=rank)`, built by inserting each
      finding, from the last to the first, in front of its equals. */
  function SortIssues(issues: seq<Issue>): (r: seq<Issue>)
    ensures |r| == |issues|
  {
    if |issues| == 0 then [] else Insert(issues[0], SortIssues(issues[1..]))
  }

  /** The findings of one rank, in order. */
  function OfRank(s: seq<Issue>, k: nat): (r: seq<Issue>)
    ensures |r| <= |s|
  {
    if |s| == 0 then []
    else (if Rank(s[0]) == k then [s[0]] else []) + OfRank(s[1..], k)
  }

  lemma {:induction false} InsertSorted(x: Issue, s: seq<Issue>)
    requires SortedByRank(s)
    ensures SortedByRank(Insert(x, s))
  {
    if |s| > 0 && Rank(x) > Rank(s[0]) {
      assert SortedByRank(s[1..]) by {
        forall i, j | 0 <= i < j < |s[1..]|
          ensures Rank(s[1..][i]) <= Rank(s[1..][j])
        {
          assert s[1..][i] == s[i + 1] && s[1..][j] == s[j + 1];
        }
      }
      InsertSorted(x, s[1..]);
      var t := Insert(x, s[1..]);
      var r := [s[0]] + t;
      assert Rank(s[0]) <= Rank(t[0]) by {
        if t[0] != x { assert t[0] == s[1]; }
      }
      forall i, j | 0 <= i < j < |r|
        ensures Rank(r[i]) <= Rank(r[j])
      {
        assert r[j] == t[j - 1];
        if i > 0 { assert r[i] == t[i - 1]; }
      }
    }
  }

  /** Inserting `x` adds it to its own rank's findings, in front, and
      changes no other rank's: the elements it passes all rank better. */
  lemma {:induction false} InsertOfRank(x: Issue, s: seq<Issue>, k: nat)
    ensures OfRank(Insert(x, s), k) == (if Rank(x) == k then [x] else []) + OfRank(s, k)
  {
    if |s| == 0 {
      OfRankCons(x, [], k);
      assert [x] + [] == [x];
    } else if Rank(x) <= Rank(s[0]) {
      OfRankCons(x, s, k);
    } else {
      InsertOfRank(x, s[1..], k);
      PassOfRank(x, s, k);
    }
  }

  /** The step of `InsertOfRank` where `x` passes the first element. */
  lemma {:induction false} PassOfRank(x: Issue, s: seq<Issue>, k: nat)
    requires |s| > 0 && Rank(x) > Rank(s[0])
    requires OfRank(Insert(x, s[1..]), k) == (if Rank(x) == k then [x] else []) + OfRank(s[1..], k)
    ensures OfRank(Insert(x, s), k) == (if Rank(x) == k then [x] else []) + OfRank(s, k)
  {
    var t := Insert(x, s[1..]);
    assert Insert(x, s) == [s[0]] + t;
    OfRankCons(s[0], t, k);
    OfRankCons(s[0], s[1..], k);
    assert [s[0]] + s[1..] == s;
    var rest := OfRank(s[1..], k);
    if Rank(s[0]) == k {
      assert [] + rest == rest;
    } else {
      assert OfRank(s, k) == [] + rest;
      assert [] + ((if Rank(x) == k then [x] else []) + rest) == (if Rank(x) == k then [x] else []) + rest;
    }
  }

  lemma OfRankCons(h: Issue, t: seq<Issue>, k: nat)
    ensures OfRank([h] + t, k) == (if Rank(h) == k then [h] else []) + OfRank(t, k)
  {
    assert ([h] + t)[0] == h && ([h] + t)[1..] == t;
  }

  /** The listing is ordered by rank. */
  lemma {:induction false} SortIssuesSorted(issues: seq<Issue>)
    ensures SortedByRank(SortIssues(issues))
  {
    if |issues| > 0 {
      SortIssuesSorted(issues[1..]);
      InsertSorted(issues[0], SortIssues(issues[1..]));
    }
  }

  /** The listing holds exactly the findings, each as often. */
  lemma {:induction false} SortIssuesPermutes(issues: seq<Issue>)
    ensures multiset(SortIssues(issues)) == multiset(issues)
  {
    if |issues| > 0 {
      SortIssuesPermutes(issues[1..]);
      assert issues == [issues[0]] + issues[1..];
    }
  }

  /** The sort is stable: the findings of each rank keep their order. */
  lemma {:induction false} SortIssuesStable(issues: seq<Issue>, k: nat)
    ensures OfRank(SortIssues(issues), k) == OfRank(issues, k)
  {
    if |issues| > 0 {
      SortIssuesStable(issues[1..], k);
      InsertOfRank(issues[0], SortIssues(issues[1..]), k);
    }
  }

  // ---------------------------------------------------------------------
  // Severity figures

  /** The severities among the five known ones, in order. */
  function KnownOnly(sevs: seq<string>): (r: seq<string>)
    ensures |r| <= |sevs|
    ensures forall i :: 0 <= i < |r| ==> r[i] in KnownSeverities
  {
    if |sevs| == 0 then []
    else if sevs[|sevs| - 1] in KnownSeverities then KnownOnly(sevs[..|sevs| - 1]) + [sevs[|sevs| - 1]]
    else KnownOnly(sevs[..|sevs| - 1])
  }

  lemma {:induction false} KnownOnlyCount(sevs: seq<string>, s: string)
    ensures multiset(KnownOnly(sevs))[s] == if s in KnownSeverities then multiset(sevs)[s] else 0
  {
    if |sevs| > 0 {
      var init := sevs[..|sevs| - 1];
      KnownOnlyCount(init, s);
      assert sevs == init + [sevs[|sevs| - 1]];
    }
  }

  lemma {:induction false} KnownOnlyAll(sevs: seq<string>)
    ensures |KnownOnly(sevs)| == |sevs| <==> forall i :: 0 <= i < |sevs| ==> sevs[i] in KnownSeverities
  {
    if |sevs| > 0 {
      var init := sevs[..|sevs| - 1];
      KnownOnlyAll(init);
      if forall i :: 0 <= i < |sevs| ==> sevs[i] in KnownSeverities {
        assert forall i :: 0 <= i < |init| ==> init[i] == sevs[i];
      }
      if |KnownOnly(sevs)| == |sevs| {
        assert sevs[|sevs| - 1] in KnownSeverities;
        forall i | 0 <= i < |sevs|
          ensures sevs[i] in KnownSeverities
        {
          if i < |init| { assert init[i] == sevs[i]; }
        }
      }
    }
  }

  /** The plain-text report's tally: the five known severities start at
      zero and only findings of those severities are counted. */
  function TextTally(issues: seq<Issue>): Counter.Counts {
    Counter.TallyInto(ZeroCounts, KnownOnly(Severities(issues)))
  }

  /** The tally has exactly the five known keys, in order; each known
      severity is counted as often as it occurs, and agrees with
      `issues_by_severity`; others are not counted. */
  lemma TextTallyCounts(r: ScanResult, s: string)
    ensures Counter.Get(TextTally(r.issues), s) == if s in KnownSeverities then multiset(Severities(r.issues))[s] else 0
    ensures s in KnownSeverities ==> Counter.Get(TextTally(r.issues), s) == Counter.Get(IssuesBySeverity(r), s)
    ensures s in Counter.Keys(TextTally(r.issues)) <==> s in KnownSeverities
    ensures |Counter.Keys(TextTally(r.issues))| >= 5 && Counter.Keys(TextTally(r.issues))[..5] == KnownSeverities
  {
    var sevs := Severities(r.issues);
    ZeroCountsFacts(s);
    Counter.TallyIntoGet(ZeroCounts, KnownOnly(sevs), s);
    KnownOnlyCount(sevs, s);
    Counter.TallyIntoKeys(ZeroCounts, KnownOnly(sevs), s);
    IssuesBySeverityCounts(r, s);
  }

  /** The printed total counts the known severities only, so it falls short
      of `total_issues` exactly when some finding has another severity. */
  lemma TextTallyTotal(r: ScanResult)
    ensures Counter.Total(TextTally(r.issues)) <= TotalIssues(r)
    ensures Counter.Total(TextTally(r.issues)) == TotalIssues(r) <==>
      forall i :: 0 <= i < |r.issues| ==> r.issues[i].severity in KnownSeverities
  {
    var sevs := Severities(r.issues);
    ZeroCountsFacts("");
    Counter.TallyIntoTotal(ZeroCounts, KnownOnly(sevs));
    KnownOnlyAll(sevs);
  }

  /** The HTML report's high-risk figure. */
  function HighRisk(r: ScanResult): nat {
    Counter.Get(IssuesBySeverity(r), "critical") + Counter.Get(IssuesBySeverity(r), "high")
  }

  /** It counts the critical and the high findings, and never exceeds
      `total_issues`. */
  lemma HighRiskCount(r: ScanResult)
    ensures HighRisk(r) == multiset(Severities(r.issues))["critical"] + multiset(Severities(r.issues))["high"]
    ensures HighRisk(r) <= TotalIssues(r)
  {
    IssuesBySeverityCounts(r, "critical");
    IssuesBySeverityCounts(r, "high");
    TwoCounts(Severities(r.issues), "critical", "high");
  }

  lemma {:induction false} TwoCounts(xs: seq<string>, a: string, b: string)
    requires a != b
    ensures multiset(xs)[a] + multiset(xs)[b] <= |xs|
  {
    if |xs| > 0 {
      TwoCounts(xs[1..], a, b);
      assert xs == [xs[0]] + xs[1..];
    }
  }
}

=== FILE: rule_editor.dfy ===
/** The rule-editing operations of `codescan/rule_manager.py`, as
    operations on the rule store: dialog validation, the rule record the
    dialog produces, and add, edit and delete. */
module RuleEditor {
  import opened Wrappers
  import opened Rules

  /** The dialog's fields when OK is pressed. */
  datatype Form = Form(id: string, name: string, description: string, language: string, severity: string, pattern: string)

  datatype ValidationError = EmptyId | EmptyName | EmptyPattern

  /** `RuleDialog.accept`: the first empty field among id, name and pattern,
      in that order, keeps the dialog open. */
  function Validate(f: Form): (r: Option<ValidationError>)
    ensures r.None? <==> f.id != "" && f.name != "" && f.pattern != ""
    ensures r == Some(EmptyId) <==> f.id == ""
    ensures r == Some(EmptyName) <==> f.id != "" && f.name == ""
    ensures r == Some(EmptyPattern) <==> f.id != "" && f.name != "" && f.pattern == ""
  {
    if f.id == "" then Some(EmptyId)
    else if f.name == "" then Some(EmptyName)
    else if f.pattern == "" then Some(EmptyPattern)
    else None
  }

  const Severities: seq<string> := ["low", "medium", "high", "critical"]

  /** What the dialog shows for a rule before the user changes anything:
      a first language or severity the combo boxes do not offer is replaced
      by the first entry of the combo (`common`, `low`). */
  function InitialForm(rule: Rule): (f: Form)
    ensures f.language in StandardBuckets && f.severity in Severities
    ensures rule.languages.Some? && |rule.languages.value| > 0 && rule.languages.value[0] in StandardBuckets
      ==> f.language == rule.languages.value[0]
    ensures rule.severity.GetOr("medium") in Severities ==> f.severity == rule.severity.GetOr("medium")
  {
    var langs := rule.languages.GetOr(["common"]);
    var lang := if |langs| > 0 && langs[0] in StandardBuckets then langs[0] else "common";
    var sev := rule.severity.GetOr("medium");
    Form(IdOf(rule), rule.name, rule.description.GetOr(""), lang, if sev in Severities then sev else "low", rule.pattern)
  }

  /** `get_rule_data`: the record the dialog returns. It has exactly one
      language, keeps the edited rule's source (default `user`), and carries
      no recommendation and no metadata. */
  function RuleData(f: Form, original: Rule): (r: Rule)
    ensures r.languages == Some([f.language])
    ensures r.source == Some(original.source.GetOr("user"))
    ensures IdOf(r) == f.id && r.name == f.name && r.pattern == f.pattern
    ensures r.recommendation.None? && r.metadata.None?
  {
    Rule(Some(f.id), f.name, f.pattern, Some(f.description), Some(f.severity), None,
         Some([f.language]), Some(original.source.GetOr("user")), None)
  }

  /** The blank rule `add_rule` opens the dialog with. */
  function NewRuleTemplate(id: string, currentLanguage: string): Rule {
    Rule(Some(id), "", "", Some(""), Some("medium"), None, Some([currentLanguage]), Some("user"), None)
  }

  /** `add_rule` after the dialog: the rule is appended to the bucket of its
      language, which is created if absent; an invalid form changes
      nothing. */
  function AddRule(store: Store, f: Form, template: Rule): (r: Store)
    ensures Validate(f).Some? ==> r == store
    ensures Validate(f).None? ==> r.Keys == store.Keys + {f.language}
    ensures Validate(f).None? ==> r[f.language] == Bucket(store, f.language) + [RuleData(f, template)]
    ensures forall lang :: lang != f.language ==> Bucket(r, lang) == Bucket(store, lang)
  {
    if Validate(f).Some? then store
    else store[f.language := Bucket(store, f.language) + [RuleData(f, template)]]
  }

  /** Adding grows the store by one rule and performs no uniqueness check:
      a second rule with an id already in the bucket breaks `UniqueIds`. */
  lemma AddRuleGrows(store: Store, f: Form, template: Rule)
    requires Validate(f).None?
    ensures Size(AddRule(store, f, template)) == Size(store) + 1
    ensures (exists i :: 0 <= i < |Bucket(store, f.language)| && IdOf(Bucket(store, f.language)[i]) == f.id)
      ==> !UniqueIds(AddRule(store, f, template))
  {
    SizeUpdate(store, f.language, Bucket(store, f.language) + [RuleData(f, template)]);
    var r := AddRule(store, f, template);
    if i :| 0 <= i < |Bucket(store, f.language)| && IdOf(Bucket(store, f.language)[i]) == f.id {
      assert IdOf(r[f.language][i]) == IdOf(r[f.language][|Bucket(store, f.language)|]);
    }
  }

  /** The index of the first rule whose id is exactly `ruleId`, or -1. A
      rule without an id is never found. */
  function FindRule(bucket: seq<Rule>, ruleId: string): (r: int)
    ensures -1 <= r < |bucket|
    ensures r >= 0 ==> bucket[r].id == Some(ruleId)
    ensures forall j :: 0 <= j < |bucket| && (r == -1 || j < r) ==> bucket[j].id != Some(ruleId)
  {
    if |bucket| == 0 then -1
    else if bucket[0].id == Some(ruleId) then 0
    else
      var k := FindRule(bucket[1..], ruleId);
      if k == -1 then -1 else k + 1
  }

  datatype EditError = RuleNotFound | Rejected(why: ValidationError) | NoLanguage | MissingBucket(lang: string) | BadIndex

  /** The bucket `edit_rule` takes the rule from: the first language the
      rule declares, `common` when it declares none. */
  function DeclaredBucket(rule: Rule): Option<string> {
    var langs := rule.languages.GetOr(["common"]);
    if |langs| == 0 then None else Some(langs[0])
  }

  /** Index `i` removed from a sequence (`list.pop(i)`). */
  function RemoveAt<T>(s: seq<T>, i: nat): (r: seq<T>)
    requires i < |s|
    ensures |r| == |s| - 1
    ensures forall j :: 0 <= j < i ==> r[j] == s[j]
    ensures forall j :: i <= j < |r| ==> r[j] == s[j + 1]
  {
    s[..i] + s[i + 1..]
  }

  /** `edit_rule` as written. The rule is found in the displayed bucket
      `current`, but the bucket that is then modified is the one named by the
      rule's first declared language: without a language change the rule
      at the found index in that bucket is overwritten; with a change it is
      popped from that bucket and the new record appended to the new
      language's bucket, which is created if absent. A missing bucket or an
      index past its end raises, and nothing changes. */
  function EditRule(store: Store, current: string, ruleId: string, f: Form): (r: Result<Store, EditError>)
    ensures r.Ok? ==> FindRule(Bucket(store, current), ruleId) >= 0 && Validate(f).None?
    ensures FindRule(Bucket(store, current), ruleId) == -1 ==> r == Err(RuleNotFound)
  {
    var bucket := Bucket(store, current);
    var i := FindRule(bucket, ruleId);
    if i == -1 then Err(RuleNotFound)
    else if Validate(f).Some? then Err(Rejected(Validate(f).value))
    else
      var rule := bucket[i];
      var data := RuleData(f, rule);
      match DeclaredBucket(rule)
      case None => Err(NoLanguage)
      case Some(oldLang) =>
        if oldLang !in store then Err(MissingBucket(oldLang))
        else if i >= |store[oldLang]| then Err(BadIndex)
        else if oldLang != f.language then
          var popped := store[oldLang := RemoveAt(store[oldLang], i)];
          Ok(popped[f.language := Bucket(popped, f.language) + [data]])
        else Ok(store[oldLang := store[oldLang][i := data]])
  }

  /** When the rule lives in the bucket its first language names (the case
      the editor was written for), an edit that keeps the language replaces
      the rule at its index and nothing else. */
  lemma EditInPlace(store: Store, current: string, ruleId: string, f: Form)
    requires current in store
    requires FindRule(store[current], ruleId) >= 0 && Validate(f).None?
    requires DeclaredBucket(store[current][FindRule(store[current], ruleId)]) == Some(current)
    requires f.language == current
    ensures var i := FindRule(store[current], ruleId);
      EditRule(store, current, ruleId, f)
        == Ok(store[current := store[current][i := RuleData(f, store[current][i])]])
  {
  }

  /** In the same case, changing the language moves the rule: one rule
      fewer in the old bucket (which is kept even when it becomes empty),
      the new record at the end of the new bucket, the total unchanged. */
  lemma EditMovesRule(store: Store, current: string, ruleId: string, f: Form)
    requires current in store
    requires FindRule(store[current], ruleId) >= 0 && Validate(f).None?
    requires DeclaredBucket(store[current][FindRule(store[current], ruleId)]) == Some(current)
    requires f.language != current
    ensures var r := EditRule(store, current, ruleId, f);
      r.Ok? && current in r.value && |r.value[current]| == |store[current]| - 1
      && Bucket(r.value, f.language) == Bucket(store, f.language) + [RuleData(f, store[current][FindRule(store[current], ruleId)])]
      && Size(r.value) == Size(store)
      && r.value.Keys == store.Keys + {f.language}
      && (forall l :: l != current && l != f.language ==> Bucket(r.value, l) == Bucket(store, l))
  {
    var i := FindRule(store[current], ruleId);
    var popped := store[current := RemoveAt(store[current], i)];
    SizeUpdate(store, current, RemoveAt(store[current], i));
    SizeUpdate(popped, f.language, Bucket(popped, f.language) + [RuleData(f, store[current][i])]);
  }

  /** Pressing OK on an untouched dialog for a default common rule fails:
      its declared language `*` is not offered by the dialog, which shows
      `common` instead, so the edit looks like a language change and the
      bucket `*` it pops from does not exist. */
  lemma EditDefaultCommonRuleFails(i: nat)
    requires i < |DefaultStore()["common"]|
    ensures var rule := DefaultStore()["common"][i];
      EditRule(DefaultStore(), "common", IdOf(rule), InitialForm(rule)) == Err(MissingBucket("*"))
  {
    var rule := DefaultStore()["common"][i];
    DefaultCommonRule(i);
    assert Bucket(DefaultStore(), "common") == DefaultStore()["common"];
  }

  /** What the edit dialog and the store say about the `i`th default common rule. */
  lemma DefaultCommonRule(i: nat)
    requires i < |DefaultStore()["common"]|
    ensures var rule := DefaultStore()["common"][i];
      && FindRule(DefaultStore()["common"], IdOf(rule)) == i
      && DeclaredBucket(rule) == Some("*")
      && Validate(InitialForm(rule)).None?
      && InitialForm(rule).language == "common"
      && "*" !in DefaultStore()
  {
    var common := DefaultStore()["common"];
    DefaultCommonFound(common, i);
    CommonRuleForm(common[i]);
  }

  /** In a bucket with distinct ids, a rule that carries an id is found at its own position. */
  lemma FoundAtOwnPosition(bucket: seq<Rule>, i: nat)
    requires i < |bucket| && bucket[i].id.Some?
    requires forall j, k :: 0 <= j < k < |bucket| ==> IdOf(bucket[j]) != IdOf(bucket[k])
    ensures FindRule(bucket, IdOf(bucket[i])) == i
  {
  }

  lemma DefaultCommonFound(common: seq<Rule>, i: nat)
    requires common == DefaultStore()["common"] && i < |common|
    ensures FindRule(common, IdOf(common[i])) == i
  {
    CommonIdsDistinct(common);
    FoundAtOwnPosition(common, i);
  }

  lemma CommonIdsDistinct(common: seq<Rule>)
    requires common == DefaultStore()["common"]
    ensures forall i :: 0 <= i < |common| ==> common[i].id.Some?
    ensures forall j, k :: 0 <= j < k < |common| ==> IdOf(common[j]) != IdOf(common[k])
  {
    forall j, k | 0 <= j < k < |common| ensures IdOf(common[j]) != IdOf(common[k]) {
      assert IdOf(common[j])[7] != IdOf(common[k])[7];
    }
  }

  lemma CommonRuleForm(rule: Rule)
    requires rule in DefaultStore()["common"]
    ensures DeclaredBucket(rule) == Some("*")
    ensures Validate(InitialForm(rule)).None? && InitialForm(rule).language == "common"
  {
  }

  /** As written, the wrong rule can be overwritten: a rule shown in the
      `python` bucket that declares `javascript` first (as a multi-language
      Semgrep rule does) is edited at its python index inside the
      javascript bucket, replacing an unrelated rule there and leaving the
      edited one untouched. */
  lemma EditOverwritesOtherBucket()
    ensures var a := Rule(Some("a"), "A", "x", None, None, None, Some(["javascript", "python"]), None, None);
      var b := Rule(Some("b"), "B", "y", None, None, None, Some(["javascript"]), None, None);
      var store := map["python" := [a], "javascript" := [b, a]];
      var f := InitialForm(a).(pattern := "z");
      EditRule(store, "python", "a", f)
        == Ok(map["python" := [a], "javascript" := [RuleData(f, a), a]])
  {
    var a := Rule(Some("a"), "A", "x", None, None, None, Some(["javascript", "python"]), None, None);
    var b := Rule(Some("b"), "B", "y", None, None, None, Some(["javascript"]), None, None);
    var store := map["python" := [a], "javascript" := [b, a]];
    var f := InitialForm(a).(pattern := "z");
    assert f.language == "javascript";
    assert FindRule([a], "a") == 0;
    assert [b, a][0 := RuleData(f, a)] == [RuleData(f, a), a];
    assert store["javascript" := [RuleData(f, a), a]] == map["python" := [a], "javascript" := [RuleData(f, a), a]];
  }

  /** `edit_rule` corrected: the rule is modified in the bucket it was found
      in. */
  function EditRuleFixed(store: Store, current: string, ruleId: string, f: Form): (r: Result<Store, EditError>)
    ensures FindRule(Bucket(store, current), ruleId) == -1 ==> r == Err(RuleNotFound)
  {
    var bucket := Bucket(store, current);
    var i := FindRule(bucket, ruleId);
    if i == -1 then Err(RuleNotFound)
    else if Validate(f).Some? then Err(Rejected(Validate(f).value))
    else
      var data := RuleData(f, bucket[i]);
      if current != f.language then
        var popped := store[current := RemoveAt(bucket, i)];
        Ok(popped[f.language := Bucket(popped, f.language) + [data]])
      else Ok(store[current := bucket[i := data]])
  }

  /** The corrected edit changes exactly the selected rule: every other
      rule of the displayed bucket keeps its place, every bucket other than
      the displayed and the target one is untouched, and the total count
      is unchanged. */
  lemma {:induction false} EditFixedTouchesOnlySelected(store: Store, current: string, ruleId: string, f: Form)
    requires FindRule(Bucket(store, current), ruleId) >= 0 && Validate(f).None?
    ensures var r := EditRuleFixed(store, current, ruleId, f);
      var i := FindRule(Bucket(store, current), ruleId);
      var data := RuleData(f, Bucket(store, current)[i]);
      r.Ok? && Size(r.value) == Size(store)
      && (forall lang :: lang != current && lang != f.language ==> Bucket(r.value, lang) == Bucket(store, lang))
      && (f.language == current ==> r.value[current] == Bucket(store, current)[i := data])
      && (f.language != current ==>
            r.value[current] == RemoveAt(Bucket(store, current), i) && r.value[f.language] == Bucket(store, f.language) + [data])
  {
    var bucket := Bucket(store, current);
    var i := FindRule(bucket, ruleId);
    var data := RuleData(f, bucket[i]);
    if current != f.language {
      var popped := store[current := RemoveAt(bucket, i)];
      SizeUpdate(store, current, RemoveAt(bucket, i));
      SizeUpdate(popped, f.language, Bucket(popped, f.language) + [data]);
    } else {
      SizeUpdate(store, current, bucket[i := data]);
    }
  }

  /** `delete_rule` after confirmation: the first rule with the selected id
      is removed from the displayed bucket, which is kept even when it
      becomes empty; an absent id changes nothing. */
  function DeleteRule(store: Store, current: string, ruleId: string): (r: Store)
    ensures r.Keys == store.Keys
    ensures forall l :: l in store && l != current ==> r[l] == store[l]
    ensures !Shows(Bucket(store, current), ruleId) ==> r == store
    ensures Shows(Bucket(store, current), ruleId) ==>
      exists i :: FirstWithId(store[current], ruleId, i) && r[current] == store[current][..i] + store[current][i + 1..]
  {
    var i := FindRule(Bucket(store, current), ruleId);
    FindRuleFirst(Bucket(store, current), ruleId);
    if i >= 0 then store[current := RemoveAt(store[current], i)] else store
  }

  /** Some rule of `bucket` has the id `ruleId`. */
  predicate Shows(bucket: seq<Rule>, ruleId: string) {
    exists j :: 0 <= j < |bucket| && bucket[j].id == Some(ruleId)
  }

  /** `i` is the first position of `bucket` whose rule has the id `ruleId`. */
  predicate FirstWithId(bucket: seq<Rule>, ruleId: string, i: int) {
    0 <= i < |bucket| && bucket[i].id == Some(ruleId)
    && forall j :: 0 <= j < i ==> bucket[j].id != Some(ruleId)
  }

  lemma FindRuleFirst(bucket: seq<Rule>, ruleId: string)
    ensures FindRule(bucket, ruleId) == -1 <==> !Shows(bucket, ruleId)
    ensures FindRule(bucket, ruleId) >= 0 ==> FirstWithId(bucket, ruleId, FindRule(bucket, ruleId))
  {
  }

  /** Deleting removes exactly one rule when the id is shown, and deleting
      the last rule of a bucket leaves an empty bucket behind. */
  lemma DeleteShrinks(store: Store, current: string, ruleId: string)
    requires FindRule(Bucket(store, current), ruleId) >= 0
    ensures Size(DeleteRule(store, current, ruleId)) + 1 == Size(store)
    ensures |store[current]| == 1 ==> !NoEmptyBuckets(DeleteRule(store, current, ruleId))
  {
    var i := FindRule(store[current], ruleId);
    SizeUpdate(store, current, RemoveAt(store[current], i));
    var r := DeleteRule(store, current, ruleId);
    assert current in r && |r[current]| == |store[current]| - 1;
  }
}

=== FILE: rules.dfy ===
/** The rule repository of `codescan/vulndb.py`: a map from language bucket
    to an ordered sequence of rule records, its lookup, the batch merge with
    id-based deduplication, the staleness check, wholesale replacement on
    update, and the default database. */
module Rules {
  import opened Wrappers
  import opened Json
  import Text

  /** A rule record. `name` and `pattern` use "" for a missing field (every
      reader treats the two alike); the other fields distinguish absence. */
  datatype Rule = Rule(
    id: Option<string>,
    name: string,
    pattern: string,
    description: Option<string>,
    severity: Option<string>,
    recommendation: Option<string>,
    languages: Option<seq<string>>,
    source: Option<string>,
    metadata: Option<Json>)

  /** `rule.get('id', '')`. */
  function IdOf(r: Rule): string {
    r.id.GetOr("")
  }

  type Store = map<string, seq<Rule>>

  /** An incoming batch: an insertion-ordered dict from bucket to rules. */
  type Batch = seq<(string, seq<Rule>)>

  /** `patterns.get(lang, [])`. */
  function Bucket(s: Store, lang: string): seq<Rule> {
    if lang in s then s[lang] else []
  }

  /** An invariant the merge maintains when it does not raise: no bucket
      is kept empty. */
  predicate NoEmptyBuckets(s: Store) {
    forall lang :: lang in s ==> |s[lang]| > 0
  }

  /** Within each bucket the ids are pairwise distinct. */
  predicate UniqueIds(s: Store) {
    forall lang, i, j :: lang in s && 0 <= i < j < |s[lang]| ==> IdOf(s[lang][i]) != IdOf(s[lang][j])
  }

  /** The nine bucket names offered by the rule editor and pre-seeded by
      the Semgrep directory import. */
  const StandardBuckets: seq<string> := ["common", "python", "javascript", "java", "go", "ruby", "php", "c", "cpp"]

  // ---------------------------------------------------------------------
  // Lookup

  /** `get_patterns_for_language`: the `common` bucket followed by the bucket
      of the lower-cased language; a missing bucket contributes nothing. */
  function PatternsFor(s: Store, language: string): (r: seq<Rule>)
    ensures |r| == |Bucket(s, "common")| + |Bucket(s, Text.Lower(language))|
    ensures r[..|Bucket(s, "common")|] == Bucket(s, "common")
    ensures r[|Bucket(s, "common")|..] == Bucket(s, Text.Lower(language))
    ensures forall x :: x in r <==> x in Bucket(s, "common") || x in Bucket(s, Text.Lower(language))
  {
    var r := Bucket(s, "common") + Bucket(s, Text.Lower(language));
    assert r[..|Bucket(s, "common")|] == Bucket(s, "common");
    r
  }

  /** A language without a bucket gets exactly the common rules. */
  lemma MissingBucketGetsCommon(s: Store, language: string)
    requires Text.Lower(language) !in s
    ensures PatternsFor(s, language) == Bucket(s, "common")
  {
    var r := PatternsFor(s, language);
    assert r == r[..|Bucket(s, "common")|] + r[|Bucket(s, "common")|..];
  }

  /** Lookup ignores the case of the language name. */
  lemma LookupIgnoresCase(s: Store, a: string, b: string)
    requires Text.Lower(a) == Text.Lower(b)
    ensures PatternsFor(s, a) == PatternsFor(s, b)
  {
    var ra := PatternsFor(s, a);
    var rb := PatternsFor(s, b);
    assert ra == ra[..|Bucket(s, "common")|] + ra[|Bucket(s, "common")|..];
    assert rb == rb[..|Bucket(s, "common")|] + rb[|Bucket(s, "common")|..];
  }

  /** Asking for `common` itself yields every common rule twice. */
  lemma CommonLookupDoubles(s: Store)
    ensures PatternsFor(s, "common") == Bucket(s, "common") + Bucket(s, "common")
  {
    assert Text.Lower("common") == "common";
    var r := PatternsFor(s, "common");
    assert r == r[..|Bucket(s, "common")|] + r[|Bucket(s, "common")|..];
  }

  // ---------------------------------------------------------------------
  // Merge

  /** The id index `{rule.get('id', ''): i for i, rule in enumerate(bucket)}`:
      it holds every id of the bucket, and for an id that occurs several
      times the LAST index wins. */
  function IndexOf(bucket: seq<Rule>): (m: map<string, nat>)
    ensures IndexValid(m, bucket)
  {
    if |bucket| == 0 then map[]
    else
      var init := bucket[..|bucket| - 1];
      IndexOf(init)[IdOf(bucket[|bucket| - 1]) := |bucket| - 1]
  }

  /** Every index entry points at a rule with that id. */
  predicate IndexValid(index: map<string, nat>, bucket: seq<Rule>) {
    forall id :: id in index ==> index[id] < |bucket| && IdOf(bucket[index[id]]) == id
  }

  /** The index holds exactly the bucket's ids, each at its last position. */
  lemma {:induction false} IndexOfLastWins(bucket: seq<Rule>)
    ensures forall id :: id in IndexOf(bucket) <==> exists i :: 0 <= i < |bucket| && IdOf(bucket[i]) == id
    ensures forall id, j :: id in IndexOf(bucket) && IndexOf(bucket)[id] < j < |bucket| ==> IdOf(bucket[j]) != id
  {
    if |bucket| > 0 {
      var init := bucket[..|bucket| - 1];
      IndexOfLastWins(init);
      assert forall i :: 0 <= i < |init| ==> init[i] == bucket[i];
    }
  }

  /** The id given to a rule that arrives without one: `"{lang}-NNNN"`. */
  function SynthesizedId(lang: string, n: nat): string {
    lang + "-" + Text.ZeroPad4(n)
  }

  datatype BucketOutcome = BucketOutcome(bucket: seq<Rule>, added: nat)

  /** The id the merge files a rule under: its own, or a synthesized one
      numbered by the bucket's current length plus the running added-count
      plus one. */
  function EffectiveId(lang: string, bucket: seq<Rule>, rule: Rule, added: nat): string {
    if IdOf(rule) == "" then SynthesizedId(lang, |bucket| + added + 1) else IdOf(rule)
  }

  /** The rule as stored: an empty id is written back into the rule. */
  function Filed(lang: string, bucket: seq<Rule>, rule: Rule, added: nat): Rule {
    if IdOf(rule) == "" then rule.(id := Some(EffectiveId(lang, bucket, rule, added))) else rule
  }

  /** One iteration of the merge loop of `_merge_rules`. */
  function MergeOne(lang: string, bucket: seq<Rule>, index: map<string, nat>, rule: Rule, added: nat): (r: BucketOutcome)
    requires IndexValid(index, bucket)
    ensures r.added == added || r.added == added + 1
    ensures |r.bucket| == |bucket| + (r.added - added) && IndexValid(index, r.bucket)
    ensures forall i :: 0 <= i < |bucket| ==> IdOf(r.bucket[i]) == IdOf(bucket[i])
    ensures forall i :: 0 <= i < |bucket| ==> r.bucket[i] == bucket[i] || r.bucket[i].pattern != ""
    ensures r.added == added + 1 ==> IdOf(r.bucket[|bucket|]) !in index
  {
    var rid := EffectiveId(lang, bucket, rule, added);
    var filed := Filed(lang, bucket, rule, added);
    if rid in index then
      var i := index[rid];
      if filed.pattern != "" && filed.pattern != bucket[i].pattern then
        BucketOutcome(bucket[i := filed], added)
      else BucketOutcome(bucket, added)
    else BucketOutcome(bucket + [filed], added + 1)
  }

  /** An element of an incoming bucket's list. `BadItem` is any element on
      which the loop body raises before it touches the bucket: a value that
      is not a dict (`rule.get` fails), or a dict whose truthy id cannot be
      hashed (the index lookup fails). A bucket value that is not a list is
      written as what iterating it yields: nothing for an empty string or
      dict, and a `BadItem` first for anything else. */
  datatype Item = RuleItem(rule: Rule) | BadItem

  /** What `_merge_rules` is handed: an insertion-ordered dict from bucket
      to items. */
  type Incoming = seq<(string, seq<Item>)>

  /** Well-formed rules as items. */
  function AsItems(rules: seq<Rule>): (r: seq<Item>)
    ensures |r| == |rules| && forall i :: 0 <= i < |rules| ==> r[i] == RuleItem(rules[i])
  {
    if |rules| == 0 then [] else [RuleItem(rules[0])] + AsItems(rules[1..])
  }

  /** A converted batch as the merge receives it. */
  function AsIncoming(b: Batch): (r: Incoming)
    ensures |r| == |b| && forall i :: 0 <= i < |b| ==> r[i] == (b[i].0, AsItems(b[i].1))
  {
    if |b| == 0 then [] else [(b[0].0, AsItems(b[0].1))] + AsIncoming(b[1..])
  }

  /** The bucket after one bucket's loop, the running count, and whether
      the loop raised. */
  datatype BucketRun = BucketRun(bucket: seq<Rule>, added: nat, raised: bool)

  /** The merge loop over one bucket's incoming items, with the id index
      built once before the loop. It stops at the first item that raises,
      keeping what it has done so far. Existing rules keep their position
      and id and are only ever replaced by a rule with a non-empty pattern;
      the bucket grows by exactly the number of rules counted as added, and
      every appended rule carries an id the index did not hold. */
  function MergeBucket(lang: string, bucket: seq<Rule>, index: map<string, nat>, items: seq<Item>, added: nat): (r: BucketRun)
    requires IndexValid(index, bucket)
    ensures r.added >= added
    ensures |r.bucket| == |bucket| + (r.added - added)
    ensures forall i :: 0 <= i < |bucket| ==> IdOf(r.bucket[i]) == IdOf(bucket[i])
    ensures forall i :: 0 <= i < |bucket| ==> r.bucket[i] == bucket[i] || r.bucket[i].pattern != ""
    ensures forall k :: |bucket| <= k < |r.bucket| ==> IdOf(r.bucket[k]) !in index
    ensures r.raised <==> BadItem in items
    decreases |items|
  {
    if |items| == 0 then BucketRun(bucket, added, false)
    else match items[0]
      case BadItem => BucketRun(bucket, added, true)
      case RuleItem(rule) =>
        var step := MergeOne(lang, bucket, index, rule, added);
        assert BadItem in items <==> BadItem in items[1..] by {
          assert items == [items[0]] + items[1..];
        }
        MergeBucket(lang, step.bucket, index, items[1..], step.added)
  }

  /** The store after the outer loop, the running count, and the bucket
      whose loop raised, if one did. */
  datatype MergeRun = MergeRun(store: Store, added: nat, failedIn: Option<string>)

  datatype MergeOutcome = MergeOutcome(store: Store, added: nat)

  /** Sum of the bucket sizes of a store. */
  ghost function Size(s: Store): nat
    decreases |s.Keys|
  {
    if s == map[] then 0
    else
      var k :| k in s;
      |s[k]| + Size(s - {k})
  }

  lemma {:induction false} SizePick(s: Store, k: string)
    requires k in s
    ensures Size(s) == |s[k]| + Size(s - {k})
    decreases |s.Keys|
  {
    var k0 :| k0 in s && Size(s) == |s[k0]| + Size(s - {k0});
    if k0 != k {
      var s0 := s - {k0};
      var s1 := s - {k};
      assert |s0.Keys| < |s.Keys| by { assert s0.Keys == s.Keys - {k0}; }
      assert |s1.Keys| < |s.Keys| by { assert s1.Keys == s.Keys - {k}; }
      SizePick(s0, k);
      SizePick(s1, k0);
      assert s0 - {k} == s1 - {k0};
    }
  }

  /** Storing `v` under `k` changes the total size by `|v|` minus the size
      of the bucket it replaces. */
  lemma SizeUpdate(s: Store, k: string, v: seq<Rule>)
    ensures Size(s[k := v]) + |Bucket(s, k)| == Size(s) + |v|
  {
    SizePick(s[k := v], k);
    assert s[k := v] - {k} == s - {k};
    if k in s {
      SizePick(s, k);
    } else {
      assert s - {k} == s;
    }
  }

  /** Removing a bucket lowers the total size by that bucket's size. */
  lemma SizeRemove(s: Store, k: string)
    ensures Size(s - {k}) + |Bucket(s, k)| == Size(s)
  {
    if k in s {
      SizePick(s, k);
    } else {
      assert s - {k} == s;
    }
  }

  /** The outer loop of `_merge_rules`, one batch entry after another, with
      the added-count running across buckets. A bucket is created before
      its loop and removed after it when left empty. When a loop raises,
      the store stays as far as the merge got, the bucket being merged
      included, even when that bucket is empty. */
  function MergeEntries(store: Store, batch: Incoming, added: nat): (r: MergeRun)
    ensures r.added >= added
    decreases |batch|
  {
    if |batch| == 0 then MergeRun(store, added, None)
    else
      var lang := batch[0].0;
      var bucket := Bucket(store, lang);
      var b := MergeBucket(lang, bucket, IndexOf(bucket), batch[0].1, added);
      if b.raised then MergeRun(store[lang := b.bucket], b.added, Some(lang))
      else
        var next := if |b.bucket| == 0 then store - {lang} else store[lang := b.bucket];
        MergeEntries(next, batch[1..], b.added)
  }

  /** Some item of the batch makes the loop raise. */
  predicate Raises(batch: Incoming) {
    exists i :: 0 <= i < |batch| && BadItem in batch[i].1
  }

  /** `_merge_rules`: the store afterwards and the number returned, which is
      the count of rules added, or 0 when the loop raised; the store then
      keeps whatever the loop had already done to it. */
  function Merge(store: Store, batch: Incoming): MergeOutcome {
    var run := MergeEntries(store, batch, 0);
    MergeOutcome(run.store, if run.failedIn.Some? then 0 else run.added)
  }

  predicate InBatch(batch: Incoming, lang: string) {
    exists i :: 0 <= i < |batch| && batch[i].0 == lang
  }

  /** The merge raises exactly when some item of the batch is one the loop
      body cannot handle. */
  lemma {:induction false} MergeRaisesExactly(store: Store, batch: Incoming, added: nat)
    ensures MergeEntries(store, batch, added).failedIn.Some? <==> Raises(batch)
    decreases |batch|
  {
    if |batch| > 0 {
      var lang := batch[0].0;
      var bucket := Bucket(store, lang);
      var b := MergeBucket(lang, bucket, IndexOf(bucket), batch[0].1, added);
      if !b.raised {
        var next := if |b.bucket| == 0 then store - {lang} else store[lang := b.bucket];
        MergeRaisesExactly(next, batch[1..], b.added);
        RaisesTail(batch);
      }
    }
  }

  /** With a clean first entry, the batch raises exactly when its tail does. */
  lemma RaisesTail(batch: Incoming)
    requires |batch| > 0 && BadItem !in batch[0].1
    ensures Raises(batch) <==> Raises(batch[1..])
  {
    if Raises(batch) {
      var i :| 0 <= i < |batch| && BadItem in batch[i].1;
      assert batch[1..][i - 1] == batch[i];
    }
    if Raises(batch[1..]) {
      var i :| 0 <= i < |batch[1..]| && BadItem in batch[1..][i].1;
      assert batch[i + 1] == batch[1..][i];
    }
  }

  /** The running count is exactly the number of rules appended: the store
      grows by that many rules in total, whether or not the loop raised. */
  lemma {:induction false} MergeCountsAppends(store: Store, batch: Incoming, added: nat)
    ensures Size(MergeEntries(store, batch, added).store) == Size(store) + MergeEntries(store, batch, added).added - added
    decreases |batch|
  {
    if |batch| > 0 {
      var lang := batch[0].0;
      var bucket := Bucket(store, lang);
      var b := MergeBucket(lang, bucket, IndexOf(bucket), batch[0].1, added);
      if b.raised {
        SizeUpdate(store, lang, b.bucket);
      } else {
        var next := if |b.bucket| == 0 then store - {lang} else store[lang := b.bucket];
        if |b.bucket| == 0 {
          SizeRemove(store, lang);
        } else {
          SizeUpdate(store, lang, b.bucket);
        }
        MergeCountsAppends(next, batch[1..], b.added);
      }
    }
  }

  /** What `_merge_rules` returns: the growth of the store when no item
      raises, and 0 when one does, although the store may have grown. The
      store never shrinks. */
  lemma MergeReturnsGrowth(store: Store, batch: Incoming)
    ensures Size(Merge(store, batch).store) >= Size(store)
    ensures !Raises(batch) ==> Size(Merge(store, batch).store) == Size(store) + Merge(store, batch).added
    ensures Raises(batch) ==> Merge(store, batch).added == 0
  {
    MergeCountsAppends(store, batch, 0);
    MergeRaisesExactly(store, batch, 0);
  }

  /** Buckets the batch does not name are untouched. Starting without empty
      buckets, the only bucket that can be left empty is the one whose loop
      raised. */
  lemma {:induction false} MergeFrame(store: Store, batch: Incoming, added: nat)
    ensures forall lang :: !InBatch(batch, lang) ==>
      (lang in MergeEntries(store, batch, added).store <==> lang in store) &&
      Bucket(MergeEntries(store, batch, added).store, lang) == Bucket(store, lang)
    ensures var r := MergeEntries(store, batch, added);
      NoEmptyBuckets(store) ==> forall lang :: lang in r.store && |r.store[lang]| == 0 ==> r.failedIn == Some(lang)
    decreases |batch|
  {
    if |batch| > 0 {
      var lang := batch[0].0;
      var bucket := Bucket(store, lang);
      var b := MergeBucket(lang, bucket, IndexOf(bucket), batch[0].1, added);
      assert InBatch(batch, lang);
      if !b.raised {
        var next := if |b.bucket| == 0 then store - {lang} else store[lang := b.bucket];
        MergeFrame(next, batch[1..], b.added);
        forall l | InBatch(batch[1..], l) ensures InBatch(batch, l) {
          var i :| 0 <= i < |batch[1..]| && batch[1..][i].0 == l;
          assert batch[i + 1].0 == l;
        }
      }
    }
  }

  /** `{"python": [{"id": "new", "pattern": "x"}, "oops"]}` on an empty
      store: the rule is appended, the string raises, and the merge returns
      0 while the appended rule stays. */
  lemma PartialMergeReturnsZero()
    ensures var newRule := Rule(Some("new"), "", "x", None, None, None, None, None, None);
      Merge(map[], [("python", [RuleItem(newRule), BadItem])]) == MergeOutcome(map["python" := [newRule]], 0)
  {
    var newRule := Rule(Some("new"), "", "x", None, None, None, None, None, None);
    var items := [RuleItem(newRule), BadItem];
    var batch := [("python", items)];
    assert IndexOf([]) == map[];
    assert MergeOne("python", [], map[], newRule, 0) == BucketOutcome([newRule], 1);
    assert items[1..] == [BadItem];
    assert MergeBucket("python", [], map[], items, 0) == BucketRun([newRule], 1, true);
    assert MergeEntries(map[], batch, 0) == MergeRun(map["python" := [newRule]], 1, Some("python"));
  }

  /** `{"newlang": ["oops"]}`: the bucket is created, its loop raises at
      once, and the empty bucket stays in the store. */
  lemma FailedMergeLeavesEmptyBucket()
    ensures Merge(map[], [("newlang", [BadItem])]) == MergeOutcome(map["newlang" := []], 0)
    ensures !NoEmptyBuckets(Merge(map[], [("newlang", [BadItem])]).store)
  {
    assert IndexOf([]) == map[];
    assert MergeBucket("newlang", [], map[], [BadItem], 0) == BucketRun([], 0, true);
    assert Merge(map[], [("newlang", [BadItem])]).store == map["newlang" := []];
  }

  /** A rule that the merge leaves alone: its id is already in the bucket
      and its pattern is empty or the same as the pattern stored under that
      id. */
  predicate Unchanging(bucket: seq<Rule>, item: Item) {
    var index := IndexOf(bucket);
    item.RuleItem? && IdOf(item.rule) != "" && IdOf(item.rule) in index
    && (item.rule.pattern == "" || item.rule.pattern == bucket[index[IdOf(item.rule)]].pattern)
  }

  lemma {:induction false} MergeBucketUnchanging(lang: string, bucket: seq<Rule>, items: seq<Item>, added: nat)
    requires forall i :: 0 <= i < |items| ==> Unchanging(bucket, items[i])
    ensures MergeBucket(lang, bucket, IndexOf(bucket), items, added) == BucketRun(bucket, added, false)
    decreases |items|
  {
    if |items| > 0 {
      assert Unchanging(bucket, items[0]);
      assert MergeOne(lang, bucket, IndexOf(bucket), items[0].rule, added) == BucketOutcome(bucket, added);
      MergeBucketUnchanging(lang, bucket, items[1..], added);
    }
  }

  /** Re-merging rules the store already holds adds nothing and changes
      nothing: the count is 0 and the store is the same, including no
      bucket created only to be removed again. */
  lemma {:induction false} MergeUnchangedBatch(store: Store, batch: Incoming, added: nat)
    requires NoEmptyBuckets(store)
    requires forall e, i :: e in batch && 0 <= i < |e.1| ==> Unchanging(Bucket(store, e.0), e.1[i])
    ensures MergeEntries(store, batch, added) == MergeRun(store, added, None)
    decreases |batch|
  {
    if |batch| > 0 {
      var lang := batch[0].0;
      var bucket := Bucket(store, lang);
      assert batch[0] in batch;
      MergeBucketUnchanging(lang, bucket, batch[0].1, added);
      if |bucket| == 0 {
        assert lang !in store;
        assert store - {lang} == store;
      } else {
        assert store[lang := bucket] == store;
      }
      forall e, i | e in batch[1..] && 0 <= i < |e.1| ensures Unchanging(Bucket(store, e.0), e.1[i]) {
        assert e in batch;
      }
      MergeUnchangedBatch(store, batch[1..], added);
    }
  }

  /** A rule whose id is already in the bucket, with a non-empty pattern
      that differs from the stored one, replaces the stored rule at the same
      index: the length and the count stay the same. */
  lemma ReplaceInPlace(lang: string, bucket: seq<Rule>, rule: Rule, added: nat)
    requires IdOf(rule) != "" && IdOf(rule) in IndexOf(bucket)
    requires rule.pattern != "" && rule.pattern != bucket[IndexOf(bucket)[IdOf(rule)]].pattern
    ensures MergeOne(lang, bucket, IndexOf(bucket), rule, added)
         == BucketOutcome(bucket[IndexOf(bucket)[IdOf(rule)] := rule], added)
  {
  }

  /** Rules whose ids are not in the bucket's index are all appended in
      order, even when they share an id with one another: the index is not
      updated inside the loop. */
  lemma {:induction false} FreshRulesAllAppended(lang: string, bucket: seq<Rule>, index: map<string, nat>, rules: seq<Rule>, added: nat)
    requires IndexValid(index, bucket)
    requires forall i :: 0 <= i < |rules| ==> IdOf(rules[i]) != "" && IdOf(rules[i]) !in index
    ensures MergeBucket(lang, bucket, index, AsItems(rules), added) == BucketRun(bucket + rules, added + |rules|, false)
    decreases |rules|
  {
    if |rules| > 0 {
      var items := AsItems(rules);
      assert items[0] == RuleItem(rules[0]);
      assert items[1..] == AsItems(rules[1..]);
      assert MergeOne(lang, bucket, index, rules[0], added) == BucketOutcome(bucket + [rules[0]], added + 1);
      FreshRulesAllAppended(lang, bucket + [rules[0]], index, rules[1..], added + 1);
      SnocRest(bucket, rules);
    }
  }

  lemma SnocRest<T>(a: seq<T>, b: seq<T>)
    requires |b| > 0
    ensures a + [b[0]] + b[1..] == a + b
  {
  }

  /** Consequently the merge does not keep ids unique: two new rules with
      the same id both land in the bucket. */
  lemma DuplicateNewIdsKept(lang: string, rule: Rule)
    requires IdOf(rule) != ""
    ensures Merge(map[], [(lang, [RuleItem(rule), RuleItem(rule)])]).store == map[lang := [rule, rule]]
    ensures !UniqueIds(Merge(map[], [(lang, [RuleItem(rule), RuleItem(rule)])]).store)
  {
    var batch := [(lang, [RuleItem(rule), RuleItem(rule)])];
    TwiceAppended(lang, rule);
    assert batch[1..] == [];
    assert MergeEntries(map[], batch, 0) == MergeRun(map[lang := [rule, rule]], 2, None);
    var s := Merge(map[], batch).store;
    assert s == map[lang := [rule, rule]];
    assert IdOf(s[lang][0]) == IdOf(s[lang][1]);
  }

  lemma TwiceAppended(lang: string, rule: Rule)
    requires IdOf(rule) != ""
    ensures MergeBucket(lang, Bucket(map[], lang), IndexOf(Bucket(map[], lang)), [RuleItem(rule), RuleItem(rule)], 0)
         == BucketRun([rule, rule], 2, false)
  {
    assert IndexOf([]) == map[];
    assert AsItems([rule, rule]) == [RuleItem(rule), RuleItem(rule)];
    FreshRulesAllAppended(lang, [], map[], [rule, rule], 0);
  }

  /** Batches produced by the converters hold only rule records, so
      merging them never raises. */
  lemma ConvertedBatchNeverRaises(b: Batch)
    ensures !Raises(AsIncoming(b))
  {
  }

  /** A rule without an id is filed under `"{lang}-NNNN"`, whose number is
      the bucket's current length plus the running count plus one. */
  lemma SynthesizedIdNumber(lang: string, bucket: seq<Rule>, rule: Rule, added: nat)
    requires IdOf(rule) == ""
    ensures var id := IdOf(Filed(lang, bucket, rule, added));
      Text.StartsWith(id, lang + "-")
      && Text.AllDigits(id[|lang| + 1..])
      && Text.DigitsValue(id[|lang| + 1..]) == |bucket| + added + 1
  {
    var id := IdOf(Filed(lang, bucket, rule, added));
    assert id == lang + "-" + Text.ZeroPad4(|bucket| + added + 1);
    assert id[|lang| + 1..] == Text.ZeroPad4(|bucket| + added + 1);
  }

  /** As written, the synthesized id is looked up in the index like any
      other, so it can coincide with the id of a stored rule: a rule that
      arrived without an id then overwrites that unrelated rule and is not
      counted. */
  lemma SynthesizedIdOverwrites()
    ensures var stored := Rule(Some("python-0002"), "a", "a", None, None, None, None, None, None);
      var incoming := Rule(None, "b", "b", None, None, None, None, None, None);
      Merge(map["python" := [stored]], [("python", [RuleItem(incoming)])])
        == MergeOutcome(map["python" := [incoming.(id := Some("python-0002"))]], 0)
  {
    var stored := Rule(Some("python-0002"), "a", "a", None, None, None, None, None, None);
    var incoming := Rule(None, "b", "b", None, None, None, None, None, None);
    var batch := [("python", [RuleItem(incoming)])];
    var fixed := incoming.(id := Some("python-0002"));
    SynthesizedCollision(stored, incoming);
    assert MergeBucket("python", [stored], IndexOf([stored]), [RuleItem(incoming)], 0) == BucketRun([fixed], 0, false) by {
      assert [RuleItem(incoming)][1..] == [];
    }
    assert batch[1..] == [];
    assert map["python" := [stored]]["python" := [fixed]] == map["python" := [fixed]];
  }

  lemma SynthesizedCollision(stored: Rule, incoming: Rule)
    requires stored.id == Some("python-0002") && incoming.id == None && incoming.pattern != "" && incoming.pattern != stored.pattern
    ensures MergeOne("python", [stored], IndexOf([stored]), incoming, 0)
         == BucketOutcome([incoming.(id := Some("python-0002"))], 0)
  {
    SecondId();
    assert IndexOf([stored]) == map["python-0002" := 0] by {
      assert [stored][..0] == [];
    }
  }

  lemma SecondId()
    ensures SynthesizedId("python", 2) == "python-0002"
  {
    assert Text.ZeroPad4(2) == "0002" by {
      assert Text.NatToString(2) == "2";
    }
  }

  /** The merge step with the id-less case corrected: a rule that arrives
      without an id is new by definition and is appended under its
      synthesized id, never looked up in the index. */
  function MergeOneFixed(lang: string, bucket: seq<Rule>, index: map<string, nat>, rule: Rule, added: nat): BucketOutcome
    requires IndexValid(index, bucket)
  {
    if IdOf(rule) == "" then BucketOutcome(bucket + [Filed(lang, bucket, rule, added)], added + 1)
    else MergeOne(lang, bucket, index, rule, added)
  }

  /** With the correction, a rule without an id never displaces a stored
      rule: everything stored stays, the rule is appended with its
      synthesized id, and it is counted. */
  lemma IdLessRuleNeverOverwrites(lang: string, bucket: seq<Rule>, index: map<string, nat>, rule: Rule, added: nat)
    requires IndexValid(index, bucket)
    requires IdOf(rule) == ""
    ensures var r := MergeOneFixed(lang, bucket, index, rule, added);
      r.bucket[..|bucket|] == bucket && |r.bucket| == |bucket| + 1 && r.added == added + 1
      && IdOf(r.bucket[|bucket|]) == SynthesizedId(lang, |bucket| + added + 1)
  {
    var r := MergeOneFixed(lang, bucket, index, rule, added);
    assert r.bucket[..|bucket|] == bucket;
  }

  // ---------------------------------------------------------------------
  // Persistence, staleness and update

  /** The last-update record: absent, unreadable, or a parsed JSON document. */
  datatype Stamp = NoStamp | Unreadable | StampDoc(doc: Json)

  /** The database: the in-memory rules, what was last written to disk, and
      the last-update record. */
  datatype Db = Db(patterns: Store, disk: Option<Store>, stamp: Stamp)

  /** How the two writes of `_save_patterns` go. The rules file is written
      first and the timestamp file after it; an error in either is logged
      and swallowed, so a failed rules write also skips the timestamp. */
  datatype Write = BothWritten | RulesOnly | NothingWritten

  /** The record `_save_patterns` writes at time `now`. */
  function FreshStamp(now: int): Stamp {
    StampDoc(JObj([("last_update", JInt(now))]))
  }

  /** `_save_patterns` at time `now`: the rules in memory never change, the
      rules file holds them unless its write failed, and the timestamp is
      renewed only when both writes succeed. */
  function Save(db: Db, now: int, w: Write): (r: Db)
    ensures r.patterns == db.patterns
    ensures r.disk == (if w.NothingWritten? then db.disk else Some(db.patterns))
    ensures r.stamp == (if w.BothWritten? then FreshStamp(now) else db.stamp)
  {
    match w
    case BothWritten => Db(db.patterns, Some(db.patterns), FreshStamp(now))
    case RulesOnly => db.(disk := Some(db.patterns))
    case NothingWritten => db
  }

  /** Seconds in `days` days. */
  function Seconds(days: int): int {
    days * 24 * 3600
  }

  /** `_should_update`: true when the record is missing or unreadable, when
      reading its timestamp fails, or when strictly more than the interval
      has passed; a record without `last_update` counts from 0. */
  function ShouldUpdate(stamp: Stamp, now: int, intervalDays: int): (r: bool)
    ensures stamp.NoStamp? || stamp.Unreadable? ==> r
    ensures stamp.StampDoc? && !stamp.doc.JObj? ==> r
    ensures stamp == FreshStamp(now) && intervalDays >= 0 ==> !r
  {
    match stamp
    case NoStamp => true
    case Unreadable => true
    case StampDoc(doc) =>
      if !doc.JObj? then true
      else
        match GetOr(doc, "last_update", JInt(0))
        case JInt(last) => now - last > Seconds(intervalDays)
        case JBool(b) => now - (if b then 1 else 0) > Seconds(intervalDays)
        case _ => true
  }

  /** For a readable timestamp the decision is exactly "strictly older than
      the interval". */
  lemma ShouldUpdateThreshold(last: int, now: int, intervalDays: int)
    ensures ShouldUpdate(StampDoc(JObj([("last_update", JInt(last))])), now, intervalDays)
        <==> now - last > intervalDays * 86400
  {
  }

  /** Once stale, a database stays stale as time passes. */
  lemma ShouldUpdateMonotone(stamp: Stamp, now: int, later: int, intervalDays: int)
    requires now <= later
    requires ShouldUpdate(stamp, now, intervalDays)
    ensures ShouldUpdate(stamp, later, intervalDays)
  {
  }

  /** A save that fully succeeds makes the database fresh for any
      non-negative interval; a save whose timestamp write fails leaves the
      staleness as it was. */
  lemma SaveResetsStaleness(db: Db, now: int, w: Write, intervalDays: int)
    requires intervalDays >= 0
    ensures w.BothWritten? ==> !ShouldUpdate(Save(db, now, w).stamp, now, intervalDays)
    ensures !w.BothWritten? ==> ShouldUpdate(Save(db, now, w).stamp, now, intervalDays) == ShouldUpdate(db.stamp, now, intervalDays)
  {
  }

  /** The body of the update response: not JSON, JSON that is not an
      object, or a rule document. */
  datatype Body = NotJson | NotAnObject | RuleDoc(store: Store)

  /** The outcome of the HTTP GET: a request failure or a response. */
  datatype Fetch = RequestFailed | Response(status: int, body: Body)

  /** `update`: on success the whole rule map is replaced by the fetched
      one (not merged) and saved, and success is reported even when the
      save fails; otherwise nothing changes. */
  function Update(db: Db, url: string, fetch: Fetch, now: int, w: Write): (r: (Db, bool))
    ensures !r.1 ==> r.0 == db
    ensures r.1 <==> url != "" && fetch.Response? && fetch.status == 200 && fetch.body.RuleDoc?
    ensures r.1 ==> r.0.patterns == fetch.body.store
    ensures r.1 ==> r.0.disk == (if w.NothingWritten? then db.disk else Some(fetch.body.store))
  {
    if url == "" then (db, false)
    else match fetch
      case RequestFailed => (db, false)
      case Response(status, body) =>
        if status != 200 then (db, false)
        else match body
          case NotJson => (db, false)
          case NotAnObject => (db, false)
          case RuleDoc(s) => (Save(db.(patterns := s), now, w), true)
  }

  /** A successful update that is fully saved leaves the database fresh,
      so the next automatic check does not update again; a failed update
      leaves the staleness as it was. */
  lemma UpdateRefreshes(db: Db, url: string, fetch: Fetch, now: int, w: Write, intervalDays: int)
    requires intervalDays >= 0
    ensures var r := Update(db, url, fetch, now, w);
      r.1 && w.BothWritten? ==> !ShouldUpdate(r.0.stamp, now, intervalDays)
    ensures var r := Update(db, url, fetch, now, w);
      !r.1 ==> ShouldUpdate(r.0.stamp, now, intervalDays) == ShouldUpdate(db.stamp, now, intervalDays)
  {
    if Update(db, url, fetch, now, w).1 {
      SaveResetsStaleness(db.(patterns := fetch.body.store), now, w, intervalDays);
    }
  }

  /** The `vulndb` section of the configuration. */
  datatype VulnConfig = VulnConfig(updateUrl: string, autoUpdate: bool, intervalDays: int)

  /** What `_load_patterns` finds on disk. */
  datatype Load = NoFile | LoadFailed | Loaded(store: Store)

  /** The constructor: load the rules (or create and save the defaults),
      then refresh automatically when enabled and stale. `w` is how the
      file system takes the saves of this call. */
  function Open(load: Load, stamp: Stamp, cfg: VulnConfig, fetch: Fetch, now: int, w: Write): (db: Db)
    ensures load.Loaded? && !(cfg.autoUpdate && ShouldUpdate(stamp, now, cfg.intervalDays)) ==> db.patterns == load.store
    ensures !load.Loaded? && w.BothWritten? && cfg.intervalDays >= 0 ==>
      db.patterns == DefaultStore() && db.disk == Some(DefaultStore())
    ensures !load.Loaded? && !cfg.autoUpdate ==>
      db.patterns == DefaultStore() && db.disk == (if w.NothingWritten? then None else Some(DefaultStore()))
  {
    var db0 := match load
      case Loaded(s) => Db(s, Some(s), stamp)
      case _ => Save(Db(DefaultStore(), None, stamp), now, w);
    if cfg.autoUpdate && ShouldUpdate(db0.stamp, now, cfg.intervalDays) then Update(db0, cfg.updateUrl, fetch, now, w).0
    else db0
  }

  /** Opening a stale database with automatic updates on installs the
      fetched rules when the update succeeds, and the database opened is
      then fresh once both writes succeed; when the update fails the
      loaded rules stay. */
  lemma OpenAutoUpdate(store: Store, stamp: Stamp, cfg: VulnConfig, fetch: Fetch, now: int, w: Write)
    requires cfg.autoUpdate && ShouldUpdate(stamp, now, cfg.intervalDays) && cfg.intervalDays >= 0
    ensures var ok := Update(Db(store, Some(store), stamp), cfg.updateUrl, fetch, now, w).1;
      var db := Open(Loaded(store), stamp, cfg, fetch, now, w);
      (ok ==> db.patterns == fetch.body.store)
      && (ok && w.BothWritten? ==> !ShouldUpdate(db.stamp, now, cfg.intervalDays))
      && (!ok ==> db == Db(store, Some(store), stamp))
  {
    UpdateRefreshes(Db(store, Some(store), stamp), cfg.updateUrl, fetch, now, w, cfg.intervalDays);
  }

  /** Merges a batch and, as `_merge_rules` does, saves only when something
      was added (which excludes a merge that raised). */
  function MergeIntoDb(db: Db, batch: Incoming, now: int, w: Write): (r: (Db, nat))
    ensures r.0.patterns == Merge(db.patterns, batch).store && r.1 == Merge(db.patterns, batch).added
    ensures r.1 > 0 ==> r.0.disk == (if w.NothingWritten? then db.disk else Some(r.0.patterns))
    ensures r.1 == 0 ==> r.0.disk == db.disk
  {
    var m := Merge(db.patterns, batch);
    var db1 := db.(patterns := m.store);
    (if m.added > 0 then Save(db1, now, w) else db1, m.added)
  }

  /** `import_json_rules`, `import_semgrep_rules` and `import_semgrep_from_url`
      given the batch (a converted one arrives through `AsIncoming`): merge,
      save, report success. A merge that raised, and a failed download
      (which arrives as an empty batch), are still reported as a success,
      and whatever the merge left in memory is saved. */
  function ImportAndSave(db: Db, batch: Incoming, now: int, w: Write): (r: (Db, bool))
    ensures r.1
    ensures r.0.patterns == Merge(db.patterns, batch).store
    ensures r.0.disk == (if w.NothingWritten? then db.disk else Some(r.0.patterns))
  {
    (Save(MergeIntoDb(db, batch, now, w).0, now, w), true)
  }

  /** `import_github_rules` given what the clone-and-convert step returned:
      merge when the converter counted any rule (saving only when something
      was added), otherwise report failure with a count of 0. */
  function ImportGithub(db: Db, converted: Batch, ruleCount: nat, now: int, w: Write): (r: (Db, bool, nat))
    ensures r.1 <==> ruleCount > 0
    ensures !r.1 ==> r.0 == db && r.2 == 0
    ensures r.1 ==> r.2 == Merge(db.patterns, AsIncoming(converted)).added
  {
    if ruleCount > 0 then
      var m := MergeIntoDb(db, AsIncoming(converted), now, w);
      (m.0, true, m.1)
    else (db, false, 0)
  }

  /** A GitHub import that only updates patterns of existing rules changes
      the rules in memory but leaves the file on disk as it was. */
  lemma GithubUpdatesNotSaved(db: Db, converted: Batch, ruleCount: nat, now: int, w: Write)
    requires ruleCount > 0 && Merge(db.patterns, AsIncoming(converted)).added == 0
    ensures ImportGithub(db, converted, ruleCount, now, w).0.disk == db.disk
  {
  }

  // ---------------------------------------------------------------------
  // The default database

  function DefaultRule(id: string, name: string, pattern: string, description: string, severity: string, language: string): Rule {
    Rule(Some(id), name, pattern, Some(description), Some(severity), None, Some([language]), None, None)
  }

  /** `_create_default_db`. The common rules declare the language `*`. */
  function DefaultStore(): Store {
    map[
      "common" := [
        DefaultRule("common-1", "硬编码密钥", "password|secret|token|api_key|apikey", "检测代码中的硬编码密钥", "high", "*"),
        DefaultRule("common-2", "潜在的SQL注入", "execute|query|select.*from.*where", "检测潜在的SQL注入漏洞", "critical", "*"),
        DefaultRule("common-3", "未处理的异常", "try|catch|except", "检测未适当处理的异常", "medium", "*")],
      "python" := [
        DefaultRule("python-1", "不安全的pickle使用", "pickle\\.loads|pickle\\.load", "检测不安全的pickle使用", "high", "python"),
        DefaultRule("python-2", "os.system命令注入", "os\\.system|subprocess\\.call|eval\\(", "检测潜在的命令注入", "critical", "python")],
      "javascript" := [
        DefaultRule("javascript-1", "不安全的eval使用", "eval\\(|setTimeout\\(.*\\)|setInterval\\(.*\\)", "检测不安全的eval使用", "high", "javascript"),
        DefaultRule("javascript-2", "XSS漏洞", "innerHTML|document\\.write|\\$\\(.*\\)\\.html\\(", "检测潜在的XSS漏洞", "critical", "javascript")],
      "java" := [
        DefaultRule("java-1", "不安全的反序列化", "ObjectInputStream|readObject", "检测不安全的反序列化操作", "high", "java")]
    ]
  }

  /** The default database keeps the store invariants: four non-empty
      buckets with distinct ids, eight rules in all. */
  lemma DefaultStoreWellFormed()
    ensures DefaultStore().Keys == {"common", "python", "javascript", "java"}
    ensures NoEmptyBuckets(DefaultStore()) && UniqueIds(DefaultStore())
    ensures |PatternsFor(DefaultStore(), "Python")| == 5
  {
    DefaultBucketsUnique();
    assert Text.Lower("Python") == "python";
  }

  lemma DefaultBucketsUnique()
    ensures UniqueIds(DefaultStore())
  {
    var s := DefaultStore();
    forall lang, i, j | lang in s && 0 <= i < j < |s[lang]| ensures IdOf(s[lang][i]) != IdOf(s[lang][j]) {
      assert IdOf(s[lang][i])[|IdOf(s[lang][i])| - 1] != IdOf(s[lang][j])[|IdOf(s[lang][j])| - 1];
    }
  }
}

=== FILE: scanner.dfy ===
/** `CodeScanner.scan_file`, `scan_directory` and `create_merge_scan_result`
    in `codescan/scanner.py`: one file's result, the fold of the per-file
    results into directory statistics, the progress reports, and the result
    of a merge scan. The clock, the worker pool and the filesystem are
    parameters. */
module Scanner {
  import opened Wrappers
  import Text
  import opened Json
  import Counter
  import FileUtils
  import Rules
  import opened Findings
  import Walk
  import Analysis

  // ---------------------------------------------------------------------
  // Counting lines

  function NewlineCount(s: string): nat {
    if |s| == 0 then 0 else (if s[0] == '\n' then 1 else 0) + NewlineCount(s[1..])
  }

  /** `count_lines`: the number of lines iterating over the text yields; a
      last line without a newline still counts. */
  function CountLines(content: string): (r: nat)
    ensures r <= |content|
  {
    NewlineCountBound(content);
    if |content| == 0 then 0
    else NewlineCount(content) + (if content[|content| - 1] == '\n' then 0 else 1)
  }

  lemma {:induction false} NewlineCountBound(s: string)
    ensures NewlineCount(s) <= |s|
    ensures |s| > 0 && s[|s| - 1] != '\n' ==> NewlineCount(s) < |s|
  {
    if |s| > 0 {
      NewlineCountBound(s[1..]);
    }
  }

  lemma {:induction false} NewlineCountConcat(a: string, b: string)
    ensures NewlineCount(a + b) == NewlineCount(a) + NewlineCount(b)
  {
    if |a| == 0 {
      assert a + b == b;
    } else {
      assert (a + b)[1..] == a[1..] + b;
      NewlineCountConcat(a[1..], b);
    }
  }

  /** Splitting on newlines gives one more piece than there are newlines. */
  lemma {:induction false} SplitPieces(s: string)
    ensures |Text.Split(s, '\n')| == NewlineCount(s) + 1
    decreases |s|
  {
    var k := Text.Find(s, '\n');
    if k == -1 {
      NoNewlines(s);
    } else {
      SplitPieces(s[k + 1..]);
      assert s == s[..k] + ([s[k]] + s[k + 1..]);
      NewlineCountConcat(s[..k], [s[k]] + s[k + 1..]);
      NewlineCountConcat([s[k]], s[k + 1..]);
      NoNewlines(s[..k]);
    }
  }

  lemma {:induction false} NoNewlines(s: string)
    requires !Text.Contains(s, '\n')
    ensures NewlineCount(s) == 0
  {
    if |s| > 0 {
      NoNewlines(s[1..]);
    }
  }

  /** The line count is the number of pieces `split("\n")` gives, less the
      empty piece after a final newline (or of an empty text). */
  lemma LineCountMatchesSplit(content: string)
    ensures CountLines(content) ==
      |Analysis.Lines(content)| - (if |content| == 0 || content[|content| - 1] == '\n' then 1 else 0)
  {
    SplitPieces(content);
  }

  // ---------------------------------------------------------------------
  // One file

  /** What the filesystem says about a path: nothing, or a regular file
      with its size, MIME guess, first bytes, and its text or the message
      of the error reading it raised. */
  datatype PathState =
    | NoFile
    | File(size: nat, mime: Option<string>, head: Option<seq<FileUtils.Byte>>, text: Result<string, string>)

  /** What the file analysis depends on besides the file: the rule store,
      the adapter's reply for each file, `json.loads` and `re`. */
  datatype Oracles = Oracles(store: Rules.Store, reply: string -> Analysis.Reply,
                             parse: string -> Option<Json>, regex: Analysis.Regex)

  function Info(f: PathState): Walk.FileInfo
    requires f.File?
  {
    Walk.Regular(f.size, f.mime, f.head)
  }

  /** The statistics of a file that was read and analysed. */
  function FileStats(path: string, content: string, size: nat): Json {
    JObj([("lines_of_code", JInt(CountLines(content))),
          ("language", JStr(FileUtils.Language(path))),
          ("file_size_bytes", JInt(size))])
  }

  /** `scan_file`: a missing file raises; an excluded file gives a result
      without findings or statistics; a file that cannot be read gives one
      whose statistics hold the error; otherwise the analysis's findings and
      the file's statistics. `projectInfo` stands for the file description
      the heuristics build, which is not modelled. */
  function ScanFile(cfg: Walk.ScanConfig, path: string, f: PathState, o: Oracles,
                    now: int, projectInfo: Json): (r: Result<ScanResult, string>)
    ensures r.Err? <==> f.NoFile?
    ensures r.Ok? ==> r.value.scanPath == path && r.value.scanType == "file" && r.value.timestamp == now
    ensures r.Ok? && Walk.ShouldExclude(cfg, path, Info(f)) ==>
      r.value.issues == [] && r.value.stats == JObj([])
  {
    if f.NoFile? then Err("文件不存在: " + path)
    else
      var id := "file_" + Text.IntToString(now);
      if Walk.ShouldExclude(cfg, path, Info(f)) then
        Ok(ScanResult(id, path, "file", now, [], JObj([]), JObj([])))
      else match f.text
        case Err(message) =>
          Ok(ScanResult(id + "_error", path, "file", now, [], JObj([("error", JStr(message))]), JObj([])))
        case Ok(content) =>
          var issues := Analysis.AnalyzeFile(path, content, o.store, o.reply(path), o.parse, o.regex);
          Ok(ScanResult(id, path, "file", now, issues, FileStats(path, content, f.size), projectInfo))
  }

  /** A readable file that is not excluded is analysed in full, and its
      statistics give its line count, language and size. */
  lemma ScannedFileStats(cfg: Walk.ScanConfig, path: string, f: PathState, o: Oracles, now: int, projectInfo: Json)
    requires f.File? && f.text.Ok? && !Walk.ShouldExclude(cfg, path, Info(f))
    ensures var r := ScanFile(cfg, path, f, o, now, projectInfo).value;
      && r.issues == Analysis.AnalyzeFile(path, f.text.value, o.store, o.reply(path), o.parse, o.regex)
      && Get(r.stats, "lines_of_code") == Some(JInt(CountLines(f.text.value)))
      && Get(r.stats, "language") == Some(JStr(FileUtils.Language(path)))
      && Get(r.stats, "file_size_bytes") == Some(JInt(f.size))
  {
    var content := f.text.value;
    var issues := Analysis.AnalyzeFile(path, content, o.store, o.reply(path), o.parse, o.regex);
    assert ScanFile(cfg, path, f, o, now, projectInfo).value.issues == issues;
    assert ScanFile(cfg, path, f, o, now, projectInfo).value.stats == FileStats(path, content, f.size);
    FileStatsRead(path, content, f.size);
  }

  lemma FileStatsRead(path: string, content: string, size: nat)
    ensures var s := FileStats(path, content, size);
      && Get(s, "lines_of_code") == Some(JInt(CountLines(content)))
      && Get(s, "language") == Some(JStr(FileUtils.Language(path)))
      && Get(s, "file_size_bytes") == Some(JInt(size))
  {
    var fs := FileStats(path, content, size).fields;
    assert |fs[0].0| == 13 && |fs[1].0| == 8 && |fs[2].0| == 15;
    LookupFirst(fs, 0);
    LookupFirst(fs, 1);
    LookupFirst(fs, 2);
  }

  // ---------------------------------------------------------------------
  // Folding the results of a directory scan

  /** One finished job of the pool: the file and what `future.result()`
      gave, or the message of what it raised. */
  datatype Completed = Completed(path: string, outcome: Result<ScanResult, string>)

  /** The running state of the `as_completed` loop. */
  datatype Totals = Totals(issues: seq<Issue>, lines: int, languages: Counter.Counts,
                           extensions: Counter.Counts, done: nat)

  /** The line count a result's statistics report, if any. */
  function LinesOf(stats: Json): int {
    match Get(stats, "lines_of_code")
    case Some(JInt(n)) => n
    case _ => 0
  }

  /** The language a result's statistics report, if any. */
  function LanguageOf(stats: Json): seq<string> {
    match Get(stats, "language")
    case Some(JStr(l)) => [l]
    case _ => []
  }

  /** One turn of the loop: a result that raised only advances the count; any
      other result contributes its findings, line count and language, and
      its extension (`splitext(path)[1].lower()`, the empty string for a
      file without one). */
  function Step(t: Totals, c: Completed): Totals {
    match c.outcome
    case Err(_) => t.(done := t.done + 1)
    case Ok(r) =>
      Totals(t.issues + r.issues, t.lines + LinesOf(r.stats),
             Counter.TallyInto(t.languages, LanguageOf(r.stats)),
             Counter.Bump(t.extensions, FileUtils.Ext(c.path)), t.done + 1)
  }

  /** The loop over the results in the order they completed. */
  function Fold(cs: seq<Completed>): Totals {
    if |cs| == 0 then Totals([], 0, [], [], 0)
    else Step(Fold(cs[..|cs| - 1]), cs[|cs| - 1])
  }

  // The same quantities, each a function of one result, summed or
  // concatenated over all results.

  function IssuesOf(c: Completed): seq<Issue> {
    if c.outcome.Ok? then c.outcome.value.issues else []
  }

  function LanguagesOf(c: Completed): seq<string> {
    if c.outcome.Ok? then LanguageOf(c.outcome.value.stats) else []
  }

  function ExtensionsOf(c: Completed): seq<string> {
    if c.outcome.Ok? then [FileUtils.Ext(c.path)] else []
  }

  function LineCountOf(c: Completed): int {
    if c.outcome.Ok? then LinesOf(c.outcome.value.stats) else 0
  }

  function FlatMap<T>(cs: seq<Completed>, f: Completed -> seq<T>): seq<T> {
    if |cs| == 0 then [] else FlatMap(cs[..|cs| - 1], f) + f(cs[|cs| - 1])
  }

  function Sum(cs: seq<Completed>, g: Completed -> int): int {
    if |cs| == 0 then 0 else Sum(cs[..|cs| - 1], g) + g(cs[|cs| - 1])
  }

  /** The fold's totals are the concatenation of every result's findings,
      the sum of their line counts, and the tallies of their languages and
      extensions. */
  lemma {:induction false} FoldTotals(cs: seq<Completed>)
    ensures var t := Fold(cs);
      && t.issues == FlatMap(cs, IssuesOf)
      && t.lines == Sum(cs, LineCountOf)
      && t.languages == Counter.Tally(FlatMap(cs, LanguagesOf))
      && t.extensions == Counter.Tally(FlatMap(cs, ExtensionsOf))
      && t.done == |cs|
  {
    if |cs| > 0 {
      var init := cs[..|cs| - 1];
      var c := cs[|cs| - 1];
      FoldTotals(init);
      TallyAppend(FlatMap(init, LanguagesOf), LanguagesOf(c));
      TallyAppend(FlatMap(init, ExtensionsOf), ExtensionsOf(c));
    }
  }

  /** Counting more keys continues from the counts so far. */
  lemma {:induction false} TallyAppend(a: seq<string>, b: seq<string>)
    ensures Counter.Tally(a + b) == Counter.TallyInto(Counter.Tally(a), b)
    decreases |b|
  {
    if |b| == 0 {
      assert a + b == a;
    } else {
      var b' := b[..|b| - 1];
      TallyAppend(a, b');
      assert (a + b)[..|a + b| - 1] == a + b';
    }
  }

  lemma {:induction false} FlatMapConcat<T>(a: seq<Completed>, b: seq<Completed>, f: Completed -> seq<T>)
    ensures FlatMap(a + b, f) == FlatMap(a, f) + FlatMap(b, f)
    decreases |b|
  {
    if |b| == 0 {
      assert a + b == a;
    } else {
      FlatMapConcat(a, b[..|b| - 1], f);
      DropLast(a, b);
      var x := f(b[|b| - 1]);
      assert FlatMap(a + b, f) == FlatMap(a, f) + FlatMap(b[..|b| - 1], f) + x;
      AppendAssoc(FlatMap(a, f), FlatMap(b[..|b| - 1], f), x);
    }
  }

  /** Dropping the last element of a concatenation drops it from the second part. */
  lemma DropLast<T>(a: seq<T>, b: seq<T>)
    requires |b| > 0
    ensures (a + b)[..|a + b| - 1] == a + b[..|b| - 1] && (a + b)[|a + b| - 1] == b[|b| - 1]
  {
  }

  lemma AppendAssoc<T>(x: seq<T>, y: seq<T>, z: seq<T>)
    ensures x + y + z == x + (y + z)
  {
  }

  lemma {:induction false} SumConcat(a: seq<Completed>, b: seq<Completed>, g: Completed -> int)
    ensures Sum(a + b, g) == Sum(a, g) + Sum(b, g)
    decreases |b|
  {
    if |b| == 0 {
      assert a + b == a;
    } else {
      SumConcat(a, b[..|b| - 1], g);
      DropLast(a, b);
    }
  }

  /** Taking one result out of the middle of a list. */
  lemma Remove(b: seq<Completed>, i: nat)
    requires i < |b|
    ensures b == b[..i] + [b[i]] + b[i + 1..] == b[..i] + ([b[i]] + b[i + 1..])
    ensures multiset(b[..i] + b[i + 1..]) == multiset(b) - multiset{b[i]}
  {
    assert b == b[..i] + [b[i]] + b[i + 1..];
  }

  /** Splitting off the last result. */
  lemma LastOf(a: seq<Completed>)
    requires |a| > 0
    ensures a == a[..|a| - 1] + [a[|a| - 1]]
    ensures multiset(a[..|a| - 1]) == multiset(a) - multiset{a[|a| - 1]}
  {
    assert a == a[..|a| - 1] + [a[|a| - 1]];
  }

  /** Rearranging the results rearranges what they contribute. */
  lemma {:induction false} FlatMapRearranged<T>(a: seq<Completed>, b: seq<Completed>, f: Completed -> seq<T>)
    requires multiset(a) == multiset(b)
    ensures multiset(FlatMap(a, f)) == multiset(FlatMap(b, f))
    decreases |a|
  {
    if |a| == 0 {
      assert |b| == 0;
    } else {
      var init, x, i := Pick(a, b);
      var rest := b[..i] + b[i + 1..];
      FlatMapRearranged(init, rest, f);
      FlatMapConcat(b[..i], [x] + b[i + 1..], f);
      FlatMapConcat([x], b[i + 1..], f);
      FlatMapConcat(b[..i], b[i + 1..], f);
      assert FlatMap([x], f) == f(x) by {
        assert [x][..0] == [];
      }
    }
  }

  lemma {:induction false} SumRearranged(a: seq<Completed>, b: seq<Completed>, g: Completed -> int)
    requires multiset(a) == multiset(b)
    ensures Sum(a, g) == Sum(b, g)
    decreases |a|
  {
    if |a| == 0 {
      assert |b| == 0;
    } else {
      var init, x, i := Pick(a, b);
      var rest := b[..i] + b[i + 1..];
      SumRearranged(init, rest, g);
      SumConcat(b[..i], [x] + b[i + 1..], g);
      SumConcat([x], b[i + 1..], g);
      SumConcat(b[..i], b[i + 1..], g);
      assert Sum([x], g) == g(x) by {
        assert [x][..0] == [];
      }
    }
  }

  /** The last result of `a` and where it sits in its rearrangement `b`. */
  lemma Pick(a: seq<Completed>, b: seq<Completed>) returns (init: seq<Completed>, x: Completed, i: nat)
    requires |a| > 0 && multiset(a) == multiset(b)
    ensures init == a[..|a| - 1] && x == a[|a| - 1] && a == init + [x]
    ensures i < |b| && b[i] == x && b == b[..i] + ([x] + b[i + 1..])
    ensures multiset(init) == multiset(b[..i] + b[i + 1..])
  {
    init := a[..|a| - 1];
    x := a[|a| - 1];
    LastOf(a);
    assert x in multiset(b);
    i :| 0 <= i < |b| && b[i] == x;
    Remove(b, i);
  }

  /** The worker pool only decides the order the results are folded in, and
      that order does not matter: two completion orders of the same results
      give the same findings (as a multiset), the same line total and the
      same language and extension dicts. */
  lemma CompletionOrderIrrelevant(a: seq<Completed>, b: seq<Completed>)
    requires multiset(a) == multiset(b)
    ensures multiset(Fold(a).issues) == multiset(Fold(b).issues)
    ensures Fold(a).lines == Fold(b).lines
    ensures Counter.AsMap(Fold(a).languages) == Counter.AsMap(Fold(b).languages)
    ensures Counter.AsMap(Fold(a).extensions) == Counter.AsMap(Fold(b).extensions)
    ensures Fold(a).done == Fold(b).done
  {
    FoldTotals(a);
    FoldTotals(b);
    FlatMapRearranged(a, b, IssuesOf);
    SumRearranged(a, b, LineCountOf);
    FlatMapRearranged(a, b, LanguagesOf);
    FlatMapRearranged(a, b, ExtensionsOf);
    Counter.TallyOrderIndependent(FlatMap(a, LanguagesOf), FlatMap(b, LanguagesOf));
    Counter.TallyOrderIndependent(FlatMap(a, ExtensionsOf), FlatMap(b, ExtensionsOf));
    assert |a| == |multiset(a)| == |b|;
  }

  // ---------------------------------------------------------------------
  // Progress

  /** The percentage reported after `k` of `n` files: `10 + int(70.0 * k / n)`. */
  function Progress(k: nat, n: nat): int
    requires n > 0
  {
    10 + (70 * k) / n
  }

  /** While files complete the percentage stays between 10 and 80, never
      goes down, and reaches 80 with the last file. */
  lemma ProgressBounds(k: nat, n: nat)
    requires 0 < n && k <= n
    ensures 10 <= Progress(k, n) <= 80
    ensures k == n ==> Progress(k, n) == 80
  {
    DivBounds(70 * k, n, 70);
  }

  lemma DivBounds(a: nat, n: nat, c: nat)
    requires 0 < n && a <= c * n
    ensures 0 <= a / n <= c
    ensures a == c * n ==> a / n == c
  {
    DivAtMost(a, n, c);
    if a == c * n {
      DivExact(n, c);
    }
  }

  lemma DivAtMost(a: nat, n: nat, c: nat)
    requires 0 < n && a <= c * n
    ensures a / n <= c
  {
    var q := a / n;
    assert n * q <= a;
    MulSucc(n, c);
    MulCancel(n, q, c + 1);
  }

  lemma DivExact(n: nat, c: nat)
    requires 0 < n
    ensures (c * n) / n == c
  {
    var q := (c * n) / n;
    var r := (c * n) % n;
    assert n * c == n * q + r && r < n;
    MulSucc(n, q);
    MulCancel(n, c, q + 1);
    MulSucc(n, c);
    MulCancel(n, q, c + 1);
  }

  lemma MulSucc(n: nat, x: int)
    ensures n * (x + 1) == n * x + n
  {
  }

  lemma MulLe(n: nat, x: int, y: int)
    requires x <= y
    ensures n * x <= n * y
  {
  }

  /** Dividing a strict inequality by a positive factor. */
  lemma MulCancel(n: nat, x: int, y: int)
    requires 0 < n && n * x < n * y
    ensures x < y
  {
    if x >= y {
      MulLe(n, y, x);
    }
  }

  lemma ProgressMonotone(j: nat, k: nat, n: nat)
    requires 0 < n && j <= k
    ensures Progress(j, n) <= Progress(k, n)
  {
    DivMonotone(70 * j, 70 * k, n);
  }

  lemma DivMonotone(a: nat, b: nat, n: nat)
    requires 0 < n && a <= b
    ensures a / n <= b / n
  {
    assert a == n * (a / n) + a % n && b == n * (b / n) + b % n;
    MulCancel(n, a / n, b / n + 1);
  }

  /** The percentages reported while `done` of `n` files complete. */
  function FileProgress(done: nat, n: nat): (r: seq<int>)
    requires n > 0
    ensures |r| == done
  {
    seq(done, k requires 0 <= k < done => Progress(k + 1, n))
  }

  /** Everything reported to the callback, in order: 5 when collecting, 10
      when the files are known, then 100 at once when there are none;
      otherwise one report per completed file, 85, 90, and finally 95, or 100
      when building the project summary raised. */
  function Reports(n: nat, done: nat, summaryFails: bool): (r: seq<int>)
  {
    if n == 0 then [5, 10, 100]
    else [5, 10] + FileProgress(done, n) + [85, 90] + [if summaryFails then 100 else 95]
  }

  /** With every file reported once, the reports never go down, stay within
      0..100, and end at 95 or 100. */
  lemma ReportsRise(n: nat, summaryFails: bool)
    ensures var r := Reports(n, n, summaryFails);
      (forall i, j :: 0 <= i <= j < |r| ==> r[i] <= r[j])
      && (forall i :: 0 <= i < |r| ==> 0 <= r[i] <= 100)
      && r[|r| - 1] == (if n > 0 && !summaryFails then 95 else 100)
  {
    if n > 0 {
      var p := FileProgress(n, n);
      var r := Reports(n, n, summaryFails);
      forall k | 0 <= k < n ensures 10 <= p[k] <= 80 {
        ProgressBounds(k + 1, n);
      }
      forall i, j | 0 <= i <= j < n ensures p[i] <= p[j] {
        ProgressMonotone(i + 1, j + 1, n);
      }
      assert forall k :: 0 <= k < n ==> r[k + 2] == p[k];
      assert r[n + 2] == 85 && r[n + 3] == 90 && |r| == n + 5;
    }
  }

  // ---------------------------------------------------------------------
  // A directory scan

  /** A counting dict as the JSON dict it is stored as. */
  function CountsJson(c: Counter.Counts): (r: Json)
    ensures r.JObj? && |r.fields| == |c|
    ensures forall i :: 0 <= i < |c| ==> r.fields[i] == (c[i].0, JInt(c[i].1))
  {
    JObj(seq(|c|, i requires 0 <= i < |c| => (c[i].0, JInt(c[i].1))))
  }

  /** The statistics of a directory scan from the folded totals. */
  function DirectoryStats(n: nat, t: Totals): Json {
    JObj([("total_files", JInt(n)), ("total_lines_of_code", JInt(t.lines)),
          ("languages", CountsJson(t.languages)), ("file_extensions", CountsJson(t.extensions))])
  }

  const NoFilesMessage: string := "没有找到可扫描的文件"

  /** One pool result per collected file, in collection order: the file
      and what `scan_file` gave for it. */
  function PerFile(files: seq<string>, scan: string -> Result<ScanResult, string>): (r: seq<Completed>)
    ensures |r| == |files|
    ensures forall i :: 0 <= i < |files| ==> r[i] == Completed(files[i], scan(files[i]))
  {
    seq(|files|, i requires 0 <= i < |files| => Completed(files[i], scan(files[i])))
  }

  /** The pool submits one `scan_file` per collected file and `as_completed`
      yields each future once: the completed results are the per-file
      results in some order. */
  predicate FromFiles(files: seq<string>, completed: seq<Completed>, scan: string -> Result<ScanResult, string>) {
    multiset(completed) == multiset(PerFile(files, scan))
  }

  /** `scan_directory`: a missing directory raises; an empty file list gives
      a result whose statistics hold an error; otherwise the results, in the
      order the pool completed them, are folded into the findings and the
      statistics. When building the project summary raises, its message
      replaces the statistics but the findings stay. Returns the result and
      the progress reports. `scan` is what `scan_file` gives for each path,
      and `completed` is the order the pool finished them in. */
  function ScanDirectory(dirPath: string, isDir: bool, files: seq<string>, scan: string -> Result<ScanResult, string>,
                         completed: seq<Completed>, now: int, summary: Result<Json, string>): (r: Result<(ScanResult, seq<int>), string>)
    requires FromFiles(files, completed, scan)
    ensures |completed| == |files|
    ensures r.Err? <==> !isDir
    ensures r.Ok? ==>
      r.value.0.scanPath == dirPath && r.value.0.scanType == "directory"
      && r.value.1 == Reports(|files|, |files|, summary.Err?)
  {
    assert |completed| == |multiset(completed)| == |PerFile(files, scan)|;
    if !isDir then Err("目录不存在: " + dirPath)
    else
      var id := "dir_" + Text.IntToString(now);
      if |files| == 0 then
        Ok((ScanResult(id, dirPath, "directory", now, [], JObj([("error", JStr(NoFilesMessage))]), JObj([])),
            Reports(0, 0, false)))
      else
        var t := Fold(completed);
        match summary
        case Err(message) =>
          Ok((ScanResult(id, dirPath, "directory", now, t.issues, JObj([("error", JStr(message))]), JObj([])),
              Reports(|files|, |completed|, true)))
        case Ok(info) =>
          Ok((ScanResult(id, dirPath, "directory", now, t.issues, DirectoryStats(|files|, t), info),
              Reports(|files|, |completed|, false)))
  }

  /** The findings of a directory scan are every file's findings, and the
      statistics count every file collected, the lines and languages the
      file results report, and the extension of every file that did not
      raise. */
  lemma DirectoryResult(dirPath: string, files: seq<string>, scan: string -> Result<ScanResult, string>,
                         completed: seq<Completed>, now: int, info: Json)
    requires |files| > 0 && FromFiles(files, completed, scan)
    ensures var r := ScanDirectory(dirPath, true, files, scan, completed, now, Ok(info)).value.0;
      && multiset(r.issues) == multiset(FlatMap(PerFile(files, scan), IssuesOf))
      && Sum(completed, LineCountOf) == Sum(PerFile(files, scan), LineCountOf)
    ensures var r := ScanDirectory(dirPath, true, files, scan, completed, now, Ok(info)).value.0;
      && r.issues == FlatMap(completed, IssuesOf)
      && r.stats == JObj([("total_files", JInt(|files|)),
                          ("total_lines_of_code", JInt(Sum(completed, LineCountOf))),
                          ("languages", CountsJson(Counter.Tally(FlatMap(completed, LanguagesOf)))),
                          ("file_extensions", CountsJson(Counter.Tally(FlatMap(completed, ExtensionsOf))))])
      && r.projectInfo == info
  {
    FoldTotals(completed);
    FlatMapRearranged(completed, PerFile(files, scan), IssuesOf);
    SumRearranged(completed, PerFile(files, scan), LineCountOf);
  }

  /** Two scans of the same directory that differ only in the order the
      pool completed the files agree on the findings as a multiset and on
      the statistics as dicts. */
  lemma DirectoryScanOrderFree(dirPath: string, files: seq<string>, scan: string -> Result<ScanResult, string>,
                               a: seq<Completed>, b: seq<Completed>, now: int, summary: Result<Json, string>)
    requires FromFiles(files, a, scan) && FromFiles(files, b, scan)
    requires |files| > 0
    ensures var ra := ScanDirectory(dirPath, true, files, scan, a, now, summary).value;
      var rb := ScanDirectory(dirPath, true, files, scan, b, now, summary).value;
      && multiset(ra.0.issues) == multiset(rb.0.issues)
      && ra.1 == rb.1
      && (summary.Err? ==> ra.0.stats == rb.0.stats)
      && (summary.Ok? ==>
            ra.0.stats == DirectoryStats(|files|, Fold(a)) && rb.0.stats == DirectoryStats(|files|, Fold(b))
            && Fold(a).lines == Fold(b).lines
            && Counter.AsMap(Fold(a).languages) == Counter.AsMap(Fold(b).languages)
            && Counter.AsMap(Fold(a).extensions) == Counter.AsMap(Fold(b).extensions))
  {
    CompletionOrderIrrelevant(a, b);
    assert |a| == |multiset(a)| == |b|;
    var ra := ScanDirectory(dirPath, true, files, scan, a, now, summary).value;
    var rb := ScanDirectory(dirPath, true, files, scan, b, now, summary).value;
    assert ra.0.issues == Fold(a).issues && rb.0.issues == Fold(b).issues;
  }

  /** A directory with nothing to scan reports the error and jumps to 100. */
  lemma EmptyDirectory(dirPath: string, scan: string -> Result<ScanResult, string>, now: int, summary: Result<Json, string>)
    ensures var r := ScanDirectory(dirPath, true, [], scan, [], now, summary).value;
      r.0.issues == [] && Get(r.0.stats, "error") == Some(JStr(NoFilesMessage)) && r.1 == [5, 10, 100]
  {
  }

  /** With one result per collected file, `total_files` is the number of
      results folded, the per-file reports end at exactly 80, and the whole
      report sequence never goes down and stays within 0..100. */
  lemma DirectoryProgress(dirPath: string, files: seq<string>, scan: string -> Result<ScanResult, string>,
                          completed: seq<Completed>, now: int, summary: Result<Json, string>)
    requires FromFiles(files, completed, scan) && |files| > 0
    ensures var r := ScanDirectory(dirPath, true, files, scan, completed, now, summary).value;
      && Fold(completed).done == |files|
      && |r.1| == |files| + 5 && r.1[|files| + 1] == 80
      && (forall i, j :: 0 <= i <= j < |r.1| ==> r.1[i] <= r.1[j])
      && (forall i :: 0 <= i < |r.1| ==> 0 <= r.1[i] <= 100)
  {
    var n := |files|;
    var rep := Reports(n, n, summary.Err?);
    assert ScanDirectory(dirPath, true, files, scan, completed, now, summary).value.1 == rep;
    FoldDone(completed);
    ReportsRise(n, summary.Err?);
    ProgressBounds(n, n);
    assert rep[n + 1] == FileProgress(n, n)[n - 1];
  }

  lemma {:induction false} FoldDone(cs: seq<Completed>)
    ensures Fold(cs).done == |cs|
  {
    if |cs| > 0 {
      FoldDone(cs[..|cs| - 1]);
    }
  }

  // ---------------------------------------------------------------------
  // The result of a merge scan

  /** `os.path.join(a, b)` on POSIX: an absolute `b` replaces `a`. */
  function PathJoin(a: string, b: string): string {
    if Text.StartsWith(b, "/") then b
    else if |a| == 0 || a[|a| - 1] == '/' then a + b
    else a + "/" + b
  }

  /** The text of each changed file that exists under the base path. */
  function Existing(basePath: string, diffFiles: seq<string>, read: string -> Option<string>): (r: seq<(string, string)>)
    ensures |r| <= |diffFiles|
    ensures forall k :: 0 <= k < |r| ==> r[k].0 in diffFiles && read(PathJoin(basePath, r[k].0)) == Some(r[k].1)
  {
    if |diffFiles| == 0 then []
    else
      var rest := Existing(basePath, diffFiles[1..], read);
      match read(PathJoin(basePath, diffFiles[0]))
      case None => rest
      case Some(text) => [(diffFiles[0], text)] + rest
  }

  function SumLines(fs: seq<(string, string)>): nat {
    if |fs| == 0 then 0 else CountLines(fs[0].1) + SumLines(fs[1..])
  }

  function MergeLanguages(basePath: string, fs: seq<(string, string)>): (r: seq<string>)
    ensures |r| == |fs|
  {
    seq(|fs|, k requires 0 <= k < |fs| => FileUtils.Language(PathJoin(basePath, fs[k].0)))
  }

  function MergeExtensions(fs: seq<(string, string)>): (r: seq<string>)
    ensures |r| == |fs|
  {
    seq(|fs|, k requires 0 <= k < |fs| => FileUtils.Ext(fs[k].0))
  }

  /** `create_merge_scan_result`: the findings are kept as given; the
      statistics count every changed file in `total_files` but take lines,
      languages and extensions only from those that exist; the project
      information lists the changed files. */
  function MergeResult(basePath: string, scanId: string, issues: seq<Issue>, diffFiles: seq<string>,
                       read: string -> Option<string>, now: int): ScanResult
  {
    var fs := Existing(basePath, diffFiles, read);
    var stats := JObj([("total_files", JInt(|diffFiles|)),
                       ("total_lines_of_code", JInt(SumLines(fs))),
                       ("languages", CountsJson(Counter.Tally(MergeLanguages(basePath, fs)))),
                       ("file_extensions", CountsJson(Counter.Tally(MergeExtensions(fs))))]);
    var names := seq(|diffFiles|, k requires 0 <= k < |diffFiles| => JStr(diffFiles[k]));
    ScanResult(scanId, basePath, "git-merge", now, issues, stats,
               JObj([("merge_info", JObj([("diff_files", JList(names))]))]))
  }

  /** The language and extension dicts each count exactly the changed files
      that exist, which may be fewer than `total_files`. */
  lemma MergeCounts(basePath: string, scanId: string, issues: seq<Issue>, diffFiles: seq<string>,
                    read: string -> Option<string>, now: int)
    ensures var r := MergeResult(basePath, scanId, issues, diffFiles, read, now);
      var fs := Existing(basePath, diffFiles, read);
      && r.issues == issues && r.scanType == "git-merge"
      && Counter.Total(Counter.Tally(MergeLanguages(basePath, fs))) == |fs|
      && Counter.Total(Counter.Tally(MergeExtensions(fs))) == |fs|
      && |fs| <= |diffFiles|
  {
    var fs := Existing(basePath, diffFiles, read);
    Counter.TallyTotal(MergeLanguages(basePath, fs));
    Counter.TallyTotal(MergeExtensions(fs));
  }

  /** When every changed file exists, each is counted once. */
  lemma {:induction false} AllExisting(basePath: string, diffFiles: seq<string>, read: string -> Option<string>)
    requires forall f :: f in diffFiles ==> read(PathJoin(basePath, f)).Some?
    ensures |Existing(basePath, diffFiles, read)| == |diffFiles|
  {
    if |diffFiles| > 0 {
      assert diffFiles[0] in diffFiles;
      assert forall f :: f in diffFiles[1..] ==> f in diffFiles;
      AllExisting(basePath, diffFiles[1..], read);
    }
  }
}

=== FILE: semgrep.dfy ===
/** The Semgrep rule converter of `codescan/semgrep_converter.py`: the
    pattern precedence chain, the never-drop fallback, the
    sanitise-then-escape pipeline, the accepted file shapes, and the
    bucketing of converted rules by lower-cased language. */
module Semgrep {
  import opened Wrappers
  import opened Json
  import Text
  import opened Rules

  // ---------------------------------------------------------------------
  // `re.escape`

  /** The characters Python's `re.escape` prefixes with a backslash. */
  predicate Special(c: char) {
    c == '(' || c == ')' || c == '[' || c == ']' || c == '{' || c == '}'
    || c == '?' || c == '*' || c == '+' || c == '-' || c == '|' || c == '^'
    || c == '$' || c == '\\' || c == '.' || c == '&' || c == '~' || c == '#'
    || c == ' ' || c == '\t' || c == '\n' || c == '\r' || c == '\U{000B}' || c == '\U{000C}'
  }

  /** `re.escape`: a per-character map. */
  function Escape(s: string): (r: string)
    ensures |r| >= |s|
  {
    if |s| == 0 then ""
    else (if Special(s[0]) then ['\\', s[0]] else [s[0]]) + Escape(s[1..])
  }

  /** A string in which every special character is preceded by a backslash
      that escapes it, and every backslash escapes a special character. */
  predicate WellEscaped(t: string)
    decreases |t|
  {
    if |t| == 0 then true
    else if t[0] == '\\' then |t| >= 2 && Special(t[1]) && WellEscaped(t[2..])
    else !Special(t[0]) && WellEscaped(t[1..])
  }

  /** Reads an escaped string back. */
  function Unescape(t: string): string
    decreases |t|
  {
    if |t| == 0 then ""
    else if t[0] == '\\' && |t| >= 2 then [t[1]] + Unescape(t[2..])
    else [t[0]] + Unescape(t[1..])
  }

  /** Escaping makes every regex metacharacter a literal and loses nothing:
      reading the result back gives the input. */
  lemma {:induction false} EscapeRoundTrip(s: string)
    ensures WellEscaped(Escape(s))
    ensures Unescape(Escape(s)) == s
  {
    if |s| > 0 {
      EscapeRoundTrip(s[1..]);
      var t := Escape(s);
      if Special(s[0]) {
        assert t[2..] == Escape(s[1..]);
      } else {
        assert t[1..] == Escape(s[1..]);
      }
    }
  }

  /** Conversely every well-escaped string is the escape of what it reads
      back as. */
  lemma {:induction false} UnescapeRoundTrip(t: string)
    requires WellEscaped(t)
    ensures Escape(Unescape(t)) == t
    decreases |t|
  {
    if |t| > 0 {
      if t[0] == '\\' {
        UnescapeRoundTrip(t[2..]);
        assert Unescape(t)[1..] == Unescape(t[2..]);
        assert t == t[..2] + t[2..];
      } else {
        UnescapeRoundTrip(t[1..]);
        assert Unescape(t)[1..] == Unescape(t[1..]);
        assert t == [t[0]] + t[1..];
      }
    }
  }

  lemma {:induction false} EscapeConcat(a: string, b: string)
    ensures Escape(a + b) == Escape(a) + Escape(b)
  {
    if |a| > 0 {
      assert (a + b)[1..] == a[1..] + b;
      EscapeConcat(a[1..], b);
    } else {
      assert a + b == b;
    }
  }

  // ---------------------------------------------------------------------
  // Metavariables and ellipses

  predicate MetaChar(c: char) {
    ('A' <= c <= 'Z') || c == '_'
  }

  /** Length of the longest prefix made of `[A-Z_]`. */
  function MetaRun(s: string): (n: nat)
    ensures n <= |s|
    ensures forall i :: 0 <= i < n ==> MetaChar(s[i])
    ensures n < |s| ==> !MetaChar(s[n])
  {
    if |s| > 0 && MetaChar(s[0]) then 1 + MetaRun(s[1..]) else 0
  }

  /** `re.sub(r'[$][A-Z_]+', '', s)`: every `$` followed by a maximal run of
      capitals and underscores is removed, scanning left to right. */
  function StripMetavars(s: string): (r: string)
    ensures |r| <= |s|
    decreases |s|
  {
    if |s| == 0 then ""
    else if s[0] == '$' && |s| >= 2 && MetaChar(s[1]) then StripMetavars(s[1 + MetaRun(s[1..])..])
    else [s[0]] + StripMetavars(s[1..])
  }

  /** No `$` in `s` is followed by a capital or an underscore. */
  predicate NoMetavars(s: string) {
    forall i :: 0 <= i < |s| - 1 && s[i] == '$' ==> !MetaChar(s[i + 1])
  }

  lemma {:induction false} StripFirstChar(s: string)
    ensures |StripMetavars(s)| > 0 && MetaChar(StripMetavars(s)[0]) ==> |s| > 0 && MetaChar(s[0])
    decreases |s|
  {
    if |s| > 0 && s[0] == '$' && |s| >= 2 && MetaChar(s[1]) {
      StripFirstChar(s[1 + MetaRun(s[1..])..]);
    }
  }

  /** After stripping no metavariable is left. */
  lemma {:induction false} StripLeavesNone(s: string)
    ensures NoMetavars(StripMetavars(s))
    decreases |s|
  {
    if |s| > 0 {
      if s[0] == '$' && |s| >= 2 && MetaChar(s[1]) {
        StripLeavesNone(s[1 + MetaRun(s[1..])..]);
      } else {
        StripLeavesNone(s[1..]);
        StripFirstChar(s[1..]);
        var r := StripMetavars(s);
        assert r[1..] == StripMetavars(s[1..]);
        forall i | 0 <= i < |r| - 1 && r[i] == '$' ensures !MetaChar(r[i + 1]) {
          if i > 0 {
            assert r[1..][i - 1] == '$';
          }
        }
      }
    }
  }

  /** A string without metavariables is left as it is. */
  lemma {:induction false} StripKeepsClean(s: string)
    requires NoMetavars(s)
    ensures StripMetavars(s) == s
    decreases |s|
  {
    if |s| > 0 {
      assert NoMetavars(s[1..]) by {
        forall i | 0 <= i < |s[1..]| - 1 && s[1..][i] == '$' ensures !MetaChar(s[1..][i + 1]) {
          assert s[i + 1] == '$';
        }
      }
      StripKeepsClean(s[1..]);
      assert s == [s[0]] + s[1..];
    }
  }

  /** Hence stripping is idempotent. */
  lemma StripIdempotent(s: string)
    ensures StripMetavars(StripMetavars(s)) == StripMetavars(s)
  {
    StripLeavesNone(s);
    StripKeepsClean(StripMetavars(s));
  }

  /** The stored pattern: metavariables removed, `...` made `.*?`, then
      everything escaped. */
  function Sanitise(text: string): (r: string)
    ensures WellEscaped(r)
  {
    EscapeRoundTrip(Text.ReplaceAll(StripMetavars(text), "...", ".*?"));
    Escape(Text.ReplaceAll(StripMetavars(text), "...", ".*?"))
  }

  /** Because escaping comes last, the wildcard produced for an ellipsis
      is itself escaped: `a...b` is stored as `a\.\*\?b`, a pattern that
      only matches the literal text `a.*?b`. */
  lemma EllipsisBecomesLiteral()
    ensures Sanitise("a...b") == "a\\.\\*\\?b"
  {
    assert StripMetavars("a...b") == "a...b" by {
      assert NoMetavars("a...b");
      StripKeepsClean("a...b");
    }
    EllipsisReplaced();
    EscapeWildcard();
  }

  lemma EllipsisReplaced()
    ensures Text.ReplaceAll("a...b", "...", ".*?") == "a.*?b"
  {
    assert "a...b"[1..] == "...b";
    assert "...b"[..3] == "...";
    assert "...b"[3..] == "b";
  }

  lemma EscapeWildcard()
    ensures Escape("a.*?b") == "a\\.\\*\\?b"
  {
    EscapeStarQB();
    EscapeStep('.', "*?b", "\\*\\?b");
    EscapeStep('a', ".*?b", "\\.\\*\\?b");
  }

  lemma EscapeStarQB()
    ensures Escape("*?b") == "\\*\\?b"
  {
    EscapeStep('b', "", "");
    EscapeStep('?', "b", "b");
    EscapeStep('*', "?b", "\\?b");
  }

  /** Escaping a text one character longer, given the escaped rest. */
  lemma EscapeStep(c: char, t: string, e: string)
    requires Escape(t) == e
    ensures Escape([c] + t) == (if Special(c) then ['\\', c] else [c]) + e
  {
    assert ([c] + t)[1..] == t;
  }

  // ---------------------------------------------------------------------
  // Pattern extraction

  type Fields = seq<(string, Json)>

  /** The usable alternatives of `pattern-either`: strings, and the string
      `pattern` of a mapping; anything else is skipped. */
  function Alternatives(items: seq<Json>): (r: seq<string>)
    ensures |r| <= |items|
    ensures forall s :: s in r <==> exists i :: 0 <= i < |items| && AlternativeOf(items[i], s)
    ensures (forall i :: 0 <= i < |items| ==> items[i].JStr?) ==> |r| == |items|
  {
    if |items| == 0 then []
    else
      var head := match items[0]
        case JStr(s) => [s]
        case JObj(fs) => (match Lookup(fs, "pattern") case Some(JStr(p)) => [p] case _ => [])
        case _ => [];
      var rest := Alternatives(items[1..]);
      assert forall s :: s in head <==> AlternativeOf(items[0], s);
      assert forall s :: (exists i :: 0 <= i < |items| && AlternativeOf(items[i], s))
                    <==> AlternativeOf(items[0], s) || exists i :: 0 <= i < |items[1..]| && AlternativeOf(items[1..][i], s) by {
        forall s, i | 0 <= i < |items| && AlternativeOf(items[i], s) && i > 0
          ensures AlternativeOf(items[1..][i - 1], s)
        {
        }
        forall s, i | 0 <= i < |items[1..]| && AlternativeOf(items[1..][i], s)
          ensures AlternativeOf(items[i + 1], s)
        {
        }
      }
      head + rest
  }

  /** `s` is the usable text of a `pattern-either` item: the item itself
      when it is a string, or the string `pattern` of a mapping. */
  predicate AlternativeOf(item: Json, s: string) {
    item == JStr(s) || (item.JObj? && Lookup(item.fields, "pattern") == Some(JStr(s)))
  }

  /** The alternatives with newlines made spaces, joined with `|`; `JNull`
      (Python's None) when none is usable. */
  function EitherPattern(items: seq<Json>): (r: Json)
    ensures r.JNull? <==> |Alternatives(items)| == 0
  {
    var alts := Alternatives(items);
    if |alts| == 0 then JNull else JStr(JoinAlternatives(alts))
  }

  function JoinAlternatives(alts: seq<string>): string {
    Text.Join("|", seq(|alts|, i requires 0 <= i < |alts| => Text.ReplaceAll(alts[i], "\n", " ")))
  }

  /** The `if/elif` chain over `pattern`, `pattern-either`, `pattern-regex`,
      `pattern-inside` and `pattern-not`. Only the first key present is
      consulted, even when its value is unusable. `None` means iterating a
      `pattern-either` value raised. */
  function ChainPattern(rule: Fields): (r: Option<Json>)
    ensures Lookup(rule, "pattern").Some? && !Lookup(rule, "pattern").value.JStr?
      && !(Lookup(rule, "pattern").value.JObj? && Has(Lookup(rule, "pattern").value, "pattern"))
      ==> r == Some(JNull)
    ensures (Lookup(rule, "pattern") == None && Lookup(rule, "pattern-either") == None
             && Lookup(rule, "pattern-regex") == None && Lookup(rule, "pattern-inside") == None
             && Lookup(rule, "pattern-not") == None) ==> r == Some(JNull)
  {
    match Lookup(rule, "pattern")
    case Some(v) =>
      if v.JStr? then Some(v)
      else if v.JObj? && Has(v, "pattern") then Some(GetOr(v, "pattern", JStr("")))
      else Some(JNull)
    case None =>
      match Lookup(rule, "pattern-either")
      case Some(ps) =>
        if !Truthy(ps) then Some(JNull)
        else (match Iterate(ps) case None => None case Some(items) => Some(EitherPattern(items)))
      case None =>
        match Lookup(rule, "pattern-regex")
        case Some(v) => Some(if v.JStr? then v else JNull)
        case None =>
          match Lookup(rule, "pattern-inside")
          case Some(v) => Some(if v.JStr? then v else JNull)
          case None =>
            match Lookup(rule, "pattern-not")
            case Some(v) => Some(if v.JStr? then JStr("(?!" + v.s + ")") else JNull)
            case None => Some(JNull)
  }

  /** The string `pattern` of a mapping, if it has one. */
  function StringPattern(j: Json): Option<string> {
    if j.JObj? then (match Lookup(j.fields, "pattern") case Some(JStr(p)) => Some(p) case _ => None)
    else None
  }

  /** The inner loop over a nested `patterns` list: stops at the first
      string `pattern`, even an empty one. */
  function ScanNested(ns: seq<Json>, current: Json): (r: Json)
    ensures r == current || (r.JStr? && exists i :: 0 <= i < |ns| && StringPattern(ns[i]) == Some(r.s))
  {
    if |ns| == 0 then current
    else match StringPattern(ns[0])
      case Some(p) => JStr(p)
      case None => ScanNested(ns[1..], current)
  }

  /** The outer loop over `patterns`: a string `pattern` of an entry ends the
      loop (even when empty); otherwise a nested `patterns` list is scanned
      and ends the loop only when it yielded a non-empty pattern. */
  function ScanEntries(es: seq<Json>, current: Json): Json {
    if |es| == 0 then current
    else match StringPattern(es[0])
      case Some(p) => JStr(p)
      case None =>
        var nested := if es[0].JObj? then Lookup(es[0].fields, "patterns") else None;
        match nested
        case Some(JList(ns)) =>
          var p := ScanNested(ns, current);
          if Truthy(p) then p else ScanEntries(es[1..], p)
        case _ => ScanEntries(es[1..], current)
  }

  /** The first string `pattern` among the entries of `rules`. */
  function FirstSubrulePattern(subs: seq<Json>, current: Json): Json {
    if |subs| == 0 then current
    else match StringPattern(subs[0])
      case Some(p) => JStr(p)
      case None => FirstSubrulePattern(subs[1..], current)
  }

  /** The chain, then the `patterns` scan, then the `rules` scan, each
      consulted only while no truthy pattern has been found. */
  function FoundPattern(rule: Fields): Option<Json> {
    var chained :- ChainPattern(rule);
    var afterPatterns := match Lookup(rule, "patterns")
      case Some(JList(es)) => if !Truthy(chained) && |es| > 0 then ScanEntries(es, chained) else chained
      case _ => chained;
    var afterRules := match Lookup(rule, "rules")
      case Some(JList(subs)) => if !Truthy(afterPatterns) && |subs| > 0 then FirstSubrulePattern(subs, afterPatterns) else afterPatterns
      case _ => afterPatterns;
    Some(afterRules)
  }

  /** The placeholder used when no pattern was found: the CWE, else the
      OWASP reference of a metadata mapping, else the rule id. */
  function Placeholder(rule: Fields): (r: string)
    ensures Text.StartsWith(r, "# ")
  {
    var id := match Lookup(rule, "id") case Some(v) => v case None => JStr("");
    match Lookup(rule, "metadata")
    case Some(JObj(md)) =>
      (match Lookup(md, "cwe")
       case Some(c) => "# CWE-" + Str(c)
       case None =>
         match Lookup(md, "owasp")
         case Some(o) => "# OWASP-" + Str(o)
         case None => "# " + Str(id))
    case _ => "# " + Str(id)
  }

  /** The pattern text before sanitising: a falsy result of the search is
      replaced by the placeholder, and a non-string one by its `str`. */
  function PatternText(rule: Fields): (r: Option<string>)
    ensures r.Some? <==> FoundPattern(rule).Some?
    ensures r.Some? && !Truthy(FoundPattern(rule).value) ==> r.value == Placeholder(rule)
    ensures r.Some? && FoundPattern(rule).value.JStr? && Truthy(FoundPattern(rule).value) ==> r.value == FoundPattern(rule).value.s
  {
    var found :- FoundPattern(rule);
    Some(if !Truthy(found) then Placeholder(rule) else Str(found))
  }

  // ---------------------------------------------------------------------
  // Converting one rule

  /** A JSON value as stored in a text field of the rule record: strings as
      they are, other truthy values by their `str`, falsy ones as "". The
      converter itself stores the raw value; the record keeps text. */
  function TextOf(j: Json): string {
    if j.JStr? then j.s else if Truthy(j) then Str(j) else ""
  }

  /** `rule.get(key, '')` as text: a string field as it is, a missing one
      as "". */
  function FieldText(rule: Fields, key: string): (r: string)
    ensures forall v :: Lookup(rule, key) == Some(JStr(v)) ==> r == v
    ensures Lookup(rule, key).None? ==> r == ""
  {
    match Lookup(rule, key) case Some(v) => TextOf(v) case None => ""
  }

  /** The text forms of what iterating `languages` yields. */
  function LanguageList(j: Json): Option<seq<string>> {
    match Iterate(j)
    case None => None
    case Some(items) => Some(seq(|items|, i requires 0 <= i < |items| => TextOf(items[i])))
  }

  /** The rule name: `name` when truthy, else the first 50 characters (or
      items) of `message`; `None` where slicing `message` raises. */
  function RuleName(rule: Fields): (r: Option<string>)
    ensures forall n :: Lookup(rule, "name") == Some(JStr(n)) && n != "" ==> r == Some(n)
    ensures !Truthy(Lookup(rule, "name").GetOr(JStr(""))) ==>
      (forall m :: Lookup(rule, "message") == Some(JStr(m)) ==> r == Some(Text.Take(m, 50)))
      && (Lookup(rule, "message").None? ==> r == Some(""))
  {
    var name := match Lookup(rule, "name") case Some(v) => v case None => JStr("");
    if Truthy(name) then Some(TextOf(name))
    else
      match Lookup(rule, "message")
      case None => Some("")
      case Some(JStr(m)) => Some(Text.Take(m, 50))
      case Some(JList(xs)) => Some(TextOf(JList(if |xs| <= 50 then xs else xs[..50])))
      case Some(_) => None
  }

  /** The severity, only lower-cased; `None` when present but not a string. */
  function RuleSeverity(rule: Fields): Option<string> {
    match Lookup(rule, "severity")
    case None => Some("medium")
    case Some(JStr(s)) => Some(Text.Lower(s))
    case Some(_) => None
  }

  /** `convert_semgrep_rule`. A rule is only dropped when a field raises:
      a non-string severity, an unsliceable message with a falsy name, or a
      non-iterable truthy `pattern-either`. Otherwise the result has the
      sanitised pattern text (well escaped) and the source `semgrep`, and
      keeps the metadata exactly when it is a mapping. */
  function ConvertRule(rule: Fields): (r: Option<Rule>)
    ensures r.Some? <==> RuleSeverity(rule).Some? && RuleName(rule).Some? && PatternText(rule).Some?
    ensures r.Some? ==> r.value.pattern == Sanitise(PatternText(rule).value) && WellEscaped(r.value.pattern)
    ensures r.Some? ==> r.value.source == Some("semgrep")
    ensures r.Some? ==> r.value.severity == RuleSeverity(rule)
    ensures r.Some? ==> (r.value.metadata.Some? <==> exists md :: Lookup(rule, "metadata") == Some(JObj(md)))
    ensures r.Some? ==> r.value.name == RuleName(rule).value
    ensures r.Some? ==> r.value.id == Some(FieldText(rule, "id")) && r.value.description == Some(FieldText(rule, "message"))
    ensures r.Some? ==> forall xs: seq<Json> :: Lookup(rule, "languages") == Some(JList(xs)) ==>
      r.value.languages.Some? && |r.value.languages.value| == |xs|
      && forall i :: 0 <= i < |xs| && xs[i].JStr? ==> r.value.languages.value[i] == xs[i].s
    ensures r.Some? && Lookup(rule, "languages").None? ==> r.value.languages == Some([])
  {
    var severity :- RuleSeverity(rule);
    var name :- RuleName(rule);
    var text :- PatternText(rule);
    var id := FieldText(rule, "id");
    var message := FieldText(rule, "message");
    var langs := match Lookup(rule, "languages") case Some(v) => v case None => JList([]);
    var metadata := match Lookup(rule, "metadata") case Some(JObj(md)) => Some(JObj(md)) case _ => None;
    Some(Rule(Some(id), name, Sanitise(text), Some(message), Some(severity), None, LanguageList(langs), Some("semgrep"), metadata))
  }

  /** Alternatives are joined with `|` before escaping, so the stored
      pattern matches the literal text `a|b` rather than either word. */
  lemma EitherBecomesLiteral()
    ensures EitherPattern([JStr("a"), JObj([("pattern", JStr("b"))])]) == JStr("a|b")
    ensures Escape("a|b") == "a\\|b"
  {
    EitherAlternatives();
    EitherJoined();
    EscapeBar();
  }

  lemma EitherAlternatives()
    ensures Alternatives([JStr("a"), JObj([("pattern", JStr("b"))])]) == ["a", "b"]
  {
    var items := [JStr("a"), JObj([("pattern", JStr("b"))])];
    assert Alternatives(items[1..]) == ["b"] by {
      assert items[1..][1..] == [];
    }
  }

  lemma EitherJoined()
    ensures JoinAlternatives(["a", "b"]) == "a|b"
  {
    assert Text.ReplaceAll("a", "\n", " ") == "a";
    assert Text.ReplaceAll("b", "\n", " ") == "b";
    var alts := ["a", "b"];
    assert seq(|alts|, i requires 0 <= i < |alts| => Text.ReplaceAll(alts[i], "\n", " ")) == ["a", "b"];
    assert Text.Join("|", ["a", "b"]) == "a|b" by {
      assert ["a", "b"][1..] == ["b"];
    }
  }

  lemma EscapeBar()
    ensures Escape("a|b") == "a\\|b"
  {
    EscapeStep('b', "", "");
    EscapeStep('|', "b", "b");
    EscapeStep('a', "|b", "\\|b");
  }

  /** A pattern made only of a metavariable is stripped to nothing: the rule
      is stored with an empty pattern. */
  lemma MetavariableOnlyPattern()
    ensures ConvertRule([("id", JStr("r")), ("pattern", JStr("$X"))]).Some?
    ensures ConvertRule([("id", JStr("r")), ("pattern", JStr("$X"))]).value.pattern == ""
  {
    LoneMetavariableFields();
    StripLoneMetavariable();
    assert Sanitise("$X") == "";
  }

  lemma LoneMetavariableFields()
    ensures var rule := [("id", JStr("r")), ("pattern", JStr("$X"))];
      && RuleSeverity(rule) == Some("medium") && RuleName(rule) == Some("")
      && PatternText(rule) == Some("$X")
  {
    var rule := [("id", JStr("r")), ("pattern", JStr("$X"))];
    assert Lookup(rule, "pattern") == Some(JStr("$X"));
    assert FoundPattern(rule) == Some(JStr("$X"));
  }

  lemma StripLoneMetavariable()
    ensures StripMetavars("$X") == ""
  {
    assert MetaRun("X") == 1 by { assert "X"[1..] == ""; }
    assert "$X"[2..] == "";
  }

  /** The rule has none of the keys the pattern search looks at. */
  predicate NoPatternKeys(rule: Fields) {
    Lookup(rule, "pattern").None? && Lookup(rule, "pattern-either").None? && Lookup(rule, "pattern-regex").None?
    && Lookup(rule, "pattern-inside").None? && Lookup(rule, "pattern-not").None?
    && Lookup(rule, "patterns").None? && Lookup(rule, "rules").None?
  }

  /** The rule's `metadata` when it is a mapping. */
  function MetadataFields(rule: Fields): Option<Fields> {
    match Lookup(rule, "metadata")
    case Some(JObj(md)) => Some(md)
    case _ => None
  }

  /** A rule without any pattern key converts whenever its severity and name
      do, and its stored pattern is the sanitised placeholder: `# CWE-<cwe>`
      when the metadata mapping has `cwe`, else `# OWASP-<owasp>` when it has
      `owasp`, else `# <id>` (also when the metadata is missing or is not a
      mapping), with a missing id read as "". */
  lemma NoPatternPlaceholder(rule: Fields)
    requires NoPatternKeys(rule)
    ensures ConvertRule(rule).Some? <==> RuleSeverity(rule).Some? && RuleName(rule).Some?
    ensures var r := ConvertRule(rule); var md := MetadataFields(rule);
      r.Some? && md.Some? && Lookup(md.value, "cwe").Some? ==>
        r.value.pattern == Sanitise("# CWE-" + Str(Lookup(md.value, "cwe").value))
    ensures var r := ConvertRule(rule); var md := MetadataFields(rule);
      r.Some? && md.Some? && Lookup(md.value, "cwe").None? && Lookup(md.value, "owasp").Some? ==>
        r.value.pattern == Sanitise("# OWASP-" + Str(Lookup(md.value, "owasp").value))
    ensures var r := ConvertRule(rule); var md := MetadataFields(rule);
      r.Some? && (md.None? || (Lookup(md.value, "cwe").None? && Lookup(md.value, "owasp").None?)) ==>
        r.value.pattern == Sanitise("# " + Str(Lookup(rule, "id").GetOr(JStr(""))))
  {
    assert ChainPattern(rule) == Some(JNull);
    assert FoundPattern(rule) == Some(JNull);
    assert PatternText(rule) == Some(Placeholder(rule));
  }

  /** A rule without any pattern key is kept, with its id as placeholder. */
  lemma NoPatternUsesId()
    ensures PatternText([("id", JStr("r1")), ("message", JStr("m"))]) == Some("# r1")
  {
    var rule := [("id", JStr("r1")), ("message", JStr("m"))];
    assert Lookup(rule, "pattern") == None && Lookup(rule, "patterns") == None && Lookup(rule, "rules") == None;
    assert Lookup(rule, "pattern-either") == None && Lookup(rule, "pattern-regex") == None;
    assert Lookup(rule, "pattern-inside") == None && Lookup(rule, "pattern-not") == None;
    assert ChainPattern(rule) == Some(JNull);
    assert FoundPattern(rule) == Some(JNull);
    assert Lookup(rule, "metadata") == None;
    assert Lookup(rule, "id") == Some(JStr("r1"));
    assert Str(JStr("r1")) == "r1";
    assert Placeholder(rule) == "# r1";
    assert !Truthy(JNull);
  }

  // ---------------------------------------------------------------------
  // Ordered buckets

  /** The keys of a batch, in order. */
  function BatchKeys(b: Batch): (ks: seq<string>)
    ensures |ks| == |b| && forall i :: 0 <= i < |b| ==> ks[i] == b[i].0
  {
    seq(|b|, i requires 0 <= i < |b| => b[i].0)
  }

  predicate DistinctKeys(b: Batch) {
    forall i, j :: 0 <= i < j < |b| ==> b[i].0 != b[j].0
  }

  /** `result.get(key, [])` for an insertion-ordered result dict. */
  function Entry(b: Batch, key: string): seq<Rule> {
    if |b| == 0 then [] else if b[0].0 == key then b[0].1 else Entry(b[1..], key)
  }

  /** The number of rules a batch holds, counting a rule once per bucket. */
  function Count(b: Batch): nat {
    if |b| == 0 then 0 else |b[0].1| + Count(b[1..])
  }

  /** `result.setdefault(key, []).extend(rules)`: the bucket gains the rules at
      its end and no other bucket changes. */
  function Append(b: Batch, key: string, rules: seq<Rule>): (r: Batch)
    ensures Entry(r, key) == Entry(b, key) + rules
    ensures forall k :: k != key ==> Entry(r, k) == Entry(b, k)
    ensures Count(r) == Count(b) + |rules|
  {
    if |b| == 0 then [(key, rules)]
    else if b[0].0 == key then [(key, b[0].1 + rules)] + b[1..]
    else [b[0]] + Append(b[1..], key, rules)
  }

  /** A new key goes last; existing keys keep their places. */
  lemma {:induction false} AppendKeys(b: Batch, key: string, rules: seq<Rule>)
    ensures BatchKeys(Append(b, key, rules)) == if key in BatchKeys(b) then BatchKeys(b) else BatchKeys(b) + [key]
  {
    if |b| > 0 {
      var r := Append(b, key, rules);
      KeysCons(b);
      KeysCons(r);
      if b[0].0 != key {
        AppendKeys(b[1..], key, rules);
        assert r[1..] == Append(b[1..], key, rules);
        ConsKey(b[0].0, BatchKeys(b[1..]), key);
      } else {
        assert r[1..] == b[1..];
      }
    }
  }

  lemma KeysCons(b: Batch)
    requires |b| > 0
    ensures BatchKeys(b) == [b[0].0] + BatchKeys(b[1..])
  {
  }

  lemma ConsKey(x: string, ks: seq<string>, key: string)
    requires x != key
    ensures [x] + (if key in ks then ks else ks + [key])
         == if key in [x] + ks then [x] + ks else [x] + ks + [key]
  {
    assert key in [x] + ks <==> key in ks;
  }

  /** Appending keeps the keys distinct. */
  lemma AppendDistinct(b: Batch, key: string, rules: seq<Rule>)
    requires DistinctKeys(b)
    ensures DistinctKeys(Append(b, key, rules))
  {
    AppendKeys(b, key, rules);
    var r := Append(b, key, rules);
    assert forall i :: 0 <= i < |r| ==> r[i].0 == BatchKeys(r)[i];
    assert forall i :: 0 <= i < |b| ==> b[i].0 == BatchKeys(b)[i];
  }

  /** The merge loop of the directory and repository imports: every bucket
      of `other`, in order, is appended to the accumulated result. */
  function Extend(acc: Batch, other: Batch): (r: Batch)
    ensures Count(r) == Count(acc) + Count(other)
    decreases |other|
  {
    if |other| == 0 then acc else Extend(Append(acc, other[0].0, other[0].1), other[1..])
  }

  /** Extending keeps the accumulated keys first, in place, and distinct. */
  lemma {:induction false} ExtendKeys(acc: Batch, other: Batch)
    ensures |Extend(acc, other)| >= |acc| && BatchKeys(Extend(acc, other))[..|acc|] == BatchKeys(acc)
    ensures DistinctKeys(acc) ==> DistinctKeys(Extend(acc, other))
    decreases |other|
  {
    if |other| > 0 {
      var next := Append(acc, other[0].0, other[0].1);
      AppendKeys(acc, other[0].0, other[0].1);
      if DistinctKeys(acc) {
        AppendDistinct(acc, other[0].0, other[0].1);
      }
      ExtendKeys(next, other[1..]);
      assert BatchKeys(next)[..|acc|] == BatchKeys(acc);
    }
  }

  // ---------------------------------------------------------------------
  // Files and directories

  /** The rule entries a parsed YAML document holds: a list under `rules`,
      the document itself when it has `id` and `pattern`, otherwise the
      `rules` lists and pattern-bearing mappings among its values; a list
      document is itself the rule list. */
  function FileRules(content: Json): seq<Json> {
    match content
    case JObj(fs) =>
      (match Lookup(fs, "rules")
       case Some(JList(rs)) => rs
       case _ =>
         if HasKey(fs, "id") && HasKey(fs, "pattern") then [content]
         else ValueRules(fs))
    case JList(rs) => rs
    case _ => []
  }

  /** The "other shapes" loop over a document's values. */
  function ValueRules(fs: Fields): seq<Json> {
    if |fs| == 0 then []
    else
      var v := fs[0].1;
      var here := match v
        case JObj(vf) =>
          (match Lookup(vf, "rules")
           case Some(JList(rs)) => rs
           case _ => if HasKey(vf, "pattern") then [v] else [])
        case _ => [];
      here + ValueRules(fs[1..])
  }

  /** The buckets a converted rule goes to: `common` when `languages` is
      falsy, otherwise the lower-cased text of each item, with `common` for
      a falsy item; `None` when `languages` cannot be iterated. */
  function BucketNames(languages: Json): (r: Option<seq<string>>)
    ensures !Truthy(languages) ==> r == Some(["common"])
    ensures Truthy(languages) ==> (r.None? <==> Iterate(languages).None?)
    ensures r.Some? ==> |r.value| > 0 && forall i :: 0 <= i < |r.value| ==> Text.Lower(r.value[i]) == r.value[i]
  {
    if !Truthy(languages) then Some(["common"])
    else match Iterate(languages)
      case None => None
      case Some(items) =>
        Some(seq(|items|, i requires 0 <= i < |items| =>
          if Truthy(items[i]) then Text.Lower(Str(items[i])) else "common"))
  }

  /** Each converted rule goes to every bucket it names, once per name. */
  function AddToBuckets(b: Batch, names: seq<string>, rule: Rule): (r: Batch)
    ensures Count(r) == Count(b) + |names|
    ensures forall k :: k !in names ==> Entry(r, k) == Entry(b, k)
    decreases |names|
  {
    if |names| == 0 then b
    else AddToBuckets(Append(b, names[0], [rule]), names[1..], rule)
  }

  /** Every bucket the rule names holds it afterwards, and the keys stay
      distinct. */
  lemma {:induction false} AddToBucketsFacts(b: Batch, names: seq<string>, rule: Rule)
    ensures forall i :: 0 <= i < |names| ==> rule in Entry(AddToBuckets(b, names, rule), names[i])
    ensures DistinctKeys(b) ==> DistinctKeys(AddToBuckets(b, names, rule))
    decreases |names|
  {
    if |names| > 0 {
      var b1 := Append(b, names[0], [rule]);
      if DistinctKeys(b) {
        AppendDistinct(b, names[0], [rule]);
      }
      AddToBucketsFacts(b1, names[1..], rule);
      AddToBucketsSuperset(b1, names[1..], rule, names[0], rule);
      forall i | 0 <= i < |names| ensures rule in Entry(AddToBuckets(b, names, rule), names[i]) {
        if i > 0 {
          assert names[1..][i - 1] == names[i];
        }
      }
    }
  }

  /** The outcome of converting a file: the buckets built so far, and
      whether an error cut the loop short. */
  datatype FileOutcome = FileOutcome(buckets: Batch, aborted: bool)

  /** What converting one rule entry contributes: skipped (`Skip`), added to
      the named buckets, or an error that ends the loop. */
  datatype EntryStep = Skip | AddTo(rule: Rule, names: seq<string>) | Abort

  function EntryStepOf(entry: Json): EntryStep {
    match entry
    case JObj(fs) =>
      (match ConvertRule(fs)
       case None => Skip
       case Some(rule) =>
         var languages := match Lookup(fs, "languages") case Some(v) => v case None => JList([]);
         match BucketNames(languages)
         case None => Abort
         case Some(names) => AddTo(rule, names))
    case _ => Skip
  }

  function Steps(entries: seq<Json>): (r: seq<EntryStep>)
    ensures |r| == |entries| && forall i :: 0 <= i < |entries| ==> r[i] == EntryStepOf(entries[i])
  {
    seq(|entries|, i requires 0 <= i < |entries| => EntryStepOf(entries[i]))
  }

  /** The conversion loop of `convert_semgrep_rules_file`: non-mapping
      entries and dropped rules are skipped; a `languages` value that cannot
      be iterated raises, which ends the loop and keeps what was built. */
  function ConvertSteps(acc: Batch, steps: seq<EntryStep>): (r: FileOutcome)
    decreases |steps|
  {
    if |steps| == 0 then FileOutcome(acc, false)
    else match steps[0]
      case Skip => ConvertSteps(acc, steps[1..])
      case Abort => FileOutcome(acc, true)
      case AddTo(rule, names) => ConvertSteps(AddToBuckets(acc, names, rule), steps[1..])
  }

  lemma {:induction false} ConvertStepsDistinct(acc: Batch, steps: seq<EntryStep>)
    requires DistinctKeys(acc)
    ensures DistinctKeys(ConvertSteps(acc, steps).buckets)
    decreases |steps|
  {
    if |steps| > 0 {
      match steps[0]
      case Skip => ConvertStepsDistinct(acc, steps[1..]);
      case Abort =>
      case AddTo(rule, names) =>
        AddToBucketsFacts(acc, names, rule);
        ConvertStepsDistinct(AddToBuckets(acc, names, rule), steps[1..]);
    }
  }

  /** When no entry raises, every converted rule is in each bucket it
      names. */
  lemma {:induction false} ConvertStepsComplete(acc: Batch, steps: seq<EntryStep>, i: nat, k: nat)
    requires !ConvertSteps(acc, steps).aborted
    requires i < |steps| && steps[i].AddTo? && k < |steps[i].names|
    ensures steps[i].rule in Entry(ConvertSteps(acc, steps).buckets, steps[i].names[k])
    decreases |steps|
  {
    var step := steps[0];
    if i == 0 {
      AddToBucketsFacts(acc, step.names, step.rule);
      ConvertStepsKeeps(AddToBuckets(acc, step.names, step.rule), steps[1..], step.rule, step.names[k]);
    } else {
      assert steps[1..][i - 1] == steps[i];
      match step
      case Skip => ConvertStepsComplete(acc, steps[1..], i - 1, k);
      case AddTo(rule, names) => ConvertStepsComplete(AddToBuckets(acc, names, rule), steps[1..], i - 1, k);
    }
  }

  lemma {:induction false} ConvertStepsKeeps(acc: Batch, steps: seq<EntryStep>, rule: Rule, key: string)
    requires rule in Entry(acc, key)
    ensures rule in Entry(ConvertSteps(acc, steps).buckets, key)
    decreases |steps|
  {
    if |steps| > 0 {
      match steps[0]
      case Skip => ConvertStepsKeeps(acc, steps[1..], rule, key);
      case Abort =>
      case AddTo(r, names) =>
        AddToBucketsSuperset(acc, names, r, key, rule);
        ConvertStepsKeeps(AddToBuckets(acc, names, r), steps[1..], rule, key);
    }
  }

  lemma {:induction false} AddToBucketsSuperset(b: Batch, names: seq<string>, r: Rule, key: string, x: Rule)
    requires x in Entry(b, key)
    ensures x in Entry(AddToBuckets(b, names, r), key)
    decreases |names|
  {
    if |names| > 0 {
      var b1 := Append(b, names[0], [r]);
      assert x in Entry(b1, key);
      AddToBucketsSuperset(b1, names[1..], r, key, x);
    }
  }

  /** `convert_semgrep_rules_file` given the parsed document (`None` when
      the file cannot be read or parsed, which yields no buckets). An empty
      document (`null`) and a document holding no rule entries yield none
      either. */
  function ConvertFile(content: Option<Json>): (r: Batch)
    ensures content.None? ==> r == []
    ensures content == Some(JNull) ==> r == []
    ensures content.Some? && FileRules(content.value) == [] ==> r == []
  {
    match content
    case None => []
    case Some(doc) => ConvertSteps([], Steps(FileRules(doc))).buckets
  }

  lemma ConvertFileDistinct(content: Option<Json>)
    ensures DistinctKeys(ConvertFile(content))
  {
    if content.Some? {
      ConvertStepsDistinct([], Steps(FileRules(content.value)));
    }
  }

  /** The buckets `convert_semgrep_rules_dir` starts from. */
  function SeedBuckets(): (r: Batch)
    ensures |r| == 9 && BatchKeys(r) == StandardBuckets && Count(r) == 0
  {
    [("common", []), ("python", []), ("javascript", []), ("java", []), ("go", []),
     ("ruby", []), ("php", []), ("c", []), ("cpp", [])]
  }

  /** Total rule count over converted files. */
  function FilesCount(files: seq<Option<Json>>): nat {
    if |files| == 0 then 0 else Count(ConvertFile(files[0])) + FilesCount(files[1..])
  }

  /** The file loop: each file's buckets appended in order. */
  function ConvertFiles(acc: Batch, files: seq<Option<Json>>): (r: Batch)
    ensures Count(r) == Count(acc) + FilesCount(files)
    decreases |files|
  {
    if |files| == 0 then acc else ConvertFiles(Extend(acc, ConvertFile(files[0])), files[1..])
  }

  lemma {:induction false} ConvertFilesKeys(acc: Batch, files: seq<Option<Json>>)
    ensures |ConvertFiles(acc, files)| >= |acc| && BatchKeys(ConvertFiles(acc, files))[..|acc|] == BatchKeys(acc)
    ensures DistinctKeys(acc) ==> DistinctKeys(ConvertFiles(acc, files))
    decreases |files|
  {
    if |files| > 0 {
      var next := Extend(acc, ConvertFile(files[0]));
      ExtendKeys(acc, ConvertFile(files[0]));
      ConvertFilesKeys(next, files[1..]);
      var r := ConvertFiles(acc, files);
      assert BatchKeys(r)[..|acc|] == BatchKeys(r)[..|next|][..|acc|];
    }
  }

  /** `convert_semgrep_rules_dir` given the parsed YAML files in glob order:
      the nine standard buckets come first even when empty, and the result
      holds exactly the rules of the files. */
  function ConvertDir(files: seq<Option<Json>>): (r: Batch)
    ensures Count(r) == FilesCount(files)
  {
    ConvertFiles(SeedBuckets(), files)
  }

  lemma ConvertDirShape(files: seq<Option<Json>>)
    ensures |ConvertDir(files)| >= 9 && BatchKeys(ConvertDir(files))[..9] == StandardBuckets
    ensures DistinctKeys(ConvertDir(files))
  {
    SeedDistinct();
    ConvertFilesKeys(SeedBuckets(), files);
  }

  lemma SeedDistinct()
    ensures DistinctKeys(SeedBuckets())
  {
    var b := SeedBuckets();
    forall i | 0 <= i < |b| ensures Position(b[i].0) == i {
      NamePosition(i);
    }
  }

  lemma NamePosition(i: nat)
    requires i < 9
    ensures Position(StandardBuckets[i]) == i
  {
    var ks := StandardBuckets;
    if i == 0 { assert ks[0] == "common"; }
    else if i == 1 { assert ks[1] == "python"; }
    else if i == 2 { assert ks[2] == "javascript"; }
    else if i == 3 { assert ks[3] == "java"; }
    else if i == 4 { assert ks[4] == "go"; }
    else if i == 5 { assert ks[5] == "ruby"; }
    else if i == 6 { assert ks[6] == "php"; }
    else if i == 7 { assert ks[7] == "c"; }
    else { assert ks[8] == "cpp"; }
  }

  /** The index of a standard bucket name, told apart by length and first
      character. */
  function Position(name: string): int {
    var n := |name|;
    var c := if n > 0 then name[0] else ' ';
    if n == 6 && c == 'c' then 0
    else if n == 6 then 1
    else if n == 10 then 2
    else if n == 4 && c == 'j' then 3
    else if n == 2 then 4
    else if n == 4 then 5
    else if n == 3 && c == 'p' then 6
    else if n == 1 then 7
    else 8
  }

  // ---------------------------------------------------------------------
  // Repository import

  /** Top-level directories the whole-repository import skips. */
  const SkippedRepoDirs: seq<string> := [".git", ".github", "tests", "docs", "__pycache__"]

  /** The directories `import_from_github` converts, given the clone's
      top-level entries as (name, is-directory) pairs: with a language list,
      the lower-cased language names that are directories, in list order;
      without one, every top-level directory not skipped, in listing order. */
  function RepoDirs(languages: seq<string>, entries: seq<(string, bool)>): (r: seq<string>)
    ensures |languages| > 0 ==> forall d :: d in r <==> (d, true) in entries && exists l :: l in languages && Text.Lower(l) == d
    ensures |languages| == 0 ==> forall d :: d in r <==> (d, true) in entries && d !in SkippedRepoDirs
  {
    if |languages| > 0 then LanguageDirs(languages, entries) else PlainDirs(entries)
  }

  function LanguageDirs(languages: seq<string>, entries: seq<(string, bool)>): (r: seq<string>)
    ensures forall d :: d in r <==> (d, true) in entries && exists l :: l in languages && Text.Lower(l) == d
  {
    if |languages| == 0 then []
    else
      var d := Text.Lower(languages[0]);
      var rest := LanguageDirs(languages[1..], entries);
      assert forall l :: l in languages <==> l == languages[0] || l in languages[1..];
      if (d, true) in entries then [d] + rest else rest
  }

  function PlainDirs(entries: seq<(string, bool)>): (r: seq<string>)
    ensures forall d :: d in r <==> (d, true) in entries && d !in SkippedRepoDirs
  {
    if |entries| == 0 then []
    else
      var rest := PlainDirs(entries[1..]);
      assert forall e :: e in entries <==> e == entries[0] || e in entries[1..];
      if entries[0].1 && entries[0].0 !in SkippedRepoDirs then [entries[0].0] + rest else rest
  }

  /** The result of `import_from_github` given whether the clone succeeded
      and the converted batches of the selected directories, in order: the
      batches merged bucket by bucket, and the number of rules they hold.
      A failed clone yields nothing. */
  function ImportFromGithub(cloned: bool, converted: seq<Batch>): (r: (Batch, nat))
    ensures r.1 == Count(r.0)
    ensures !cloned ==> r == ([], 0)
    ensures cloned ==> r.1 == SumCounts(converted)
  {
    if !cloned then ([], 0)
    else
      var merged := ExtendAll([], converted);
      (merged, Count(merged))
  }

  function SumCounts(bs: seq<Batch>): nat {
    if |bs| == 0 then 0 else Count(bs[0]) + SumCounts(bs[1..])
  }

  function ExtendAll(acc: Batch, bs: seq<Batch>): (r: Batch)
    ensures Count(r) == Count(acc) + SumCounts(bs)
    decreases |bs|
  {
    if |bs| == 0 then acc else ExtendAll(Extend(acc, bs[0]), bs[1..])
  }
}

=== FILE: settings.dfy ===
/** The settings store of `codescan/config.py`: the built-in defaults, the
    default-filling load, `get`, `set`, and the model entries. The YAML file
    itself is a parameter: loading is given the parsed document, or `None`
    when reading or parsing failed. */
module Settings {
  import opened Wrappers
  import opened Json

  /** The top-level configuration dict, section name to section value. */
  type Config = seq<(string, Json)>

  /** A section of the defaults: its name and its keys with their values. */
  type Section = (string, seq<(string, Json)>)

  const DeepseekUrl: string := "https://api.deepseek.com"

  function ModelDefaults(provider: string, model: string, baseUrl: Option<string>): Json {
    JObj([("provider", JStr(provider)), ("model", JStr(model)), ("api_key", JStr(""))]
         + (if baseUrl.Some? then [("base_url", JStr(baseUrl.value))] else [])
         + [("max_tokens", JInt(8192))])
  }

  /** `DEFAULT_CONFIG`, section by section. */
  const DefaultSections: seq<Section> := [
    ("models", [
      ("default", ModelDefaults("deepseek", "deepseek-chat", Some(DeepseekUrl))),
      ("deepseek", ModelDefaults("deepseek", "deepseek-chat", Some(DeepseekUrl))),
      ("openai", ModelDefaults("openai", "gpt-3.5-turbo", None)),
      ("anthropic", ModelDefaults("anthropic", "claude-3-opus-20240229", None))]),
    ("scan", [
      ("excluded_dirs", JList([JStr("node_modules"), JStr("venv"), JStr("__pycache__"), JStr(".git")])),
      ("excluded_files", JList([JStr(".jpg"), JStr(".png"), JStr(".gif"), JStr(".mp4"), JStr(".zip"), JStr(".tar.gz")])),
      ("max_file_size_mb", JInt(10)),
      ("timeout_seconds", JInt(60))]),
    ("vulndb", [
      ("update_url", JStr("https://example.com/vulndb/latest.json")),
      ("auto_update", JBool(true)),
      ("update_interval_days", JInt(7))]),
    ("output", [
      ("format", JStr("html")),
      ("detail_level", JStr("medium")),
      ("default_output_dir", JStr("~/codescan_reports"))])]

  function AsConfig(sections: seq<Section>): (r: Config)
    ensures |r| == |sections|
    ensures forall i :: 0 <= i < |sections| ==> r[i] == (sections[i].0, JObj(sections[i].1))
  {
    seq(|sections|, i requires 0 <= i < |sections| => (sections[i].0, JObj(sections[i].1)))
  }

  /** The configuration used when loading fails: a copy of the defaults. */
  const Defaults: Config := AsConfig(DefaultSections)

  // ---------------------------------------------------------------------
  // Loading

  /** The missing keys of one section dict, added in the defaults' order. */
  function FillKeys(fs: seq<(string, Json)>, defs: seq<(string, Json)>): (r: seq<(string, Json)>)
    ensures |fs| <= |r| && r[..|fs|] == fs
    decreases |defs|
  {
    if |defs| == 0 then fs
    else
      var next := if HasKey(fs, defs[0].0) then fs else Put(fs, defs[0].0, defs[0].1);
      var r := FillKeys(next, defs[1..]);
      PrefixOfPrefix(fs, next, r);
      r
  }

  lemma PrefixOfPrefix<T>(a: seq<T>, b: seq<T>, c: seq<T>)
    requires |a| <= |b| && b[..|a|] == a
    requires |b| <= |c| && c[..|b|] == b
    ensures |a| <= |c| && c[..|a|] == a
  {
    assert c[..|a|] == b[..|a|];
  }

  /** What the key loop does to one section value, or `None` when it raises:
      a dict gets its missing keys; a list or a string (where `in` is list
      membership or a substring test) passes only when every default key is
      "in" it, since assigning into it raises; any other value raises at
      the first `in`. */
  function FillSection(v: Json, defs: seq<(string, Json)>): (r: Option<Json>)
    ensures v.JObj? ==> r.Some? && r.value.JObj?
    ensures !v.JObj? ==> (r.Some? <==> forall i :: 0 <= i < |defs| ==> Member(defs[i].0, v) == Some(true))
    ensures r.Some? && !v.JObj? ==> r.value == v
  {
    if v.JObj? then Some(JObj(FillKeys(v.fields, defs)))
    else if forall i :: 0 <= i < |defs| ==> Member(defs[i].0, v) == Some(true) then Some(v)
    else None
  }

  /** A section as the loop finds it: an absent section is first set to `{}`. */
  function SectionOf(cfg: Config, name: string): Json {
    Lookup(cfg, name).GetOr(JObj([]))
  }

  /** The section loop of `_load_config` over a parsed dict, or `None` when
      it raises. Sections are filled in the defaults' order; a new section
      goes at the end. */
  function FillFrom(cfg: Config, sections: seq<Section>): (r: Option<Config>)
    decreases |sections|
  {
    if |sections| == 0 then Some(cfg)
    else
      var name := sections[0].0;
      match FillSection(SectionOf(cfg, name), sections[0].1)
      case None => None
      case Some(v) => FillFrom(Put(cfg, name, v), sections[1..])
  }

  /** `_load_config`: a parsed dict has its sections and keys completed;
      anything else, a failed read and a raising fill all give the
      defaults. */
  function Load(loaded: Option<Json>): (r: Config)
    ensures (loaded.None? || !loaded.value.JObj?) ==> r == Defaults
  {
    if loaded.Some? && loaded.value.JObj? then FillFrom(loaded.value.fields, DefaultSections).GetOr(Defaults)
    else Defaults
  }

  predicate DistinctNames(sections: seq<Section>) {
    forall i, j :: 0 <= i < j < |sections| ==> sections[i].0 != sections[j].0
  }

  // ---------------------------------------------------------------------
  // Facts about loading

  /** A key the section dict already has keeps its value; a missing key
      gets its default. */
  lemma {:induction false} FillKeysLookup(fs: seq<(string, Json)>, defs: seq<(string, Json)>, k: string)
    ensures Lookup(FillKeys(fs, defs), k) == if HasKey(fs, k) then Lookup(fs, k) else Lookup(defs, k)
    decreases |defs|
  {
    if |defs| > 0 {
      var next := if HasKey(fs, defs[0].0) then fs else Put(fs, defs[0].0, defs[0].1);
      FillKeysLookup(next, defs[1..], k);
      if defs[0].0 != k {
        HasKeyTail(defs, k);
        assert HasKey(next, k) == HasKey(fs, k) by {
          if !HasKey(fs, defs[0].0) {
            assert Lookup(next, k) == Lookup(fs, k);
          }
        }
      }
    }
  }

  /** The section loop fails exactly when some section cannot be filled. */
  lemma {:induction false} FillFromFails(cfg: Config, sections: seq<Section>)
    requires DistinctNames(sections)
    ensures FillFrom(cfg, sections).None? <==>
      exists i :: 0 <= i < |sections| && FillSection(SectionOf(cfg, sections[i].0), sections[i].1).None?
    decreases |sections|
  {
    if |sections| > 0 {
      var name := sections[0].0;
      var v := FillSection(SectionOf(cfg, name), sections[0].1);
      if v.Some? {
        var next := Put(cfg, name, v.value);
        FillFromFails(next, sections[1..]);
        forall i | 1 <= i < |sections|
          ensures sections[1..][i - 1] == sections[i]
          ensures SectionOf(next, sections[i].0) == SectionOf(cfg, sections[i].0)
        {
          assert sections[i].0 != name;
        }
      }
    }
  }

  /** A successful section loop leaves every section it does not fill alone. */
  lemma {:induction false} FillFromOthers(cfg: Config, sections: seq<Section>, k: string)
    requires FillFrom(cfg, sections).Some?
    requires forall i :: 0 <= i < |sections| ==> sections[i].0 != k
    ensures Lookup(FillFrom(cfg, sections).value, k) == Lookup(cfg, k)
    decreases |sections|
  {
    if |sections| > 0 {
      var name := sections[0].0;
      var v := FillSection(SectionOf(cfg, name), sections[0].1);
      assert sections[0].0 != k;
      forall i | 0 <= i < |sections[1..]| ensures sections[1..][i].0 != k {
        assert sections[1..][i] == sections[i + 1];
      }
      FillFromOthers(Put(cfg, name, v.value), sections[1..], k);
    }
  }

  /** A successful section loop leaves each default section holding its
      filled value. */
  lemma {:induction false} FillFromSection(cfg: Config, sections: seq<Section>, i: nat)
    requires DistinctNames(sections) && FillFrom(cfg, sections).Some? && i < |sections|
    ensures Lookup(FillFrom(cfg, sections).value, sections[i].0) == FillSection(SectionOf(cfg, sections[i].0), sections[i].1)
    decreases |sections|
  {
    var name := sections[0].0;
    var v := FillSection(SectionOf(cfg, name), sections[0].1);
    var next := Put(cfg, name, v.value);
    assert FillFrom(cfg, sections) == FillFrom(next, sections[1..]);
    DistinctTail(sections);
    if i == 0 {
      FillFromOthers(next, sections[1..], name);
    } else {
      FillFromSection(next, sections[1..], i - 1);
      assert sections[1..][i - 1] == sections[i];
    }
  }

  lemma DistinctTail(sections: seq<Section>)
    requires DistinctNames(sections) && |sections| > 0
    ensures DistinctNames(sections[1..])
    ensures forall j :: 0 <= j < |sections[1..]| ==> sections[1..][j].0 != sections[0].0
  {
    forall a, b | 0 <= a < b < |sections[1..]| ensures sections[1..][a].0 != sections[1..][b].0 {
      assert sections[1..][a] == sections[a + 1] && sections[1..][b] == sections[b + 1];
    }
    forall j | 0 <= j < |sections[1..]| ensures sections[1..][j].0 != sections[0].0 {
      assert sections[1..][j] == sections[j + 1];
    }
  }

  /** Filling keeps every value a dict section already had. */
  lemma FillKeepsValues(cfg: Config, sections: seq<Section>, section: string, sf: seq<(string, Json)>, key: string)
    requires DistinctNames(sections) && FillFrom(cfg, sections).Some?
    requires Lookup(cfg, section) == Some(JObj(sf)) && HasKey(sf, key)
    ensures GetSetting(FillFrom(cfg, sections).value, section, key, JNull) == Ok(Lookup(sf, key).value)
  {
    var r := FillFrom(cfg, sections).value;
    if i :| 0 <= i < |sections| && sections[i].0 == section {
      FillFromSection(cfg, sections, i);
      assert SectionOf(cfg, section) == JObj(sf);
      var filled := FillKeys(sf, sections[i].1);
      FillKeysLookup(sf, sections[i].1, key);
      GetFromSection(r, section, filled, key);
    } else {
      FillFromOthers(cfg, sections, section);
      GetFromSection(r, section, sf, key);
    }
  }

  lemma GetFromSection(cfg: Config, section: string, fs: seq<(string, Json)>, key: string)
    requires Lookup(cfg, section) == Some(JObj(fs)) && HasKey(fs, key)
    ensures GetSetting(cfg, section, key, JNull) == Ok(Lookup(fs, key).value)
  {
  }

  /** Filling completes a dict section: a default key reads as its stored
      value, or as the default value when it was missing. */
  lemma FillCompletes(cfg: Config, sections: seq<Section>, i: nat, key: string)
    requires DistinctNames(sections) && FillFrom(cfg, sections).Some?
    requires i < |sections| && HasKey(sections[i].1, key)
    requires SectionOf(cfg, sections[i].0).JObj?
    ensures var sf := SectionOf(cfg, sections[i].0).fields;
      GetSetting(FillFrom(cfg, sections).value, sections[i].0, key, JNull)
        == Ok(if HasKey(sf, key) then Lookup(sf, key).value else Lookup(sections[i].1, key).value)
  {
    FillFromSection(cfg, sections, i);
    FillKeysLookup(SectionOf(cfg, sections[i].0).fields, sections[i].1, key);
  }

  /** Loading a dict keeps every value its dict sections already had,
      whenever the load does not fall back. */
  lemma LoadKeepsValues(fs: seq<(string, Json)>, section: string, sf: seq<(string, Json)>, key: string)
    requires FillFrom(fs, DefaultSections).Some?
    requires Lookup(fs, section) == Some(JObj(sf)) && HasKey(sf, key)
    ensures GetSetting(Load(Some(JObj(fs))), section, key, JNull) == Ok(Lookup(sf, key).value)
  {
    DefaultNamesDistinct();
    LoadIs(fs);
    FillKeepsValues(fs, DefaultSections, section, sf, key);
  }

  /** After a load that does not fall back, a default key of a dict section
      reads as its stored value, or as the default value when it was
      missing. */
  lemma LoadFillsMissing(fs: seq<(string, Json)>, i: nat, key: string)
    requires FillFrom(fs, DefaultSections).Some?
    requires i < |DefaultSections| && HasKey(DefaultSections[i].1, key)
    requires SectionOf(fs, DefaultSections[i].0).JObj?
    ensures var sf := SectionOf(fs, DefaultSections[i].0).fields;
      GetSetting(Load(Some(JObj(fs))), DefaultSections[i].0, key, JNull)
        == Ok(if HasKey(sf, key) then Lookup(sf, key).value else Lookup(DefaultSections[i].1, key).value)
  {
    DefaultNamesDistinct();
    LoadIs(fs);
    FillCompletes(fs, DefaultSections, i, key);
  }

  lemma LoadIs(fs: seq<(string, Json)>)
    ensures Load(Some(JObj(fs))) == FillFrom(fs, DefaultSections).GetOr(Defaults)
  {
  }

  /** A section that is not a dict and lacks a default key (as Python's
      `in` sees it) makes the whole load fall back to the defaults. */
  lemma UnfillableSectionFallsBack(fs: seq<(string, Json)>, i: nat, k: nat)
    requires i < |DefaultSections| && k < |DefaultSections[i].1|
    requires !SectionOf(fs, DefaultSections[i].0).JObj?
    requires Member(DefaultSections[i].1[k].0, SectionOf(fs, DefaultSections[i].0)) != Some(true)
    ensures Load(Some(JObj(fs))) == Defaults
  {
    DefaultNamesDistinct();
    var section := DefaultSections[i];
    assert FillSection(SectionOf(fs, section.0), section.1).None?;
    FillFromFails(fs, DefaultSections);
    LoadIs(fs);
  }

  // ---------------------------------------------------------------------
  // Reloading

  /** A dict that already holds every default key is left as it is. */
  lemma {:induction false} FillKeysComplete(fs: seq<(string, Json)>, defs: seq<(string, Json)>)
    requires forall i :: 0 <= i < |defs| ==> HasKey(fs, defs[i].0)
    ensures FillKeys(fs, defs) == fs
    decreases |defs|
  {
    if |defs| > 0 {
      assert forall i :: 0 <= i < |defs[1..]| ==> defs[1..][i] == defs[i + 1];
      FillKeysComplete(fs, defs[1..]);
    }
  }

  /** After filling, every default key is present. */
  lemma FilledHasKeys(fs: seq<(string, Json)>, defs: seq<(string, Json)>)
    ensures forall i :: 0 <= i < |defs| ==> HasKey(FillKeys(fs, defs), defs[i].0)
  {
    forall i | 0 <= i < |defs| ensures HasKey(FillKeys(fs, defs), defs[i].0) {
      FillKeysLookup(fs, defs, defs[i].0);
      assert HasKey(defs, defs[i].0);
    }
  }

  /** Filling a section twice is filling it once. */
  lemma FillSectionStable(v: Json, defs: seq<(string, Json)>)
    requires FillSection(v, defs).Some?
    ensures FillSection(FillSection(v, defs).value, defs) == FillSection(v, defs)
  {
    if v.JObj? {
      FilledHasKeys(v.fields, defs);
      FillKeysComplete(FillKeys(v.fields, defs), defs);
    }
  }

  /** Writing back the value a key already has changes nothing. */
  lemma {:induction false} PutSame(fs: seq<(string, Json)>, key: string)
    requires HasKey(fs, key)
    ensures Put(fs, key, Lookup(fs, key).value) == fs
  {
    if fs[0].0 != key {
      HasKeyTail(fs, key);
      PutSame(fs[1..], key);
    }
  }

  /** The section loop leaves a configuration alone when every section is
      present and filling it changes nothing. */
  lemma {:induction false} FillFromStable(r: Config, sections: seq<Section>)
    requires forall i :: 0 <= i < |sections| ==>
      HasKey(r, sections[i].0) && FillSection(Lookup(r, sections[i].0).value, sections[i].1) == Lookup(r, sections[i].0)
    ensures FillFrom(r, sections) == Some(r)
    decreases |sections|
  {
    if |sections| > 0 {
      PutSame(r, sections[0].0);
      assert forall i :: 0 <= i < |sections[1..]| ==> sections[1..][i] == sections[i + 1];
      FillFromStable(r, sections[1..]);
    }
  }

  /** Filling a filled configuration changes nothing. */
  lemma FillIdempotent(cfg: Config, sections: seq<Section>)
    requires DistinctNames(sections) && FillFrom(cfg, sections).Some?
    ensures FillFrom(FillFrom(cfg, sections).value, sections) == FillFrom(cfg, sections)
  {
    var r := FillFrom(cfg, sections).value;
    forall i | 0 <= i < |sections|
      ensures HasKey(r, sections[i].0) && FillSection(Lookup(r, sections[i].0).value, sections[i].1) == Lookup(r, sections[i].0)
    {
      FilledSectionStable(cfg, sections, i);
    }
    FillFromStable(r, sections);
  }

  lemma FilledSectionStable(cfg: Config, sections: seq<Section>, i: nat)
    requires DistinctNames(sections) && FillFrom(cfg, sections).Some? && i < |sections|
    ensures var r := FillFrom(cfg, sections).value;
      HasKey(r, sections[i].0) && FillSection(Lookup(r, sections[i].0).value, sections[i].1) == Lookup(r, sections[i].0)
  {
    FillFromFails(cfg, sections);
    FillFromSection(cfg, sections, i);
    FillSectionStable(SectionOf(cfg, sections[i].0), sections[i].1);
  }

  /** The defaults need no filling. */
  lemma AsConfigStable(sections: seq<Section>)
    requires DistinctNames(sections)
    ensures FillFrom(AsConfig(sections), sections) == Some(AsConfig(sections))
  {
    var r := AsConfig(sections);
    forall i | 0 <= i < |sections|
      ensures HasKey(r, sections[i].0) && FillSection(Lookup(r, sections[i].0).value, sections[i].1) == Lookup(r, sections[i].0)
    {
      LookupFirst(r, i);
      var defs := sections[i].1;
      forall k | 0 <= k < |defs| ensures HasKey(defs, defs[k].0) {
        assert defs[k].0 == defs[k].0;
      }
      FillKeysComplete(defs, defs);
    }
    FillFromStable(r, sections);
  }

  /** Loading what a load produced gives it back: the configuration
      `save_config` writes after loading loads back unchanged. */
  lemma LoadIdempotent(loaded: Option<Json>)
    ensures Load(Some(JObj(Load(loaded)))) == Load(loaded)
  {
    DefaultNamesDistinct();
    AsConfigStable(DefaultSections);
    if loaded.Some? && loaded.value.JObj? && FillFrom(loaded.value.fields, DefaultSections).Some? {
      FillIdempotent(loaded.value.fields, DefaultSections);
    }
    LoadIs(Load(loaded));
  }

  lemma DefaultNamesDistinct()
    ensures DistinctNames(DefaultSections)
  {
    var s := DefaultSections;
    forall i, j | 0 <= i < j < |s| ensures s[i].0 != s[j].0 {
      assert s[i].0[0] != s[j].0[0] || |s[i].0| != |s[j].0|;
    }
  }

  // ---------------------------------------------------------------------
  // get and set

  /** `get(section, key, default)`: a missing section or key gives the
      default (the `KeyError` is caught); indexing a section that is not a
      dict raises `TypeError`, which is not caught. */
  function GetSetting(cfg: Config, section: string, key: string, default: Json): (r: Result<Json, string>)
    ensures !HasKey(cfg, section) ==> r == Ok(default)
    ensures r.Err? <==> HasKey(cfg, section) && !Lookup(cfg, section).value.JObj?
  {
    match Lookup(cfg, section)
    case None => Ok(default)
    case Some(JObj(fs)) => Ok(Lookup(fs, key).GetOr(default))
    case Some(_) => Err("TypeError")
  }

  /** `set(section, key, value)`: an absent section is created as `{}`
      first; assigning into a section that is not a dict raises. */
  function SetSetting(cfg: Config, section: string, key: string, value: Json): (r: Result<Config, string>)
    ensures r.Err? <==> HasKey(cfg, section) && !Lookup(cfg, section).value.JObj?
  {
    match SectionOf(cfg, section)
    case JObj(fs) => Ok(Put(cfg, section, JObj(Put(fs, key, value))))
    case _ => Err("TypeError")
  }

  /** Reading back what was just set gives it. */
  lemma SetThenGet(cfg: Config, section: string, key: string, value: Json, default: Json)
    requires SetSetting(cfg, section, key, value).Ok?
    ensures GetSetting(SetSetting(cfg, section, key, value).value, section, key, default) == Ok(value)
  {
  }

  /** `set` changes only the one key: every other setting reads as before. */
  lemma SetChangesOnlyKey(cfg: Config, section: string, key: string, value: Json,
                          section': string, key': string, default: Json)
    requires SetSetting(cfg, section, key, value).Ok?
    requires section' != section || key' != key
    requires section' == section ==> HasKey(cfg, section)
    ensures GetSetting(SetSetting(cfg, section, key, value).value, section', key', default)
      == GetSetting(cfg, section', key', default)
  {
  }

  /** A section `set` creates holds exactly the new key. */
  lemma SetCreatesSection(cfg: Config, section: string, key: string, value: Json)
    requires !HasKey(cfg, section)
    ensures SetSetting(cfg, section, key, value) == Ok(cfg + [(section, JObj([(key, value)]))])
  {
  }

  // ---------------------------------------------------------------------
  // Model entries

  /** `config.get("models", {})`. */
  function Models(cfg: Config): Json {
    Lookup(cfg, "models").GetOr(JObj([]))
  }

  /** `get_model_config(name)`: the named entry, else the `default` entry,
      else `{}`; a `models` value that is not a dict has no `get` and
      raises. */
  function ModelConfig(cfg: Config, name: string): (r: Result<Json, string>)
    ensures r.Err? <==> !Models(cfg).JObj?
  {
    var models := Models(cfg);
    if !models.JObj? then Err("AttributeError")
    else Ok(Lookup(models.fields, name).GetOr(Lookup(models.fields, "default").GetOr(JObj([]))))
  }

  /** The lookup order of `get_model_config`. */
  lemma ModelConfigFallback(cfg: Config, name: string)
    requires Models(cfg).JObj?
    ensures var ms := Models(cfg).fields;
      && (HasKey(ms, name) ==> ModelConfig(cfg, name) == Ok(Lookup(ms, name).value))
      && (!HasKey(ms, name) && HasKey(ms, "default") ==> ModelConfig(cfg, name) == Ok(Lookup(ms, "default").value))
      && (!HasKey(ms, name) && !HasKey(ms, "default") ==> ModelConfig(cfg, name) == Ok(JObj([])))
  {
  }

  /** The entry `add_model_config` writes: exactly these four keys. */
  function ModelEntry(provider: string, model: string, apiKey: string, maxTokens: int): Json {
    JObj([("provider", JStr(provider)), ("model", JStr(model)), ("api_key", JStr(apiKey)), ("max_tokens", JInt(maxTokens))])
  }

  /** `add_model_config`: creates `models` when absent and overwrites the
      entry `name`; a `models` value that is not a dict raises. */
  function AddModelConfig(cfg: Config, name: string, provider: string, model: string, apiKey: string, maxTokens: int)
    : (r: Result<Config, string>)
    ensures r.Err? <==> !SectionOf(cfg, "models").JObj?
  {
    match SectionOf(cfg, "models")
    case JObj(ms) => Ok(Put(cfg, "models", JObj(Put(ms, name, ModelEntry(provider, model, apiKey, maxTokens)))))
    case _ => Err("TypeError")
  }

  /** The added entry is what `get_model_config` returns for its name, and
      every other entry is untouched. */
  lemma AddThenGet(cfg: Config, name: string, provider: string, model: string, apiKey: string, maxTokens: int, other: string)
    requires AddModelConfig(cfg, name, provider, model, apiKey, maxTokens).Ok?
    ensures var r := AddModelConfig(cfg, name, provider, model, apiKey, maxTokens).value;
      && ModelConfig(r, name) == Ok(ModelEntry(provider, model, apiKey, maxTokens))
      && (other != name ==> Lookup(Models(r).fields, other) == Lookup(Models(cfg).fields, other))
  {
  }
}

=== FILE: text.dfy ===
/** Python `str` operations used by the core, on `string` = `seq<char>`.
    Case mapping covers ASCII letters only. */
module Text {
  import opened Wrappers

  /** Python's `str.isspace()` for one character (also what `\s` matches in
      a `str` regex): ASCII whitespace, the four separator controls
      U+001C..U+001F, and the Unicode space characters. */
  predicate IsSpace(c: char) {
    c == ' ' || c == '\t' || c == '\n' || c == '\r' || c == '\U{000B}' || c == '\U{000C}'
    || ('\U{001C}' <= c <= '\U{001F}') || c == '\U{0085}' || c == '\U{00A0}'
    || c == '\U{1680}' || ('\U{2000}' <= c <= '\U{200A}') || c == '\U{2028}'
    || c == '\U{2029}' || c == '\U{202F}' || c == '\U{205F}' || c == '\U{3000}'
  }

  predicate AllSpace(s: string) {
    forall i :: 0 <= i < |s| ==> IsSpace(s[i])
  }

  /** `str.lstrip()`: drops leading whitespace. */
  function LStrip(s: string): (r: string)
    ensures |r| <= |s| && r == s[|s| - |r|..]
    ensures AllSpace(s[..|s| - |r|])
    ensures |r| > 0 ==> !IsSpace(r[0])
  {
    if |s| > 0 && IsSpace(s[0]) then
      var r := LStrip(s[1..]);
      LStripStep(s, r);
      r
    else s
  }

  lemma LStripStep(s: string, r: string)
    requires |s| > 0 && IsSpace(s[0])
    requires |r| <= |s[1..]| && r == s[1..][|s[1..]| - |r|..] && AllSpace(s[1..][..|s[1..]| - |r|])
    ensures r == s[|s| - |r|..] && AllSpace(s[..|s| - |r|])
  {
    assert s[..|s| - |r|] == [s[0]] + s[1..][..|s[1..]| - |r|];
  }

  /** `str.rstrip()`: drops trailing whitespace. */
  function RStrip(s: string): (r: string)
    ensures |r| <= |s| && r == s[..|r|]
    ensures AllSpace(s[|r|..])
    ensures |r| > 0 ==> !IsSpace(r[|r| - 1])
  {
    if |s| > 0 && IsSpace(s[|s| - 1]) then
      var r := RStrip(s[..|s| - 1]);
      RStripStep(s, r);
      r
    else s
  }

  lemma RStripStep(s: string, r: string)
    requires |s| > 0 && IsSpace(s[|s| - 1])
    requires |r| <= |s| - 1 && r == s[..|s| - 1][..|r|] && AllSpace(s[..|s| - 1][|r|..])
    ensures r == s[..|r|] && AllSpace(s[|r|..])
  {
    assert s[|r|..] == s[..|s| - 1][|r|..] + [s[|s| - 1]];
  }

  /** `str.strip()`: the slice left after dropping whitespace at both ends. */
  function Strip(s: string): (r: string)
    ensures exists a, b :: (0 <= a <= b <= |s| && r == s[a..b]
                            && AllSpace(s[..a]) && AllSpace(s[b..]))
    ensures |r| > 0 ==> !IsSpace(r[0]) && !IsSpace(r[|r| - 1])
  {
    var l := LStrip(s);
    var r := RStrip(l);
    StripPieces(s, l, r);
    r
  }

  lemma StripPieces(s: string, l: string, r: string)
    requires |l| <= |s| && l == s[|s| - |l|..] && AllSpace(s[..|s| - |l|])
    requires |r| <= |l| && r == l[..|r|] && AllSpace(l[|r|..])
    requires |l| > 0 ==> !IsSpace(l[0])
    requires |r| > 0 ==> !IsSpace(r[|r| - 1])
    ensures exists a, b :: (0 <= a <= b <= |s| && r == s[a..b]
                            && AllSpace(s[..a]) && AllSpace(s[b..]))
    ensures |r| > 0 ==> !IsSpace(r[0]) && !IsSpace(r[|r| - 1])
  {
    var a := |s| - |l|;
    assert s[a + |r|..] == l[|r|..];
    assert r == s[a..a + |r|] && AllSpace(s[..a]) && AllSpace(s[a + |r|..]);
  }

  /** True when the string is empty after stripping (`not s.strip()`). */
  predicate IsBlank(s: string) {
    Strip(s) == []
  }

  function LowerChar(c: char): char {
    if 'A' <= c <= 'Z' then (c as int + 32) as char else c
  }

  /** `str.lower()` (ASCII letters). */
  function Lower(s: string): (r: string)
    ensures |r| == |s|
    ensures forall i :: 0 <= i < |s| ==> r[i] == LowerChar(s[i])
  {
    seq(|s|, i requires 0 <= i < |s| => LowerChar(s[i]))
  }

  predicate StartsWith(s: string, prefix: string) {
    |prefix| <= |s| && s[..|prefix|] == prefix
  }

  predicate EndsWith(s: string, suffix: string) {
    |suffix| <= |s| && s[|s| - |suffix|..] == suffix
  }

  predicate Contains(s: string, c: char) {
    exists i :: 0 <= i < |s| && s[i] == c
  }

  /** `sub in s` for strings: `sub` occurs somewhere in `s`. */
  predicate Occurs(sub: string, s: string) {
    exists i :: 0 <= i <= |s| - |sub| && OccursAt(sub, s, i)
  }

  predicate OccursAt(sub: string, s: string, i: int) {
    0 <= i <= |s| - |sub| && s[i..i + |sub|] == sub
  }

  /** `s.find(c)`: the first index of `c`, or -1. */
  function Find(s: string, c: char): (r: int)
    ensures -1 <= r < |s|
    ensures r == -1 <==> !Contains(s, c)
    ensures r >= 0 ==> s[r] == c && forall j :: 0 <= j < r ==> s[j] != c
  {
    if |s| == 0 then -1
    else if s[0] == c then 0
    else
      var k := Find(s[1..], c);
      assert Contains(s, c) ==> Contains(s[1..], c) by {
        if Contains(s, c) {
          var i :| 0 <= i < |s| && s[i] == c;
          assert s[1..][i - 1] == c;
        }
      }
      assert k >= 0 ==> s[k + 1] == c;
      if k == -1 then -1 else k + 1
  }

  /** `s.rfind(c)`: the last index of `c`, or -1. */
  function RFind(s: string, c: char): (r: int)
    ensures -1 <= r < |s|
    ensures r == -1 <==> !Contains(s, c)
    ensures r >= 0 ==> s[r] == c && forall j :: r < j < |s| ==> s[j] != c
  {
    if |s| == 0 then -1
    else if s[|s| - 1] == c then |s| - 1
    else
      var k := RFind(s[..|s| - 1], c);
      assert Contains(s, c) ==> Contains(s[..|s| - 1], c) by {
        if Contains(s, c) {
          var i :| 0 <= i < |s| && s[i] == c;
          assert s[..|s| - 1][i] == c;
        }
      }
      k
  }

  /** `s.replace(target, replacement)`: left-to-right, non-overlapping. */
  function ReplaceAll(s: string, target: string, replacement: string): (r: string)
    requires |target| > 0
    decreases |s|
  {
    if |s| < |target| then s
    else if s[..|target|] == target then replacement + ReplaceAll(s[|target|..], target, replacement)
    else [s[0]] + ReplaceAll(s[1..], target, replacement)
  }

  /** `sep.join(parts)`. */
  function Join(sep: string, parts: seq<string>): string {
    if |parts| == 0 then ""
    else if |parts| == 1 then parts[0]
    else parts[0] + sep + Join(sep, parts[1..])
  }

  /** `s.split(sep)` for a one-character separator: always at least one
      part, and joining the parts with `sep` gives `s` back. */
  function Split(s: string, sep: char): (parts: seq<string>)
    ensures |parts| >= 1
    ensures forall i :: 0 <= i < |parts| ==> !Contains(parts[i], sep)
    ensures Join([sep], parts) == s
  {
    var k := Find(s, sep);
    if k == -1 then [s]
    else
      var rest := Split(s[k + 1..], sep);
      SplitStep(s, sep, k, rest);
      [s[..k]] + rest
  }

  lemma SplitStep(s: string, sep: char, k: nat, rest: seq<string>)
    requires k < |s| && s[k] == sep && forall j :: 0 <= j < k ==> s[j] != sep
    requires |rest| >= 1 && forall i :: 0 <= i < |rest| ==> !Contains(rest[i], sep)
    requires Join([sep], rest) == s[k + 1..]
    ensures var parts := [s[..k]] + rest;
      && (forall i :: 0 <= i < |parts| ==> !Contains(parts[i], sep))
      && Join([sep], parts) == s
  {
    var parts := [s[..k]] + rest;
    assert parts[1..] == rest;
    assert s == s[..k] + [sep] + s[k + 1..];
  }

  /** The first occurrence is where the character first appears. */
  lemma FindIs(s: string, c: char, k: nat)
    requires k < |s| && s[k] == c
    requires forall j :: 0 <= j < k ==> s[j] != c
    ensures Find(s, c) == k
  {
    assert Contains(s, c);
  }

  /** The first `n` characters, `s[:n]`. */
  function Take(s: string, n: nat): (r: string)
    ensures |r| <= n && StartsWith(s, r)
    ensures |s| <= n ==> r == s
  {
    if |s| <= n then s else s[..n]
  }

  function Digit(d: nat): char
    requires d < 10
  {
    "0123456789"[d]
  }

  predicate IsDigit(c: char) {
    '0' <= c <= '9'
  }

  function DigitValue(c: char): (v: nat)
    requires IsDigit(c)
    ensures v < 10
  {
    (c as int - 48) as nat
  }

  /** Decimal text of a natural number, no leading zeros. */
  function NatToString(n: nat): (r: string)
    ensures |r| >= 1
    ensures forall i :: 0 <= i < |r| ==> IsDigit(r[i])
  {
    if n < 10 then [Digit(n)] else NatToString(n / 10) + [Digit(n % 10)]
  }

  /** Python's `str(i)` for an integer. */
  function IntToString(i: int): string {
    if i < 0 then "-" + NatToString(-i) else NatToString(i)
  }

  /** The value of a string of decimal digits. */
  function DigitsValue(s: string): nat
    requires forall i :: 0 <= i < |s| ==> IsDigit(s[i])
  {
    if |s| == 0 then 0 else DigitsValue(s[..|s| - 1]) * 10 + DigitValue(s[|s| - 1])
  }

  predicate AllDigits(s: string) {
    |s| > 0 && forall i :: 0 <= i < |s| ==> IsDigit(s[i])
  }

  /** Parses an optionally signed decimal integer. */
  function ParseInt(s: string): (r: Option<int>)
    ensures AllDigits(s) ==> r == Some(DigitsValue(s))
  {
    if |s| > 0 && (s[0] == '-' || s[0] == '+') then
      if AllDigits(s[1..]) then
        var v: int := DigitsValue(s[1..]);
        Some(if s[0] == '-' then -v else v)
      else None
    else if AllDigits(s) then Some(DigitsValue(s))
    else None
  }

  lemma {:induction false} DigitsOfNat(n: nat)
    ensures DigitsValue(NatToString(n)) == n
    decreases n
  {
    if n >= 10 {
      DigitsOfNat(n / 10);
      var s := NatToString(n);
      assert s[..|s| - 1] == NatToString(n / 10);
    }
  }

  lemma NegativeParse(d: string)
    requires AllDigits(d)
    ensures ParseInt("-" + d) == Some(-(DigitsValue(d) as int))
  {
    var s := "-" + d;
    assert s[1..] == d;
  }

  lemma PositiveParse(d: string)
    requires AllDigits(d)
    ensures ParseInt(d) == Some(DigitsValue(d) as int)
  {
    assert d[0] != '-' && d[0] != '+' by { assert IsDigit(d[0]); }
  }

  /** Printing an integer and parsing it back gives the same integer. */
  lemma IntToStringRoundTrip(i: int)
    ensures ParseInt(IntToString(i)) == Some(i)
  {
    if i < 0 {
      var d := NatToString(-i);
      assert IntToString(i) == "-" + d;
      DigitsOfNat(-i);
      NegativeParse(d);
    } else {
      var d := NatToString(i);
      assert IntToString(i) == d;
      DigitsOfNat(i);
      PositiveParse(d);
    }
  }

  /** `f"{n:04d}"` for a natural number: zero-padded to at least 4 digits. */
  function ZeroPad4(n: nat): (r: string)
    ensures |r| >= 4
    ensures AllDigits(r) && DigitsValue(r) == n
  {
    var d := NatToString(n);
    DigitsOfNat(n);
    var k: nat := if |d| < 4 then 4 - |d| else 0;
    var r := seq(k, _ => '0') + d;
    LeadingZeros(k, d);
    r
  }

  lemma {:induction false} LeadingZeros(k: nat, d: string)
    requires AllDigits(d)
    ensures AllDigits(seq(k, _ => '0') + d)
    ensures DigitsValue(seq(k, _ => '0') + d) == DigitsValue(d)
    decreases |d|
  {
    var z := seq(k, _ => '0');
    if |d| == 1 {
      var t := z + d;
      assert t[..|t| - 1] == z;
      ZerosValue(z);
    } else {
      var t := z + d;
      assert t[..|t| - 1] == z + d[..|d| - 1];
      LeadingZeros(k, d[..|d| - 1]);
    }
  }

  lemma {:induction false} ZerosValue(z: string)
    requires forall i :: 0 <= i < |z| ==> z[i] == '0'
    ensures DigitsValue(z) == 0
    decreases |z|
  {
    if |z| > 0 {
      ZerosValue(z[..|z| - 1]);
    }
  }

  /** `os.path.basename`: the text after the last `/`. */
  function BaseName(path: string): (r: string)
    ensures EndsWith(path, r) && !Contains(r, '/')
  {
    var k := RFind(path, '/');
    path[k + 1..]
  }
}

=== FILE: walk.dfy ===
/** Which files a directory scan visits: `CodeScanner._should_exclude_path`
    and `CodeScanner._collect_files` in `codescan/scanner.py`. The file
    system is a tree given as data; paths are POSIX paths. */
module Walk {
  import opened Wrappers
  import Text
  import FileUtils

  /** What `os.path.isfile`, `os.path.getsize`, `mimetypes.guess_type` and
      reading the first bytes report about a directory entry. `Special` is
      anything `isfile` rejects (a broken link, a socket, ...). */
  datatype FileInfo =
    | Special
    | Regular(size: nat, mime: Option<string>, head: Option<seq<FileUtils.Byte>>)

  datatype FileEntry = FileEntry(name: string, info: FileInfo)

  /** A directory: its files and its sub-directories, each in listing order. */
  datatype Tree = Tree(files: seq<FileEntry>, subdirs: seq<Sub>)
  datatype Sub = Sub(name: string, tree: Tree)

  /** A collected file: its path and what the file system says about it. */
  type Found = (string, FileInfo)

  /** The `scan` section of the configuration. */
  datatype ScanConfig = ScanConfig(excludedDirs: set<string>, excludedFiles: set<string>, maxFileSizeMb: int)

  const Megabyte: nat := 1024 * 1024

  // ---------------------------------------------------------------------
  // Path parts

  /** The anchor `PurePosixPath` keeps as the first part: exactly two
      leading slashes are kept as `//`, one or three and more give `/`. */
  function Anchor(p: string): string {
    if |p| >= 2 && p[0] == '/' && p[1] == '/' && (|p| == 2 || p[2] != '/') then "//"
    else if |p| >= 1 && p[0] == '/' then "/"
    else ""
  }

  /** `p.split("/")`. */
  function Pieces(p: string): (r: seq<string>)
    ensures |r| >= 1
  {
    if |p| == 0 then [""]
    else if p[0] == '/' then [""] + Pieces(p[1..])
    else
      var rest := Pieces(p[1..]);
      [[p[0]] + rest[0]] + rest[1..]
  }

  /** The components between slashes, without the empty and `.` ones. */
  function Components(p: string): seq<string> {
    Named(Pieces(p))
  }

  function Named(cs: seq<string>): (r: seq<string>)
    ensures forall x :: x in r ==> x in cs && x != "" && x != "."
  {
    if |cs| == 0 then []
    else if cs[0] == "" || cs[0] == "." then Named(cs[1..])
    else [cs[0]] + Named(cs[1..])
  }

  /** `Path(p).parts`. */
  function Parts(p: string): seq<string> {
    (if Anchor(p) == "" then [] else [Anchor(p)]) + Components(p)
  }

  /** A name as `os.listdir` returns it. */
  predicate ValidName(n: string) {
    n != "" && n != "." && !Text.Contains(n, '/')
  }

  /** `os.path.join(a, n)` for a listed name `n`. */
  function JoinPath(a: string, n: string): (r: string)
    ensures Text.StartsWith(r, a) && Text.EndsWith(r, n)
  {
    if a == "" || Text.EndsWith(a, "/") then a + n else a + "/" + n
  }

  // ---------------------------------------------------------------------
  // Exclusion

  predicate InExcludedDir(cfg: ScanConfig, path: string) {
    exists i :: 0 <= i < |Parts(path)| && Parts(path)[i] in cfg.excludedDirs
  }

  predicate HasExcludedSuffix(cfg: ScanConfig, path: string) {
    exists e :: e in cfg.excludedFiles && Text.EndsWith(path, e)
  }

  /** `size / (1024 * 1024) > max_file_size_mb`, in whole bytes. */
  predicate TooLarge(cfg: ScanConfig, info: FileInfo) {
    info.Regular? && info.size > cfg.maxFileSizeMb * Megabyte
  }

  predicate LooksBinary(info: FileInfo) {
    info.Regular? && FileUtils.IsBinary(info.mime, info.head)
  }

  /** The reason a path is excluded, checked in the order the scanner
      checks them. */
  datatype Reason = ExcludedDir | ExcludedSuffix | TooBig | Binary

  function ExclusionReason(cfg: ScanConfig, path: string, info: FileInfo): (r: Option<Reason>)
    ensures r == Some(ExcludedDir) <==> InExcludedDir(cfg, path)
    ensures r == Some(ExcludedSuffix) <==> !InExcludedDir(cfg, path) && HasExcludedSuffix(cfg, path)
    ensures r.Some? && r.value.TooBig? ==> info.Regular? && !InExcludedDir(cfg, path) && !HasExcludedSuffix(cfg, path)
    ensures r.None? ==> !TooLarge(cfg, info) && !LooksBinary(info)
  {
    if InExcludedDir(cfg, path) then Some(ExcludedDir)
    else if HasExcludedSuffix(cfg, path) then Some(ExcludedSuffix)
    else if TooLarge(cfg, info) then Some(TooBig)
    else if LooksBinary(info) then Some(Binary)
    else None
  }

  /** `_should_exclude_path`. */
  predicate ShouldExclude(cfg: ScanConfig, path: string, info: FileInfo) {
    ExclusionReason(cfg, path, info).Some?
  }

  /** A path is excluded exactly when one of the four checks fires; the size
      and content checks only apply to regular files. */
  lemma ExclusionCases(cfg: ScanConfig, path: string, info: FileInfo)
    ensures ShouldExclude(cfg, path, info)
        <==> InExcludedDir(cfg, path) || HasExcludedSuffix(cfg, path) || TooLarge(cfg, info) || LooksBinary(info)
    ensures info.Special? ==> (ShouldExclude(cfg, path, info) <==> InExcludedDir(cfg, path) || HasExcludedSuffix(cfg, path))
  {
  }

  // ---------------------------------------------------------------------
  // The walk

  /** The files of one directory that survive the exclusion check. */
  function KeepFiles(cfg: ScanConfig, root: string, files: seq<FileEntry>): (r: seq<Found>)
    ensures forall x :: x in r ==> !ShouldExclude(cfg, x.0, x.1)
    ensures |r| <= |files|
  {
    if |files| == 0 then []
    else
      var p := JoinPath(root, files[0].name);
      var rest := KeepFiles(cfg, root, files[1..]);
      if ShouldExclude(cfg, p, files[0].info) then rest else [(p, files[0].info)] + rest
  }

  /** `_collect_files`: `os.walk` top-down, each directory's files before
      its sub-directories, sub-directories named in `excluded_dirs` pruned
      before descending. */
  function Collect(cfg: ScanConfig, root: string, t: Tree): (r: seq<Found>)
    ensures forall x :: x in r ==> !ShouldExclude(cfg, x.0, x.1)
    decreases t, 1
  {
    KeepFiles(cfg, root, t.files) + CollectSubs(cfg, root, t, 0)
  }

  function CollectSubs(cfg: ScanConfig, root: string, t: Tree, i: nat): (r: seq<Found>)
    requires i <= |t.subdirs|
    ensures forall x :: x in r ==> !ShouldExclude(cfg, x.0, x.1)
    decreases t, 0, |t.subdirs| - i
  {
    if i == |t.subdirs| then []
    else
      var s := t.subdirs[i];
      var below := if s.name in cfg.excludedDirs then [] else Collect(cfg, JoinPath(root, s.name), s.tree);
      below + CollectSubs(cfg, root, t, i + 1)
  }

  /** Every file under `root`, in walk order, with nothing pruned or
      excluded: the reference the pruned walk is compared with. */
  function AllFiles(root: string, t: Tree): seq<Found>
    decreases t, 1
  {
    Here(root, t.files) + AllFilesSubs(root, t, 0)
  }

  function Here(root: string, files: seq<FileEntry>): (r: seq<Found>)
    ensures |r| == |files|
    ensures forall k :: 0 <= k < |files| ==> r[k] == (JoinPath(root, files[k].name), files[k].info)
  {
    if |files| == 0 then [] else [(JoinPath(root, files[0].name), files[0].info)] + Here(root, files[1..])
  }

  function AllFilesSubs(root: string, t: Tree, i: nat): seq<Found>
    requires i <= |t.subdirs|
    decreases t, 0, |t.subdirs| - i
  {
    if i == |t.subdirs| then []
    else AllFiles(JoinPath(root, t.subdirs[i].name), t.subdirs[i].tree) + AllFilesSubs(root, t, i + 1)
  }

  function Unexcluded(cfg: ScanConfig, fs: seq<Found>): (r: seq<Found>)
  {
    if |fs| == 0 then []
    else if ShouldExclude(cfg, fs[0].0, fs[0].1) then Unexcluded(cfg, fs[1..])
    else [fs[0]] + Unexcluded(cfg, fs[1..])
  }

  /** Every name in the tree is one `os.listdir` could return. */
  predicate WellNamed(t: Tree)
    decreases t, 1
  {
    (forall k :: 0 <= k < |t.files| ==> ValidName(t.files[k].name))
    && WellNamedSubs(t, 0)
  }

  predicate WellNamedSubs(t: Tree, i: nat)
    requires i <= |t.subdirs|
    decreases t, 0, |t.subdirs| - i
  {
    i == |t.subdirs| || (ValidName(t.subdirs[i].name) && WellNamed(t.subdirs[i].tree) && WellNamedSubs(t, i + 1))
  }

  // ---------------------------------------------------------------------
  // Pruning only saves work

  lemma {:induction false} NamedConcat(a: seq<string>, b: seq<string>)
    ensures Named(a + b) == Named(a) + Named(b)
    decreases |a|
  {
    if |a| > 0 {
      NamedConcat(a[1..], b);
      assert (a + b)[0] == a[0] && (a + b)[1..] == a[1..] + b;
      if a[0] == "" || a[0] == "." {
        assert Named(a + b) == Named(a[1..] + b);
      } else {
        assert Named(a + b) == [a[0]] + Named(a[1..] + b);
      }
    } else {
      assert a + b == b;
    }
  }

  lemma {:induction false} PiecesConcat(a: string, b: string)
    ensures Pieces(a + "/" + b) == Pieces(a) + Pieces(b)
    decreases |a|
  {
    var s := a + "/" + b;
    if |a| == 0 {
      assert s == "/" + b;
      assert s[1..] == b;
    } else {
      PiecesConcat(a[1..], b);
      assert s[1..] == a[1..] + "/" + b;
      PiecesCons(s, a, Pieces(b));
    }
  }

  /** Two texts that start alike and whose rests split alike up to a common
      tail split alike up to that tail. */
  lemma PiecesCons(s: string, a: string, tail: seq<string>)
    requires |s| > 0 && |a| > 0 && s[0] == a[0]
    requires Pieces(s[1..]) == Pieces(a[1..]) + tail
    ensures Pieces(s) == Pieces(a) + tail
  {
    var ps := Pieces(s[1..]);
    var qs := Pieces(a[1..]);
    if a[0] == '/' {
      ConsEmpty(ps, qs, tail);
    } else {
      ConsChar(a[0], ps, qs, tail);
    }
  }

  lemma ConsEmpty(ps: seq<string>, qs: seq<string>, tail: seq<string>)
    requires ps == qs + tail
    ensures [""] + ps == ([""] + qs) + tail
  {
  }

  lemma ConsChar(c: char, ps: seq<string>, qs: seq<string>, tail: seq<string>)
    requires |qs| >= 1 && ps == qs + tail
    ensures [[c] + ps[0]] + ps[1..] == ([[c] + qs[0]] + qs[1..]) + tail
  {
    assert ps[0] == qs[0] && ps[1..] == qs[1..] + tail;
  }

  lemma {:induction false} PiecesOfName(n: string)
    requires !Text.Contains(n, '/')
    ensures Pieces(n) == [n]
    decreases |n|
  {
    if |n| > 0 {
      assert n[0] != '/';
      PiecesOfName(n[1..]);
      assert [n[0]] + n[1..] == n;
    }
  }

  /** Joining a listed name adds exactly that name to the parts. */
  lemma PartsOfJoin(a: string, n: string)
    requires ValidName(n)
    ensures Parts(JoinPath(a, n)) == Parts(a) + [n]
  {
    PiecesOfName(n);
    assert Named([n]) == [n];
    assert Pieces("") == [""];
    assert Named([""]) == [];
    if a == "" {
      assert Components(n) == [n];
    } else if Text.EndsWith(a, "/") {
      PartsAfterSlash(a, n);
    } else {
      PartsAddSlash(a, n);
    }
  }

  lemma PartsAfterSlash(a: string, n: string)
    requires ValidName(n) && a != "" && Text.EndsWith(a, "/")
    requires Pieces(n) == [n] && Named([n]) == [n] && Pieces("") == [""] && Named([""]) == []
    ensures Parts(a + n) == Parts(a) + [n]
  {
    ComponentsAfterSlash(a, n);
    AnchorKept(a, n);
    PartsGrow(a, a + n, n);
  }

  lemma ComponentsAfterSlash(a: string, n: string)
    requires a != "" && Text.EndsWith(a, "/")
    requires Pieces(n) == [n] && Named([n]) == [n] && Pieces("") == [""] && Named([""]) == []
    ensures Components(a + n) == Components(a) + [n]
  {
    var front := a[..|a| - 1];
    assert a == front + "/" + "";
    assert a + n == front + "/" + n;
    PiecesConcat(front, "");
    PiecesConcat(front, n);
    NamedConcat(Pieces(front), [""]);
    NamedConcat(Pieces(front), [n]);
  }

  lemma PartsAddSlash(a: string, n: string)
    requires ValidName(n) && a != "" && !Text.EndsWith(a, "/")
    requires Pieces(n) == [n] && Named([n]) == [n]
    ensures Parts(a + "/" + n) == Parts(a) + [n]
  {
    PiecesConcat(a, n);
    NamedConcat(Pieces(a), [n]);
    AnchorKeptSlash(a, n);
    PartsGrow(a, a + "/" + n, n);
  }

  lemma PartsGrow(a: string, b: string, n: string)
    requires Anchor(b) == Anchor(a) && Components(b) == Components(a) + [n]
    ensures Parts(b) == Parts(a) + [n]
  {
    var lead := if Anchor(a) == "" then [] else [Anchor(a)];
    assert Parts(a) == lead + Components(a);
    assert Parts(b) == lead + (Components(a) + [n]);
  }

  lemma AnchorKept(a: string, n: string)
    requires a != "" && Text.EndsWith(a, "/") && ValidName(n)
    ensures Anchor(a + n) == Anchor(a)
  {
    assert n[0] != '/' by {
      assert !Text.Contains(n, '/');
    }
    assert (a + n)[|a|] == n[0];
    assert forall i :: 0 <= i < |a| ==> (a + n)[i] == a[i];
  }

  lemma AnchorKeptSlash(a: string, n: string)
    requires a != "" && !Text.EndsWith(a, "/")
    ensures Anchor(a + "/" + n) == Anchor(a)
  {
    assert a[|a| - 1] != '/' by {
      assert a[|a| - 1..] == [a[|a| - 1]];
    }
    var s := a + "/" + n;
    assert s[|a|] == '/';
    assert forall i :: 0 <= i < |a| ==> s[i] == a[i];
  }

  predicate PartsPrefix(base: string, p: string) {
    |Parts(base)| <= |Parts(p)| && Parts(p)[..|Parts(base)|] == Parts(base)
  }

  /** Every path the walk produces lies below the directory it starts in. */
  lemma {:induction false} AllFilesBelow(root: string, t: Tree)
    requires WellNamed(t)
    ensures forall x :: x in AllFiles(root, t) ==> PartsPrefix(root, x.0)
    decreases t, 1
  {
    forall k | 0 <= k < |t.files|
      ensures PartsPrefix(root, JoinPath(root, t.files[k].name))
    {
      PartsOfJoin(root, t.files[k].name);
    }
    AllFilesSubsBelow(root, t, 0);
  }

  lemma {:induction false} AllFilesSubsBelow(root: string, t: Tree, i: nat)
    requires i <= |t.subdirs| && WellNamedSubs(t, i)
    ensures forall x :: x in AllFilesSubs(root, t, i) ==> PartsPrefix(root, x.0)
    decreases t, 0, |t.subdirs| - i
  {
    if i < |t.subdirs| {
      var s := t.subdirs[i];
      var base := JoinPath(root, s.name);
      AllFilesBelow(base, s.tree);
      AllFilesSubsBelow(root, t, i + 1);
      PartsOfJoin(root, s.name);
      forall x | x in AllFiles(base, s.tree)
        ensures PartsPrefix(root, x.0)
      {
        assert PartsPrefix(base, x.0);
        assert Parts(x.0)[..|Parts(root)|] == Parts(x.0)[..|Parts(base)|][..|Parts(root)|];
      }
    }
  }

  lemma {:induction false} UnexcludedConcat(cfg: ScanConfig, a: seq<Found>, b: seq<Found>)
    ensures Unexcluded(cfg, a + b) == Unexcluded(cfg, a) + Unexcluded(cfg, b)
    decreases |a|
  {
    if |a| > 0 {
      UnexcludedConcat(cfg, a[1..], b);
      assert (a + b)[0] == a[0] && (a + b)[1..] == a[1..] + b;
      if ShouldExclude(cfg, a[0].0, a[0].1) {
        assert Unexcluded(cfg, a + b) == Unexcluded(cfg, a[1..] + b);
      } else {
        assert Unexcluded(cfg, a + b) == [a[0]] + Unexcluded(cfg, a[1..] + b);
      }
    } else {
      assert a + b == b;
    }
  }

  lemma {:induction false} UnexcludedNone(cfg: ScanConfig, a: seq<Found>)
    requires forall x :: x in a ==> ShouldExclude(cfg, x.0, x.1)
    ensures Unexcluded(cfg, a) == []
    decreases |a|
  {
    if |a| > 0 {
      UnexcludedNone(cfg, a[1..]);
    }
  }

  lemma {:induction false} KeepFilesFilters(cfg: ScanConfig, root: string, files: seq<FileEntry>)
    ensures KeepFiles(cfg, root, files) == Unexcluded(cfg, Here(root, files))
    decreases |files|
  {
    if |files| > 0 {
      KeepFilesFilters(cfg, root, files[1..]);
      assert Here(root, files)[1..] == Here(root, files[1..]);
    }
  }

  /** A pruned directory holds nothing the exclusion check would let
      through. */
  lemma PrunedHoldsNothing(cfg: ScanConfig, root: string, s: Sub)
    requires ValidName(s.name) && WellNamed(s.tree) && s.name in cfg.excludedDirs
    ensures Unexcluded(cfg, AllFiles(JoinPath(root, s.name), s.tree)) == []
  {
    var base := JoinPath(root, s.name);
    PartsOfJoin(root, s.name);
    AllFilesBelow(base, s.tree);
    forall x | x in AllFiles(base, s.tree)
      ensures ShouldExclude(cfg, x.0, x.1)
    {
      var i := |Parts(root)|;
      assert Parts(x.0)[i] == Parts(base)[i] == s.name;
      assert InExcludedDir(cfg, x.0);
    }
    UnexcludedNone(cfg, AllFiles(base, s.tree));
  }

  /** Pruning excluded directory names before descending only saves work:
      the pruned walk returns exactly the files of the full walk that pass
      the exclusion check, in the same order. */
  lemma {:induction false} PruningIsSafe(cfg: ScanConfig, root: string, t: Tree)
    requires WellNamed(t)
    ensures Collect(cfg, root, t) == Unexcluded(cfg, AllFiles(root, t))
    decreases t, 1
  {
    KeepFilesFilters(cfg, root, t.files);
    PruningIsSafeSubs(cfg, root, t, 0);
    UnexcludedConcat(cfg, Here(root, t.files), AllFilesSubs(root, t, 0));
  }

  lemma {:induction false} PruningIsSafeSubs(cfg: ScanConfig, root: string, t: Tree, i: nat)
    requires i <= |t.subdirs| && WellNamedSubs(t, i)
    ensures CollectSubs(cfg, root, t, i) == Unexcluded(cfg, AllFilesSubs(root, t, i))
    decreases t, 0, |t.subdirs| - i
  {
    if i < |t.subdirs| {
      var s := t.subdirs[i];
      var base := JoinPath(root, s.name);
      PruningIsSafeSubs(cfg, root, t, i + 1);
      UnexcludedConcat(cfg, AllFiles(base, s.tree), AllFilesSubs(root, t, i + 1));
      if s.name in cfg.excludedDirs {
        PrunedHoldsNothing(cfg, root, s);
      } else {
        PruningIsSafe(cfg, base, s.tree);
      }
    }
  }
}

=== FILE: wrappers.dfy ===
/** Failure-compatible wrappers used throughout the model: `Option` for
    Python's "value or None" and `Result` for "value or raised exception". */
module Wrappers {

  datatype Option<+T> = None | Some(value: T) {
    predicate IsFailure() { None? }

    function PropagateFailure<U>(): Option<U>
      requires None?
    {
      None
    }

    function Extract(): T
      requires Some?
    {
      value
    }

    /** The value, or `default` when absent (Python's `d.get(k, default)`). */
    function GetOr(default: T): T {
      match this
      case Some(v) => v
      case None => default
    }
  }

  datatype Result<+T, +E> = Ok(value: T) | Err(error: E) {
    predicate IsFailure() { Err? }

    function PropagateFailure<U>(): Result<U, E>
      requires Err?
    {
      Err(error)
    }

    function Extract(): T
      requires Ok?
    {
      value
    }
  }
}
